=== FILE: README.md ===
# OpenKJ Online Request Platform — a verified model of the request server

The server sits between karaoke hosts running OpenKJ and the patrons of their
venues. Patrons register, log in, search the songbook, keep favourites and
submit song requests to a venue that is accepting them. The host's OpenKJ
client authenticates with an API key and talks to a single command endpoint.
Through it the client polls the request queue and a global serial number,
deletes or clears requests, toggles a venue's accepting flag, and uploads or
wipes the songbook. Administrators log in with a token and manage venues,
users and requests.

The model keeps the tables in one `Store.Database` object: venues, requests,
songbook, favourites, users, patrons, API keys and the single state row
holding the serial. Every handler that writes a table is a method on that
object with a field-level `modifies` frame. Its postcondition gives the reply
and the new contents of every table it touches; `db.Valid()` (unique keys,
unique user names and e-mails, unique favourites, unique venue URL names)
holds before and after. Column constraints follow the migrations that create the tables, as the models' `sync` is not called: `venues.url_name` is NOT NULL there, though the venue model allows null. The OpenKJ commands are specified over
`Store.Tables`, a value holding the tables they read or write. Each command
is a predicate relating the tables before and after and the reply, and
`OpenKJ.Effect` picks the command's predicate. Guards, lookups, orderings and text processing are
functions. Lemmas state what the source promises about them: queue order,
what listings contain, normalisation idempotence, page arithmetic, token and
gate round trips, and which replies cannot be told apart.

Modules follow the source files:

| module | models |
|---|---|
| `Values`, `Text`, `Ordering` | JavaScript truthiness, `String(x)`, `trim`, `split`/`join`, `parseInt`, key casting, the reply shape, and `ORDER BY` as a stable sort |
| `Store` | the tables, the state row (`updateSerial`, `ensureStateRow`) |
| `AuthMiddleware` | `verifyOpenKJApiKey`, `verifyAdminToken`, `verifyPatronToken` |
| `OpenKJ` | `handleOpenKJCommand` and its eleven commands |
| `PatronRequests` | `submitRequest` |
| `AdminRequests` | `listRequests`, `deleteRequest`, `purgeVenueRequests` |
| `SongSearch` | pagination, `basicNormalize`, `convertTokensNumbers`, `improvedNormalize`, tsquery strings |
| `Favorites` | `listFavorites`, `addFavorite`, `removeFavorite` |
| `AdminVenues` | `createVenue`, `getVenueById`, `updateVenue`, `deleteVenue` |
| `AdminUsers` | `createUser`, `getUserById`, `updateUser`, `deleteUser` |
| `PatronAuth` | patron `register` and `login` |
| `AdminAuth` | administrator `login` |

Foreign code becomes function parameters: the geocoder (an `Address` to an
optional coordinate pair), bcrypt hashing and comparison, JWT signing and
verification, the e-mail validator of the models, and the `written-number`
library. The clock reading stored as a request's time is a parameter too.

A request body property that is absent, `null` or given is modelled by
`Field<T>` (`Omitted | Nulled | Given`). The `??` merges and the "only
supplied fields change" updates need all three.

## Model

| member | source | states |
|---|---|---|
| Store.Database.constructor | models/state.model.js:10-14 | a fresh store has empty tables and no state row, so the serial reads as the default 0; every key counter starts at 1 |
| Store.Database.EnsureStateRow | models/index.js:59-72 | a missing state row is created with serial 0, and an existing one keeps its serial |
| Store.Database.UpdateSerial | controllers/openkj.controller.js:14-37 | the serial goes up by exactly one, the state row exists afterwards, and the new value is returned |
| Store.PartitionByVenue | controllers/admin.requests.controller.js:58-60 | a venue's requests and all the others together are exactly the table, so a purge's count is the number of rows removed |
| AuthMiddleware.CheckApiKey | middleware/auth.middleware.js:11-52 | a falsy key is refused as missing. A string key, or an array of strings and nulls (which `findOne` matches with `IN`), is accepted exactly when some stored key is among its texts and, for a venue command with a truthy venue id, that venue exists. An unknown non-empty string key gets "Invalid API key". Any other value is refused, since `substring` or the cast throws. An accepted key carries that stored key's id and its owner, or the placeholder when the owner is gone. Every refusal has the error flag and status 200 or 500 |
| AuthMiddleware.KeyInArrayAccepted | middleware/auth.middleware.js:13-22 | a key sent as the first item of a repeated `api_key` field is accepted whenever it is accepted on its own |
| AuthMiddleware.CheckVenue | middleware/auth.middleware.js:33-45 | an accepted key stays accepted unless a venue command names a truthy venue id that cannot be cast or names no venue; the refusal is an error reply with status 200 or 500 |
| Values.Key | controllers/admin.venues.controller.js:62-76 | a number is compared as it is. A decimal digit string is cast to its value when it fits the 32-bit `INTEGER` column, and anything else fails the query; `KeyOfText` and `KeyOutOfRange` give both sides of the range |
| Values.KeyOutOfRange | controllers/admin.venues.controller.js:62-76 | the digits of a number beyond 2147483647 fail the cast, so such an id in a path is a failed query (500), not a missing row |
| Values.TextsIn | middleware/auth.middleware.js:22 | the texts an array key matches are exactly its string items; `null` items match nothing, and any other item makes the query fail |
| Values.KeysIn | controllers/admin.requests.controller.js:12-16 | the keys an array filter selects are exactly the casts of its items; `null` items select nothing, and an item that cannot be cast makes the query fail |
| AuthMiddleware.BearerToken | middleware/auth.middleware.js:57-61 | a token is extracted only from a header starting with `Bearer `, and it is non-empty and holds no space |
| AuthMiddleware.BearerTokenRoundTrip | middleware/auth.middleware.js:57-61 | `Bearer ` followed by a space-free token gives the token back |
| AuthMiddleware.JwtFailure | middleware/auth.middleware.js:86-97 | an expired or malformed token is a 401 and any other verification failure a 500 |
| AuthMiddleware.AdminGate | middleware/auth.middleware.js:55-98 | no token is a 401. The gate admits exactly a verified token whose user exists with the admin flag, and the admitted user is the stored user named by that token's `userId` claim. Every denial is 401, 403 or 500 |
| AuthMiddleware.PatronGate | middleware/auth.middleware.js:101-144 | no token is a 401. The gate admits exactly a verified token with a non-zero patron id naming a stored patron, and hands on that token's claims and the stored patron named by its `patronId`. Every denial is 401 or 500 |
| AuthMiddleware.PatronTokenNotAdmin | middleware/auth.middleware.js:70-74 | a patron's token, which has no user id, is refused by the admin gate with 401 "User not found" |
| AuthMiddleware.AdminTokenNotPatron | middleware/auth.middleware.js:113-116 | an admin's token, which has no patron id, is refused by the patron gate as the wrong token type |
| OpenKJ.ParseCommand | controllers/openkj.controller.js:80-106 | a command is recognised exactly when the value is the string name of one of the eleven commands |
| OpenKJ.ParseCommandName | controllers/openkj.controller.js:80-106 | every command's name parses back to that command |
| OpenKJ.VenueCommandsAgree | controllers/openkj.controller.js:70-75 | the middleware's four venue commands are exactly the commands the dispatcher requires a venue id for |
| OpenKJ.TimeLeTotal | controllers/openkj.controller.js:149-177 | ordering by request time with null times last is a total preorder |
| OpenKJ.Queue | controllers/openkj.controller.js:149-177 | the queue has at most as many rows as the venue has requests; `QueueInTimeOrder` and `QueueContents` give its order and contents |
| OpenKJ.QueueInTimeOrder | controllers/openkj.controller.js:149-177 | the queue sent to OpenKJ is in ascending order of whole seconds |
| OpenKJ.QueueContents | controllers/openkj.controller.js:149-177 | the queue holds exactly the rows of the venue's requests that have a time, each time floored to seconds |
| OpenKJ.GetSerialCmd | controllers/openkj.controller.js:117-135 | getSerial creates the state row if needed, changes no other table and never the serial, and replies with the serial |
| OpenKJ.GetRequestsCmd | controllers/openkj.controller.js:137-190 | getRequests changes nothing and replies with the venue's queue and the current serial, or an error for a missing or unusable venue id |
| OpenKJ.DeleteRequestCmd | controllers/openkj.controller.js:192-231 | a request id is required. The row found is the first request of the given venue whose id is the given one or, for an array, one of its items (`IN`); only that row is removed, and then the serial goes up by one. "Request not found." (also for an empty array) and every refusal leave all tables unchanged |
| OpenKJ.ArrayRequestId | controllers/openkj.controller.js:206-211 | an id inside a one-item array selects what it selects on its own, and an empty array selects no row |
| OpenKJ.VenueList | controllers/openkj.controller.js:286-294 | the list holds exactly the stored venues' rows, reordered; `VenueListCorrect` adds the name order |
| OpenKJ.VenueListCorrect | controllers/openkj.controller.js:280-302 | the venue list holds each venue once with its id, name and accepting flag, sorted by name |
| OpenKJ.EntitledCount | controllers/openkj.controller.js:480-495 | the count is the number of venues, or 1 when there are none, so it is at least 1 |
| OpenKJ.CoerceAccepting | controllers/openkj.controller.js:243-247 | a boolean is read as itself, and a missing or null value is neither flag; `AcceptingAccepts` and `AcceptingRefusesNumbers` cover the strings and numbers |
| OpenKJ.AcceptingAccepts | controllers/openkj.controller.js:242-250 | `true`/`false`, `'1'`/`'0'` and `'true'`/`'false'` in any letter case map to the matching boolean |
| OpenKJ.AcceptingRefusesNumbers | controllers/openkj.controller.js:242-250 | a numeric 1 or 0 is not an accepted value |
| OpenKJ.SetAcceptingCmd | controllers/openkj.controller.js:233-278 | any other accepting value, an uncastable id and an unknown venue are refused with no change. For an existing venue only its accepting flag changes and the serial goes up by one |
| OpenKJ.ClearRequestsCmd | controllers/openkj.controller.js:304-327 | exactly that venue's requests are removed and the serial goes up by one |
| OpenKJ.CheckEntry | controllers/openkj.controller.js:354-375 | an entry is accepted exactly when artist and title are strings that are non-empty after trimming, and it is stored trimmed |
| OpenKJ.ScanEntries | controllers/openkj.controller.js:354-375 | every entry is counted once as an error or as a song to add, and the last song to add is the last valid entry |
| OpenKJ.ScanGathers | controllers/openkj.controller.js:354-375 | an error is gathered exactly when some entry is refused with it, and a song exactly when some entry is accepted as it |
| OpenKJ.ScanChecks | controllers/openkj.controller.js:354-375 | no error is gathered exactly when every entry is valid, and no song exactly when every entry is invalid |
| OpenKJ.ScanSongs | controllers/openkj.controller.js:354-375 | the loop fails exactly when some entry cannot be destructured; otherwise it produces the scan of the entries |
| OpenKJ.MergeSongsCorrect | controllers/openkj.controller.js:380-406 | bulk insertion keeps every existing song and adds exactly the combined keys of the batch, ignoring duplicates |
| OpenKJ.AddSongsCmd | controllers/openkj.controller.js:329-427 | without a songs array, or with an entry that cannot be destructured, nothing changes. Otherwise the songbook gains the valid entries and no other table changes. The error flag is set iff some entry was invalid, the count and last artist/title are those of the valid entries, and the serial goes up iff some entry was valid |
| OpenKJ.StoreScanned | controllers/openkj.controller.js:377-424 | once every entry has been destructured, the valid songs are merged into the songbook and nothing else changes. The reply's error flag, count and last artist/title are those of the scan, and the serial goes up exactly when some entry was valid |
| OpenKJ.BulkInsert | controllers/openkj.controller.js:380-396 | an empty batch changes nothing. Otherwise the songbook becomes the old one merged with the batch (duplicates of a combined key ignored, fresh keys handed out), and the key counter moves past the batch. The serial goes up by one exactly when asked, and no other table changes |
| OpenKJ.ClearDatabaseCmd | controllers/openkj.controller.js:429-454 | the songbook is emptied, the serial goes up by one, and venues and requests are untouched |
| OpenKJ.AlertPayload | controllers/openkj.controller.js:456-478 | the alert reply never raises an alert |
| OpenKJ.RunCommand | controllers/openkj.controller.js:80-106 | each recognised command has exactly its handler's effect on the tables and its reply (`Effect`). The read-only commands change nothing, and every command raises the serial by at most one |
| OpenKJ.WriteCommand | controllers/openkj.controller.js:80-106 | each writing command has its handler's effect: its reply, the tables it writes, and every other table unchanged |
| OpenKJ.ReadCommand | controllers/openkj.controller.js:80-106 | each read-only command gives its handler's reply, computed from the current tables |
| OpenKJ.Dispatch | controllers/openkj.controller.js:54-113 | a missing command, a venue command without a venue id and an unrecognised command each give the error reply and change nothing. Any other body has exactly its command's effect, and a read-only command changes nothing |
| OpenKJ.HandleOpenKJ | middleware/auth.middleware.js:11-52 | a request refused by the API-key check never reaches a handler and changes nothing. An accepted request that passes the dispatcher's checks has exactly its command's effect |
| PatronRequests.KeyChange | controllers/request.controller.js:21-46 | a number below 10^21 in magnitude is kept as it is; a larger one becomes a single digit of its sign, 1 to 9 or -9 to -1, since `String` writes it in exponent form; text with no leading number becomes 0 |
| PatronRequests.NumberKeyChange | controllers/request.controller.js:46 | `parseInt(n, 10) \|\| 0` of a number n is n below 10^21 in magnitude, and from there on the leading digit of n with n's sign |
| PatronRequests.KeyChangeValues | controllers/request.controller.js:21-46 | key_change sent as the decimal text of an integer is that integer, and it is 0 when it is missing, null or text without a leading number |
| PatronRequests.Refusal | controllers/request.controller.js:21-62 | missing fields give 400, an unknown venue 404 and a venue not accepting 403, each with its message. A text field that is not a string, or a parsed key change beyond the 32-bit `INTEGER` range (a number from 10^21 on parses to one digit and passes), fails with 500. A submission passes exactly when none of these applies |
| PatronRequests.SubmitRequest | controllers/request.controller.js:20-64 | a refused submission changes nothing. An accepted one appends the request with trimmed artist, title and singer, the parsed key change and the clock value under the next request key. The key counter moves on by one and the serial rises by exactly one |
| PatronRequests.SubmissionJoinsQueue | controllers/request.controller.js:41-51 | a submitted request appears in its venue's OpenKJ queue, which otherwise keeps its rows |
| PatronRequests.SubmissionLeavesOtherQueues | controllers/request.controller.js:41-51 | a submission leaves every other venue's queue unchanged |
| AdminRequests.ListRequests | controllers/admin.requests.controller.js:8-29 | a venue filter that cannot be cast, or an array filter with such an item, is a 500. Otherwise the reply lists the selected requests sorted by time with each one's venue name |
| AdminRequests.FilterVenues | controllers/admin.requests.controller.js:10-16 | no filter selects every venue. A repeated `venue_id`, which the query parser turns into an array, selects exactly the venues its items name. A single value selects its cast, and a value that cannot be cast fails |
| AdminRequests.ListRequestsCorrect | controllers/admin.requests.controller.js:12-22 | the listing is a time-sorted permutation of the selected requests. With a filter it holds exactly the requests of the venues the filter names, and each row names its venue |
| AdminRequests.TwoVenuesListed | controllers/admin.requests.controller.js:10-22 | `?venue_id=a&venue_id=b` lists exactly the requests of venues a and b |
| AdminRequests.DeleteRequest | controllers/admin.requests.controller.js:31-46 | 204 exactly when the id exists, and then only that request is gone; otherwise 404 and nothing changes. The serial is never touched |
| AdminRequests.PurgeMessageSaysUndefined | controllers/admin.requests.controller.js:58-62 | as written, the purge message always reads "undefined" in place of the count |
| AdminRequests.PurgeMessageCarriesCount | controllers/admin.requests.controller.js:58-62 | the corrected message carries the decimal count of deleted rows |
| AdminRequests.PurgeVenueRequests | controllers/admin.requests.controller.js:48-67 | an unknown venue is a 404 with no change. Otherwise every request of the venue and no other is removed, the reply reports that number, and the serial is never touched |
| SongSearch.TotalPagesBounds | controllers/song.controller.js:114 | the page count is the least number of pages that holds all items: `(t-1)*limit < count <= t*limit` |
| SongSearch.TotalPages | controllers/song.controller.js:143 | the page count is null exactly when the limit is 0 (`ceil` of a division by zero) |
| SongSearch.GetPagination | controllers/song.controller.js:9-13 | the limit is the given size or 20, and the offset skips the whole pages before the given page (none when no page is given); `PageWindowExact` shows these windows tile the items |
| SongSearch.PageOfItem | controllers/song.controller.js:9-13 | every item lies on a page between 1 and the page count, and that page's offset and limit cover it |
| SongSearch.PageWindowExact | controllers/song.controller.js:9-13 | item k lies in page p's window exactly when p is k div limit plus 1, so the pages tile the items with no gap and no overlap |
| SongSearch.QueryPagination | controllers/song.controller.js:56-57 | the limit is the default when `size` is absent, 20 when it is empty, and the given number otherwise. The offset is (page-1) times the limit when a page is given, and 0 otherwise |
| SongSearch.PunctToSpace | controllers/song.controller.js:19 | every character that is neither a word character nor white space becomes a space, and the length is kept |
| SongSearch.CollapseSpaces | controllers/song.controller.js:20 | the only white space left is the plain space, never two in a row, and every other character comes from the input |
| SongSearch.BasicNormalize | controllers/song.controller.js:16-23 | empty input gives empty output; any output is lower-case word characters separated by single spaces with none at either end |
| SongSearch.BasicNormalizeIdempotent | controllers/song.controller.js:16-23 | normalising a normalised string changes nothing |
| SongSearch.NoComma | controllers/song.controller.js:40-45 | a normalised string has no comma, so the artist/title reversal never applies |
| SongSearch.ConvertTokensNumbers | controllers/song.controller.js:26-34 | text with no all-digit token comes back unchanged; `ConvertChangesIff` gives the converse |
| SongSearch.ConvertKeepsText | controllers/song.controller.js:26-34 | text whose number tokens the conversion leaves alone comes back unchanged |
| SongSearch.ConvertChangesIff | controllers/song.controller.js:26-34 | when number words contain no digits, the conversion changes the text exactly when the text has an all-digit token |
| SongSearch.ConvertDropsDigits | controllers/song.controller.js:26-34 | when number words contain no digits, the conversion never adds a digit, and it removes some when a token is all digits |
| SongSearch.NumberVariantIffDigits | controllers/song.controller.js:37-52 | when number words contain no digits, a search gets a second, number-words variant exactly when its normalised text has an all-digit token |
| SongSearch.ImprovedNormalize | controllers/song.controller.js:37-52 | empty input gives `['']`. Otherwise the first variant is the normalised text, and a second variant, its number-words form, appears exactly when that form differs |
| SongSearch.TsQuery | controllers/song.controller.js:62-67 | a single word becomes that word with the prefix marker `:*`; `TsQueryTerms` gives the terms of a longer variant |
| SongSearch.EmptyVariantQuery | controllers/song.controller.js:62-67 | an empty variant becomes the bare prefix term `:*` |
| SongSearch.NormalTokens | controllers/song.controller.js:62-67 | every term of a non-empty normalised variant is a non-empty run of lower-case word characters |
| SongSearch.TsQueryTerms | controllers/song.controller.js:62-67 | splitting a variant's tsquery at `&` gives back its words, each with the `:*` prefix marker and the spaces of the ` & ` joins |
| SongSearch.JoinAmpersand | controllers/song.controller.js:66 | joining with ` & ` is joining with `&` once each item carries its surrounding spaces |
| SongSearch.PlanSearch | controllers/song.controller.js:55-135 | full-text search is used exactly when `q` is given. tsquery0 is the tsquery of its normalised text, and a tsquery1 of the number-words form is present exactly when that form differs. The artist and title patterns are `%` + the normalised filter + `%`, present exactly when the filter is. Paging is `getPagination` with default size 20 |
| SongSearch.ArtistPaging | controllers/song.controller.js:175-202 | paging is `getPagination` with default size 100. The query fails, answered 500, exactly when the limit is negative or a page below 1 gives a negative offset. Otherwise the page count is null exactly when the limit is 0, and else the least number of pages that holds every distinct artist; the current page is the given one, or 1 |
| Favorites.PatronFavorites | controllers/favorite.controller.js:15-34 | the list holds exactly the patron's favourites whose song still exists |
| Favorites.NewestFirst | controllers/favorite.controller.js:15-34 | a newly added favourite heads its patron's list, and other patrons' lists are unchanged |
| Favorites.ListFavorites | controllers/favorite.controller.js:10-40 | an unknown patron is a 404; otherwise 200 with exactly that patron's favourite songs |
| Favorites.Remove | controllers/favorite.controller.js:90-95 | removal deletes only the given pair |
| Favorites.RemoveUnique | controllers/favorite.controller.js:90-95 | removal keeps pairs unique and deletes exactly one row when the pair was there |
| Favorites.RemoveAdded | controllers/favorite.controller.js:58-95 | adding a new pair and removing it gives the table back |
| Favorites.AddFavorite | controllers/favorite.controller.js:42-79 | a missing song id is a 400 and an unknown song a 404, with no change. A repeated pair is a 200 with no change, and an unknown patron a 400. Otherwise 201 and the pair set gains exactly that pair |
| Favorites.RemoveFavorite | controllers/favorite.controller.js:81-110 | 204 exactly when the pair existed, and then only that pair is gone; otherwise 404 and nothing changes |
| AdminVenues.Address2Ignored | controllers/admin.venues.controller.js:21 | address2 has no say in whether a new venue is geocoded |
| AdminVenues.CreateCoords | controllers/admin.venues.controller.js:21-29 | a new venue is geocoded exactly when some of address1, city, state or zip is truthy |
| AdminVenues.NewVenue | controllers/admin.venues.controller.js:18-32 | lat/lon are set exactly when the geocoder gave coordinates, and accepting defaults to false |
| AdminVenues.CreateVenue | controllers/admin.venues.controller.js:8-48 | no name is a 400 with no change. A missing or null URL name breaks the `url_name` NOT NULL constraint of the venues table (migrations/20250327232526-create-venue.js:16-20) and is a 500 with no change. A URL name in use is refused with no change. Otherwise the venue is stored under a fresh id and returned with 201 |
| AdminVenues.GetVenue | controllers/admin.venues.controller.js:62-76 | the venue with that id with 200, otherwise a 404, or a 500 for an id that cannot be cast |
| AdminVenues.AddressChanged | controllers/admin.venues.controller.js:95-97 | a body without address1, city, state or zip never counts as a change, and when nothing changed the address sent for geocoding is the stored one |
| AdminVenues.MergedAddress | controllers/admin.venues.controller.js:103-108 | a body giving every address part is geocoded as given, and one giving none is geocoded at the stored address |
| AdminVenues.Merge | controllers/admin.venues.controller.js:103-108 | each geocoded address field comes from the update when present, else from the stored venue |
| AdminVenues.UpdateCoords | controllers/admin.venues.controller.js:95-119 | an update is re-geocoded exactly when the address changed, using the merged address |
| AdminVenues.SameAddressNotGeocoded | controllers/admin.venues.controller.js:95-97 | an update that repeats or omits every address field is not an address change |
| AdminVenues.CoordinatesOfUpdate | controllers/admin.venues.controller.js:111-124 | when re-geocoding gives nothing, lat/lon change only if the update names them; new coordinates come only from an address change |
| AdminVenues.Updated | controllers/admin.venues.controller.js:99-124 | the name is the given one or the stored one. Coordinates the geocoder found replace both the stored ones and any in the body; otherwise a left-out column keeps its value, a null one becomes null and a given one is set |
| AdminVenues.EmptyUpdateKeepsVenue | controllers/admin.venues.controller.js:99-124 | an empty update leaves the venue as it was |
| AdminVenues.UpdateError | controllers/admin.venues.controller.js:124-139 | a null name fails validation, and a null URL name is a database error (the NOT NULL column). The update goes through exactly when neither is null and the URL name is not another venue's |
| AdminVenues.UpdateVenue | controllers/admin.venues.controller.js:78-140 | an empty name is a 400 and an unknown venue a 404, with no change. A failed update changes nothing: a null name is a 400, a null URL name a 500 and a URL name in use the caught conflict. Otherwise only that venue is replaced by its update |
| AdminVenues.UpdateKeepsVenuesValid | controllers/admin.venues.controller.js:124 | an update that sets no null URL name and takes no other venue's keeps every URL name present and unique |
| AdminVenues.DeleteVenue | controllers/admin.venues.controller.js:142-159 | an unknown venue is a 404 with no change; otherwise the venue and its requests are removed |
| AdminUsers.AdminFlag | controllers/admin.users.controller.js:10-29 | is_admin defaults to true when absent and is null when sent as null |
| AdminUsers.View | controllers/admin.users.controller.js:32-35 | the user as replied: every column but the password hash |
| AdminUsers.CreateUser | controllers/admin.users.controller.js:9-45 | missing fields are a 400 and an existing username or e-mail a 409, with no change. Otherwise the user is added with the hashed password and returned without it |
| AdminUsers.GetUser | controllers/admin.users.controller.js:61-77 | the stored user without password hash, or a 404 |
| AdminUsers.Changes | controllers/admin.users.controller.js:92-101 | only a supplied e-mail, password or is_admin is changed, and is_admin is coerced to a boolean |
| AdminUsers.ApplyChanges | controllers/admin.users.controller.js:103-104 | an update keeps id and username and changes only the supplied columns |
| AdminUsers.UpdateUser | controllers/admin.users.controller.js:79-121 | an unknown user is a 404 and an empty change set a 400, with no change. A failed update changes nothing; otherwise only that user is updated |
| AdminUsers.UpdateKeepsUsersValid | controllers/admin.users.controller.js:103-104 | an update to an e-mail no other user has keeps users unique |
| AdminUsers.RemoveUser | controllers/admin.users.controller.js:138 | deletion removes exactly that user |
| AdminUsers.RemoveUserValid | controllers/admin.users.controller.js:138 | deleting a user keeps the users table valid |
| AdminUsers.KeysWithout | controllers/admin.users.controller.js:138 | the user's API keys go with the user, and all others stay |
| AdminUsers.IsSelf | controllers/admin.users.controller.js:128 | a decimal id in the path is the requester's own exactly when its value is the requester's id |
| AdminUsers.OwnIdIsSelf | controllers/admin.users.controller.js:128-130 | the requester's own id, written in decimal, is recognised as self-deletion |
| AdminUsers.DeleteUser | controllers/admin.users.controller.js:123-146 | deleting one's own id is a 400 before any lookup, and an unknown user a 404, with no change; otherwise the user and their API keys are removed |
| PatronAuth.EmailPattern | controllers/patron.auth.controller.js:18 | text matching the pattern has at least five characters and contains a dot |
| PatronAuth.EmailPatternAccepts | controllers/patron.auth.controller.js:18-20 | every space-free `local@domain.tld` passes the e-mail pattern |
| PatronAuth.EmailPatternNeedsAt | controllers/patron.auth.controller.js:18-20 | text without `@` fails the e-mail pattern |
| PatronAuth.RegisterRefusal | controllers/patron.auth.controller.js:14-26 | missing fields and a bad e-mail are 400s, a registered e-mail is a 409, and registration goes ahead exactly when none of these or a validation failure applies |
| PatronAuth.Register | controllers/patron.auth.controller.js:11-50 | a refused registration stores nothing; otherwise the patron is stored with the hashed password and returned without it |
| PatronAuth.TokenClaims | controllers/patron.auth.controller.js:76-81 | a patron's token carries exactly the patron id and e-mail, and no admin flag |
| PatronAuth.Login | controllers/patron.auth.controller.js:52-107 | missing fields are a 400. The login succeeds exactly when the patron exists, has a password and it matches. Every failure is a 400 or 401 |
| PatronAuth.NoPasswordNoLogin | controllers/patron.auth.controller.js:63-66 | a patron without a password hash always gets 401 |
| PatronAuth.LoginTokenPassesPatronGate | controllers/patron.auth.controller.js:76-81 | a patron's login token opens the patron gate for that patron |
| AdminAuth.TokenClaims | controllers/auth.controller.js:44-48 | an admin's token carries the stored user's id, name and admin flag, and no patron id |
| AdminAuth.Login | controllers/auth.controller.js:14-76 | missing fields are a 400, an unknown user or a wrong password the same 401, and a non-admin with the right password a 403. Success requires the admin flag and returns the user without the hash |
| AdminAuth.FailuresIndistinguishable | controllers/auth.controller.js:24-35 | an unknown username and a wrong password give identical replies |
| AdminAuth.LoginTokenPassesAdminGate | controllers/auth.controller.js:44-48 | an admin's login token opens the admin gate for that user |
| Values.CatchAsWritten | controllers/admin.venues.controller.js:36-47 | as written, every caught error is an error reply, and it is 400 exactly when the error is a validation error, unique violations included |
| Values.ConflictUnreachable | controllers/admin.venues.controller.js:36-47 | as written, a unique-constraint violation is answered 400 "Validation failed" and the 409 branch never fires |
| Values.CatchFailure | controllers/admin.users.controller.js:109-120 | corrected: the reply is 409 exactly for a unique violation and 400 exactly for a validation failure |
| Values.CatchFailureAgrees | controllers/admin.venues.controller.js:128-139 | the corrected catch differs from the written one only on unique violations, which now get the conflict message |
| Text.ToJsString | controllers/openkj.controller.js:243-245 | `String(x)` of text is the text itself; `String(n)` of a number below 10^21 in magnitude is its decimal digits, led by `-` when n is negative; from 10^21 on it is the leading digit (after the `-`) followed by a character that is not a digit |
| Text.NumberToString | controllers/request.controller.js:46 | below 10^21 in magnitude, the decimal digits of n, led by `-` when n is negative; from 10^21 on, the exponent form: n's leading digit, after a `-` when n is negative, then the `.` or `e` that is not a digit |
| Text.ExponentForm | controllers/request.controller.js:46 | the exponent form of m starts with m's leading digit, then a `.` or the `e` |
| Text.LeadingDigit | controllers/request.controller.js:46 | the leading digit of m is a digit, and not 0 when m is positive |
| Text.ParseIntOfNumber | controllers/request.controller.js:46 | `parseInt(String(n), 10)` is n for every integer below 10^21 in magnitude, and from there on the leading digit of n with n's sign |
| Text.ParseIntOfOneDigit | controllers/request.controller.js:46 | `parseInt` reads a digit followed by a non-digit as that digit |
| Text.ParseIntPrefix | controllers/request.controller.js:46 | `parseInt` reads an optionally negated run of digits followed by a non-digit as the run's value |
| Text.ParseIntOfNegatedDigit | controllers/request.controller.js:46 | `parseInt` reads `-`, a digit and a non-digit as the negated digit |
| Text.ParseInt | controllers/request.controller.js:46 | a string of decimal digits is read as its value |
| Text.ParseIntOfIntToString | controllers/request.controller.js:46 | `parseInt` reads the decimal text of any integer, led by `-` when it is negative, back as that integer |
| Ordering.Sort | controllers/admin.requests.controller.js:17-22 | `ORDER BY` only reorders: the sorted rows are a permutation of the input |
| Ordering.SortCorrect | controllers/openkj.controller.js:149-160 | for a total order, the sorted rows are in order and are a permutation of the input |

## Left out

- I/O, logging, timing and concurrency: handlers run one at a time on in-memory tables, so races on the serial and the atomicity of `increment` are not modelled.
- `updateSerial`'s fallback when the write fails (an estimated serial returned without writing), and every other thrown database error except those named below.
- The command name echoed in every OpenKJ reply, and the exact shape of the `connectionTest` reply.
- Store.Database.EnsureStateRow: a single database row is modelled by the `hasState` flag and the `serial` field.
- OpenKJ.ClearDatabaseCmd: `TRUNCATE` is modelled as succeeding. In Postgres the favourites' foreign key to the songbook would make it fail while favourites exist.
- OpenKJ.AddSongsCmd: an entry that cannot be destructured (`null`) throws. The model returns `Thrown` and leaves the store unchanged; the generic error middleware's reply is not modelled.
- Text.NumberToString: the exponent form is written with the exact decimal digits of n. JavaScript writes the shortest digits that round to the same double, which differ from n's own beyond 17 significant digits. Only the leading digit is read by `parseInt`, and that digit is the same.
- Number values: only integers are modelled, each exactly, including those beyond 2^53 that a double cannot hold. Non-integer numbers, `NaN` and floating-point coercion in key casting, `+page`/`+size` and `Math.ceil` are not. The serial and the auto-increment keys are unbounded: overflowing the 32-bit columns after 2^31 insertions is not modelled.
- Values.Key: a signed or space-padded digit string, which the database would also cast, is modelled as failing the cast.
- String order: `ORDER BY name` is code-point order, not the database collation. Ties keep table order.
- `toLowerCase` is modelled for ASCII letters only.
- Full-text matching and ranking (`to_tsquery`, `ts_rank`, `LIKE` on the lower-cased columns): only the strings handed to the database are modelled. The artist and title conditions are appended after the `OR` of the two tsqueries without parentheses, so SQL's precedence applies them to the number-words variant only; the model, which does not evaluate the condition, does not show this. `getSongById` and the rows of `listArtists` are plain reads and are not modelled.
- The geocoder, bcrypt, JWT signing and verification, the models' `isEmail` validator and the `written-number` library are parameters. The clock value stored as the request time is a parameter too.
- Sequelize `BOOLEAN` coercion of body values, column lengths and the `details` list of validation replies are not modelled. The typed bodies of venues, users and logins carry strings, booleans and reals as given.
- AuthMiddleware.CheckApiKey: when an array key matches several stored keys, the first in table order is taken, since `findOne` has no `ORDER BY`. An item that is neither a string nor `null` is modelled as a failed query, without the thrown error's text.
- SongSearch.PlanSearch: `q`, `artist` and `title` are taken as strings. A repeated query parameter arrives as an array, on which `toLowerCase` throws, and the source answers 500; that path is not modelled. A negative size, or a page below 1 with a positive size, makes the search query fail with 500 as in `listArtists`; the plan carries such paging as given, since the query itself is not modelled.
- AdminRequests.ListRequests: an array filter whose items cannot all be cast is modelled as a failed query. The database's own error text is not modelled.
- PatronAuth.RegisterRefusal: a mobile number already in use is modelled as the model validator's "Validation failed" 400, as the unique constraint's error is caught there.
- PatronRequests.Refusal: the validation-error branch of `submitRequest` cannot fire on the modelled table, whose columns have no validators, so it is not modelled.
- Favorites.PatronFavorites: the favourites' timestamp is modelled by table order, newest last, since the rows are only ever appended.
- The public venues controller (distance search with floating-point trigonometry), `listVenues` and `listUsers` are not part of this model.

## Findings

| source | as written | input that shows it | evidently intended | confidence | as-written member | corrected member |
|---|---|---|---|---|---|---|
| controllers/admin.venues.controller.js:36-47 | the catch tests `instanceof ValidationError` before `instanceof UniqueConstraintError`, and Sequelize's unique-constraint error is a subclass of its validation error, so a URL name (or, in `updateUser`'s catch at admin.users.controller.js:109-120, which runs the update with no check of its own first, an e-mail) already in use is answered 400 "Validation failed" | creating a venue with the `url_name` of an existing venue | 409 with "Create failed: URL Name may already be in use." | not executed | Values.ConflictUnreachable | Values.CatchFailure |
| controllers/admin.requests.controller.js:58-62 | `Request.destroy` resolves to a number, and the message reads its `count` property, which is `undefined` | purging a venue that has 3 requests | "Successfully purged 3 requests for venue ID …" | not executed | AdminRequests.PurgeMessageSaysUndefined | AdminRequests.PurgeMessageCarriesCount |

=== FILE: admin_auth.dfy ===
/**
 * Administrator login: presence of the credentials, the user, the password,
 * then the admin flag, in that order. Password comparison and token signing
 * are parameters; nothing in the store changes.
 */
module AdminAuth {
  import opened Values
  import opened Text
  import Store
  import AuthMiddleware

  /** What an admin's login returns besides the token: no password hash. */
  datatype UserInfo = UserInfo(userId: int, username: string, email: string, isAdmin: Option<bool>)

  datatype LoginBody = LoginBody(token: string, user: UserInfo)

  predicate Present(s: Option<string>)
  {
    s.Some? && s.value != ""
  }

  /** The payload of an admin's token: the user's key, name and admin flag, and no patron key. */
  function TokenClaims(u: Store.User): (c: AuthMiddleware.Claims)
    ensures AuthMiddleware.AdminClaims(c)
    ensures c.userId == Some(u.userId) && c.username == Some(u.username) && c.isAdmin == u.isAdmin
  {
    AuthMiddleware.Claims(Some(u.userId), Some(u.username), u.isAdmin, None, None)
  }

  /** The user with the username. */
  function FindByName(users: seq<Store.User>, name: string): (r: Option<Store.User>)
    ensures r.Some? ==> r.value in users && r.value.username == name
    ensures r.None? ==> forall u :: u in users ==> u.username != name
  {
    match Store.FirstIndex(users, (u: Store.User) => u.username == name)
    case None => None
    case Some(i) => Some(users[i])
  }

  /**
   * `login`: missing credentials are a 400; an unknown user and a wrong
   * password are the same 401; a correct password of a user who is not an
   * admin is a 403; otherwise 200 with a token over the user's claims.
   */
  function Login(username: Option<string>, password: Option<string>, users: seq<Store.User>,
                 compare: (string, string) -> bool, sign: AuthMiddleware.Claims -> string): (r: Reply<LoginBody>)
    ensures r.status == 400 <==> !(Present(username) && Present(password))
    ensures r.status == 400 ==> r == Fail(400, "Username and password are required.")
    ensures r == Fail(401, "Invalid credentials.") <==>
              && Present(username) && Present(password)
              && (FindByName(users, username.value).None? ||
                  !compare(password.value, FindByName(users, username.value).value.passwordHash))
    ensures r.status == 403 <==>
              && Present(username) && Present(password) && FindByName(users, username.value).Some?
              && compare(password.value, FindByName(users, username.value).value.passwordHash)
              && FindByName(users, username.value).value.isAdmin != Some(true)
    ensures r.status == 200 ==>
              var u := FindByName(users, username.value).value;
              && u.isAdmin == Some(true) && compare(password.value, u.passwordHash)
              && r == Success(200, LoginBody(sign(TokenClaims(u)), UserInfo(u.userId, u.username, u.email, u.isAdmin)))
    ensures r.status in {200, 400, 401, 403}
  {
    if !(Present(username) && Present(password)) then Fail(400, "Username and password are required.")
    else match FindByName(users, username.value)
      case None => Fail(401, "Invalid credentials.")
      case Some(u) =>
        if !compare(password.value, u.passwordHash) then Fail(401, "Invalid credentials.")
        else if u.isAdmin != Some(true) then Fail(403, "Access denied. Admin privileges required.")
        else Success(200, LoginBody(sign(TokenClaims(u)), UserInfo(u.userId, u.username, u.email, u.isAdmin)))
  }

  /**
   * An unknown username and a wrong password for a known one cannot be told
   * apart by the reply; a non-admin learns that the password was right only
   * by the 403.
   */
  lemma FailuresIndistinguishable(name: string, other: string, password: string, users: seq<Store.User>,
                                  compare: (string, string) -> bool, sign: AuthMiddleware.Claims -> string)
    requires name != "" && other != "" && password != ""
    requires FindByName(users, name).None?
    requires FindByName(users, other).Some? && !compare(password, FindByName(users, other).value.passwordHash)
    ensures Login(Some(name), Some(password), users, compare, sign) ==
            Login(Some(other), Some(password), users, compare, sign)
  {
  }

  /**
   * The token a login hands out opens the admin gate for that user, as long
   * as verification gives back what signing put in and the token has no
   * spaces.
   */
  lemma LoginTokenPassesAdminGate(name: string, password: string, users: seq<Store.User>,
                                  compare: (string, string) -> bool, sign: AuthMiddleware.Claims -> string,
                                  verify: string -> AuthMiddleware.JwtResult)
    requires Login(Some(name), Some(password), users, compare, sign).status == 200
    requires forall c :: verify(sign(c)) == AuthMiddleware.Decoded(c)
    requires forall u, v :: u in users && v in users && u.userId == v.userId ==> u == v
    requires var t := Login(Some(name), Some(password), users, compare, sign).body.value.token; t != "" && ' ' !in t
    ensures var t := Login(Some(name), Some(password), users, compare, sign).body.value.token;
            var g := AuthMiddleware.AdminGate(Some("Bearer " + t), verify, users);
            g.Admit? && g.who == FindByName(users, name).value
  {
    var t := Login(Some(name), Some(password), users, compare, sign).body.value.token;
    AuthMiddleware.BearerTokenRoundTrip(t);
    var u := FindByName(users, name).value;
    var found := AuthMiddleware.FindUser(users, u.userId);
    assert found.Some? && found.value == u;
  }
}

=== FILE: admin_requests.dfy ===
/**
 * The administrators' view of the request table: a listing in time order,
 * optionally of one venue, the deletion of one request, and the purge of a
 * venue's requests. Unlike the OpenKJ commands, none of these touches the
 * serial.
 */
module AdminRequests {
  import opened Values
  import opened Text
  import Ordering
  import Store
  import OpenKJ

  /** A listed request with the name of its venue (`include: venue.name`). */
  datatype Listed = Listed(request: Store.Request, venueName: Option<string>)

  function VenueName(venues: map<int, Store.Venue>, id: int): Option<string>
  {
    if id in venues then Some(venues[id].name) else None
  }

  function Listing(rs: seq<Store.Request>, venues: map<int, Store.Venue>): (l: seq<Listed>)
    ensures |l| == |rs|
    ensures forall i :: 0 <= i < |rs| ==> l[i] == Listed(rs[i], VenueName(venues, rs[i].venueId))
  {
    seq(|rs|, i requires 0 <= i < |rs| => Listed(rs[i], VenueName(venues, rs[i].venueId)))
  }

  /** The requests of a listing, without the venue names. */
  function ListedRequests(l: seq<Listed>): (rs: seq<Store.Request>)
    ensures |rs| == |l|
    ensures forall i :: 0 <= i < |l| ==> rs[i] == l[i].request
  {
    seq(|l|, i requires 0 <= i < |l| => l[i].request)
  }

  /** The requests whose venue is one of `ids`, in table order. */
  function AmongVenues(rs: seq<Store.Request>, ids: set<int>): (r: seq<Store.Request>)
    ensures forall x :: x in r <==> x in rs && x.venueId in ids
  {
    if rs == [] then [] else (if rs[0].venueId in ids then [rs[0]] else []) + AmongVenues(rs[1..], ids)
  }

  /**
   * The venues a `venue_id` query value selects: all of them when it is
   * falsy; the one it casts to; for a repeated parameter (an array) those
   * its items cast to, as an `IN` list. None when the cast fails.
   */
  function FilterVenues(filter: JsValue): (r: Option<Option<set<int>>>)
    ensures !Truthy(filter) ==> r == Some(None)
    ensures Truthy(filter) && !filter.Arr? ==>
              r == if Key(filter).Some? then Some(Some({Key(filter).value})) else None
    ensures filter.Arr? ==> (r.None? <==> KeysIn(filter.items).None?)
    ensures filter.Arr? && r.Some? ==> r.value == KeysIn(filter.items)
  {
    if !Truthy(filter) then Some(None)
    else if filter.Arr? then
      match KeysIn(filter.items)
      case None => None
      case Some(ids) => Some(Some(ids))
    else if Key(filter).Some? then Some(Some({Key(filter).value}))
    else None
  }

  /** The rows a listing selects: those of the chosen venues, or all of them. */
  function Selected(filter: JsValue, rs: seq<Store.Request>): seq<Store.Request>
    requires FilterVenues(filter).Some?
  {
    match FilterVenues(filter).value
    case None => rs
    case Some(ids) => AmongVenues(rs, ids)
  }

  /** `listRequests`: the selected rows ordered by `request_time`, nulls last; a bad filter is a 500. */
  function ListRequests(filter: JsValue, rs: seq<Store.Request>, venues: map<int, Store.Venue>): (r: Reply<seq<Listed>>)
    ensures FilterVenues(filter).None? ==> r == Fail(500, "Error retrieving requests.")
    ensures FilterVenues(filter).Some? ==>
              r == Success(200, Listing(Ordering.Sort(Selected(filter, rs), OpenKJ.TimeLe), venues))
  {
    if FilterVenues(filter).None? then Fail(500, "Error retrieving requests.")
    else Success(200, Listing(Ordering.Sort(Selected(filter, rs), OpenKJ.TimeLe), venues))
  }

  /**
   * A successful listing holds exactly the selected rows, each once, in
   * ascending time order, and each row is labelled with its own venue's name.
   * With a filter it holds exactly the rows of the venues the filter names.
   */
  lemma ListRequestsCorrect(filter: JsValue, rs: seq<Store.Request>, venues: map<int, Store.Venue>)
    requires FilterVenues(filter).Some?
    ensures var l := ListRequests(filter, rs, venues).body.value;
            && multiset(ListedRequests(l)) == multiset(Selected(filter, rs))
            && Ordering.SortedBy(ListedRequests(l), OpenKJ.TimeLe)
            && forall i :: 0 <= i < |l| ==> l[i].venueName == VenueName(venues, l[i].request.venueId)
    ensures FilterVenues(filter).value.Some? ==>
              forall x :: x in ListedRequests(ListRequests(filter, rs, venues).body.value) <==>
                x in rs && x.venueId in FilterVenues(filter).value.value
  {
    var sorted := Ordering.Sort(Selected(filter, rs), OpenKJ.TimeLe);
    OpenKJ.TimeLeTotal();
    Ordering.SortCorrect(Selected(filter, rs), OpenKJ.TimeLe);
    var l := Listing(sorted, venues);
    assert ListedRequests(l) == sorted;
    forall x ensures x in sorted <==> x in Selected(filter, rs) {
      assert x in sorted <==> x in multiset(sorted);
    }
  }

  /** Repeating the parameter lists both venues' requests. */
  lemma TwoVenuesListed(a: nat, b: nat, rs: seq<Store.Request>, venues: map<int, Store.Venue>)
    requires IsInt4(a) && IsInt4(b)
    ensures var f := Arr([Str(NatToString(a)), Str(NatToString(b))]);
            && FilterVenues(f) == Some(Some({a, b}))
            && forall x :: x in ListedRequests(ListRequests(f, rs, venues).body.value) <==>
                 x in rs && (x.venueId == a || x.venueId == b)
  {
    var items := [Str(NatToString(a)), Str(NatToString(b))];
    KeyOfText(a);
    KeyOfText(b);
    var ids := KeysIn(items).value;
    assert forall k :: k in ids <==> k == a || k == b by {
      assert Key(items[0]) == Some(a) && Key(items[1]) == Some(b);
    }
    assert ids == {a, b};
    ListRequestsCorrect(Arr(items), rs, venues);
  }

  /** The index of the request with key `id`. */
  function RequestWithKey(rs: seq<Store.Request>, id: int): Option<nat>
  {
    Store.FirstIndex(rs, (x: Store.Request) => x.requestId == id)
  }

  /**
   * `deleteRequest`: an unknown key is a 404 and changes nothing; a known one
   * deletes that request and no other, answers 204, and leaves the serial
   * as it was.
   */
  method DeleteRequest(db: Store.Database, requestId: string) returns (r: Reply<()>)
    requires db.Valid()
    modifies db`requests
    ensures db.Valid()
    ensures db.serial == old(db.serial)
    ensures Key(Str(requestId)).None? ==> r == Fail(500, "Error deleting request.") && unchanged(db)
    ensures Key(Str(requestId)).Some? ==>
              var id := Key(Str(requestId)).value;
              && ((exists x :: x in old(db.requests) && x.requestId == id) <==> r == NoContent())
              && (r != NoContent() ==> r == Fail(404, "Request not found.") && unchanged(db))
              && (r == NoContent() ==>
                    && |db.requests| == |old(db.requests)| - 1
                    && forall x :: x in db.requests <==> x in old(db.requests) && x.requestId != id)
  {
    if Key(Str(requestId)).None? {
      return Fail(500, "Error deleting request.");
    }
    var id := Key(Str(requestId)).value;
    match RequestWithKey(db.requests, id)
    case None =>
      r := Fail(404, "Request not found.");
      assert forall x :: x in db.requests ==> x.requestId != id;
    case Some(i) =>
      Store.RemoveAtKeepsValid(db.requests, db.nextRequestId, i);
      Store.RemoveByKey(db.requests, db.nextRequestId, i);
      db.SetRequests(Store.RemoveAt(db.requests, i));
      r := NoContent();
  }

  /** The purge message with the number of deleted rows written out. */
  function PurgeMessage(count: nat, venueId: string): string
  {
    "Successfully purged " + NatToString(count) + " requests for venue ID " + venueId + "."
  }

  /**
   * The purge message as written: it reads `count` off the number `destroy`
   * resolves to, a property a number does not have.
   */
  function PurgeMessageAsWritten(deleted: nat, venueId: string): string
  {
    "Successfully purged " + ToJsString(Prop(Num(deleted), "count")) + " requests for venue ID " + venueId + "."
  }

  /** As written, the message never carries the count: it always says `undefined`. */
  lemma PurgeMessageSaysUndefined(deleted: nat, venueId: string)
    ensures PurgeMessageAsWritten(deleted, venueId) ==
              "Successfully purged " + "undefined" + " requests for venue ID " + venueId + "."
    ensures PurgeMessageAsWritten(deleted, venueId) != PurgeMessage(deleted, venueId)
  {
    var pre, tail := "Successfully purged ", " requests for venue ID " + venueId + ".";
    var d := NatToString(deleted);
    assert ToJsString(Prop(Num(deleted), "count")) == "undefined";
    assert PurgeMessageAsWritten(deleted, venueId) == pre + ("undefined" + tail);
    assert PurgeMessage(deleted, venueId) == pre + (d + tail);
    DifferAfterPrefix(pre, "undefined" + tail, d + tail);
  }

  lemma DifferAfterPrefix(p: string, a: string, b: string)
    requires a != [] && b != [] && a[0] != b[0]
    ensures p + a != p + b
  {
    assert (p + a)[|p|] == a[0];
  }

  /** The corrected message carries the count, which reads back as the number of rows deleted. */
  lemma PurgeMessageCarriesCount(deleted: nat, venueId: string)
    ensures var m := PurgeMessage(deleted, venueId);
            var pre := "Successfully purged ";
            var digits := DigitPrefix(m[|pre|..]);
            IsDecimal(digits) && DecimalValue(digits) == deleted
  {
    var pre := "Successfully purged ";
    var d := NatToString(deleted);
    var rest := " requests for venue ID " + venueId + ".";
    var m := PurgeMessage(deleted, venueId);
    assert m == pre + (d + rest);
    assert m[|pre|..] == d + rest;
    DigitPrefixOfConcat(d, rest);
    NatToStringRoundTrip(deleted);
  }

  lemma {:induction false} DigitPrefixOfConcat(d: string, rest: string)
    requires forall i :: 0 <= i < |d| ==> IsDigit(d[i])
    requires rest != [] && !IsDigit(rest[0])
    ensures DigitPrefix(d + rest) == d
  {
    if d == [] {
      assert d + rest == rest;
    } else {
      assert (d + rest)[1..] == d[1..] + rest;
      DigitPrefixOfConcat(d[1..], rest);
    }
  }

  /**
   * `purgeVenueRequests`: an unknown venue is a 404 and deletes nothing; a
   * known one loses every request and only those, and the reply counts them.
   * The serial is left as it was.
   */
  method PurgeVenueRequests(db: Store.Database, venueId: string) returns (r: Reply<string>)
    requires db.Valid()
    modifies db`requests
    ensures db.Valid()
    ensures db.serial == old(db.serial)
    ensures Key(Str(venueId)).None? ==>
              r == Fail(500, "Error purging requests for venue ID " + venueId + ".") && unchanged(db)
    ensures Key(Str(venueId)).Some? && Key(Str(venueId)).value !in db.venues ==>
              r == Fail(404, "Venue with ID " + venueId + " not found.") && unchanged(db)
    ensures Key(Str(venueId)).Some? && Key(Str(venueId)).value in db.venues ==>
              var v := Key(Str(venueId)).value;
              && db.requests == Store.Without(old(db.requests), v)
              && r == Success(200, PurgeMessage(|Store.ForVenue(old(db.requests), v)|, venueId))
              && |old(db.requests)| - |db.requests| == |Store.ForVenue(old(db.requests), v)|
  {
    if Key(Str(venueId)).None? {
      return Fail(500, "Error purging requests for venue ID " + venueId + ".");
    }
    var v := Key(Str(venueId)).value;
    if v !in db.venues {
      return Fail(404, "Venue with ID " + venueId + " not found.");
    }
    var count := |Store.ForVenue(db.requests, v)|;
    Store.PartitionByVenue(db.requests, v);
    Store.WithoutKeepsValid(db.requests, db.nextRequestId, v);
    db.SetRequests(Store.Without(db.requests, v));
    r := Success(200, PurgeMessage(count, venueId));
  }
}

=== FILE: admin_users.dfy ===
/**
 * The administrators' user table: create, read, partial update and delete.
 * Password hashing and the e-mail validator are parameters. No reply
 * carries a password hash: `UserView` has no such field.
 */
module AdminUsers {
  import opened Values
  import opened Text
  import Store
  import AuthMiddleware

  /** The properties of a create or update body. */
  datatype UserBody = UserBody(username: Option<string>, password: Option<string>, email: Option<string>, isAdmin: Field<bool>)

  /** A user as replied: every column but the password hash. */
  datatype UserView = UserView(userId: int, username: string, email: string, isAdmin: Option<bool>)

  function View(u: Store.User): (v: UserView)
    ensures v.userId == u.userId && v.username == u.username && v.email == u.email && v.isAdmin == u.isAdmin
  {
    UserView(u.userId, u.username, u.email, u.isAdmin)
  }

  /** Truthiness of an optional string. */
  predicate Present(s: Option<string>)
  {
    s.Some? && s.value != ""
  }

  // ---------------------------------------------------------------------
  // createUser

  /** `is_admin = true` as a destructuring default: left out means admin, null stays null. */
  function AdminFlag(f: Field<bool>): (r: Option<bool>)
    ensures f.Omitted? ==> r == Some(true)
    ensures f.Nulled? ==> r.None?
    ensures f.Given? ==> r == Some(f.value)
  {
    if f.Omitted? then Some(true) else FieldValue(f)
  }

  /** Whether a user already has the username or the e-mail. */
  predicate Clash(users: seq<Store.User>, username: string, email: string)
  {
    exists u :: u in users && (u.username == username || u.email == email)
  }

  /**
   * `createUser`: missing fields are a 400 and a taken username or e-mail a
   * 409, with nothing created; an e-mail the validator refuses fails
   * validation; otherwise the user is inserted under the next key with the
   * hashed password.
   */
  method CreateUser(db: Store.Database, b: UserBody, hash: string -> string, isEmail: string -> bool)
    returns (r: Reply<UserView>)
    requires db.Valid()
    modifies db`users, db`nextUserId
    ensures db.Valid()
    ensures !(Present(b.username) && Present(b.password) && Present(b.email)) ==>
              r == Fail(400, "Username, password, and email are required.") && unchanged(db)
    ensures Present(b.username) && Present(b.password) && Present(b.email) ==>
              if Clash(old(db.users), b.username.value, b.email.value) then
                r == Fail(409, "Username or email already exists.") && unchanged(db)
              else if !isEmail(b.email.value) then
                r == Fail(400, "Validation failed") && unchanged(db)
              else
                var u := Store.User(old(db.nextUserId), b.username.value, hash(b.password.value), b.email.value,
                                    AdminFlag(b.isAdmin));
                db.users == old(db.users) + [u] && r == Success(201, View(u))
  {
    if !(Present(b.username) && Present(b.password) && Present(b.email)) {
      return Fail(400, "Username, password, and email are required.");
    }
    var name, email := b.username.value, b.email.value;
    if Clash(db.users, name, email) {
      return Fail(409, "Username or email already exists.");
    }
    if !isEmail(email) {
      return CatchFailure(ValidationFailure, "", "Error creating user.");
    }
    var u := Store.User(db.nextUserId, name, hash(b.password.value), email, AdminFlag(b.isAdmin));
    var _ := db.AddUser(u);
    r := Success(201, View(u));
  }

  // ---------------------------------------------------------------------
  // getUser

  /** `getUser`. */
  function GetUser(userId: string, users: seq<Store.User>): (r: Reply<UserView>)
    ensures Key(Str(userId)).None? ==> r == Fail(500, "Error retrieving user.")
    ensures Key(Str(userId)).Some? ==>
              match AuthMiddleware.FindUser(users, Key(Str(userId)).value)
              case None => r == Fail(404, "User not found.")
              case Some(u) => r == Success(200, View(u)) && u in users
  {
    match Key(Str(userId))
    case None => Fail(500, "Error retrieving user.")
    case Some(id) =>
      match AuthMiddleware.FindUser(users, id)
      case None => Fail(404, "User not found.")
      case Some(u) => Success(200, View(u))
  }

  // ---------------------------------------------------------------------
  // updateUser

  /** The columns an update writes: each None when the body does not set it. */
  datatype UserChanges = UserChanges(email: Option<string>, isAdmin: Option<bool>, passwordHash: Option<string>)

  /**
   * `updateData`: a truthy e-mail, an `is_admin` that is not left out
   * (coerced with `!!`), and the hash of a truthy password.
   */
  function Changes(b: UserBody, hash: string -> string): (c: UserChanges)
    ensures c.email.Some? <==> Present(b.email)
    ensures c.isAdmin.Some? <==> !b.isAdmin.Omitted?
    ensures b.isAdmin.Nulled? ==> c.isAdmin == Some(false)
    ensures c.passwordHash.Some? <==> Present(b.password)
  {
    UserChanges(
      if Present(b.email) then b.email else None,
      match b.isAdmin
      case Omitted => None
      case Nulled => Some(false)
      case Given(x) => Some(x),
      if Present(b.password) then Some(hash(b.password.value)) else None)
  }

  /** The user after the changes: only the columns set change. */
  function ApplyChanges(u: Store.User, c: UserChanges): (v: Store.User)
    ensures v.userId == u.userId && v.username == u.username
    ensures v.email == (if c.email.Some? then c.email.value else u.email)
    ensures v.isAdmin == (if c.isAdmin.Some? then c.isAdmin else u.isAdmin)
    ensures v.passwordHash == (if c.passwordHash.Some? then c.passwordHash.value else u.passwordHash)
  {
    u.(email := if c.email.Some? then c.email.value else u.email,
       isAdmin := if c.isAdmin.Some? then c.isAdmin else u.isAdmin,
       passwordHash := if c.passwordHash.Some? then c.passwordHash.value else u.passwordHash)
  }

  /** Whether another user than `id` has the e-mail. */
  predicate EmailTaken(users: seq<Store.User>, email: string, id: int)
  {
    exists u :: u in users && u.userId != id && u.email == email
  }

  /** The index of the user with key `id`. */
  function UserIndex(users: seq<Store.User>, id: int): (r: Option<nat>)
    ensures r.Some? ==> r.value < |users| && users[r.value].userId == id
    ensures r.None? <==> AuthMiddleware.FindUser(users, id).None?
  {
    Store.FirstIndex(users, (u: Store.User) => u.userId == id)
  }

  /** What storing the changes fails with: a refused e-mail, then an e-mail in use. */
  function UpdateError(c: UserChanges, id: int, users: seq<Store.User>, isEmail: string -> bool): Option<DbError>
  {
    if c.email.Some? && !isEmail(c.email.value) then Some(ValidationFailure)
    else if c.email.Some? && EmailTaken(users, c.email.value, id) then Some(UniqueViolation)
    else None
  }

  /**
   * `updateUser`: an unknown user is a 404; an update that sets nothing is a
   * 400; a refused or taken e-mail is refused; otherwise only that user's
   * set columns change.
   */
  method UpdateUser(db: Store.Database, userId: string, b: UserBody, hash: string -> string, isEmail: string -> bool)
    returns (r: Reply<UserView>)
    requires db.Valid()
    modifies db`users
    ensures db.Valid()
    ensures Key(Str(userId)).None? ==> r == Fail(500, "Error updating user.") && unchanged(db)
    ensures Key(Str(userId)).Some? && UserIndex(old(db.users), Key(Str(userId)).value).None? ==>
              r == Fail(404, "User not found.") && unchanged(db)
    ensures Key(Str(userId)).Some? && UserIndex(old(db.users), Key(Str(userId)).value).Some? ==>
              var id := Key(Str(userId)).value;
              var i := UserIndex(old(db.users), id).value;
              var c := Changes(b, hash);
              if c == UserChanges(None, None, None) then
                r == Fail(400, "No update fields provided (email, password, is_admin).") && unchanged(db)
              else match UpdateError(c, id, old(db.users), isEmail)
                case Some(e) =>
                  r == CatchFailure(e, "Update failed: Email or username may already be in use.", "Error updating user.") &&
                  unchanged(db)
                case None =>
                  var u := ApplyChanges(old(db.users)[i], c);
                  db.users == old(db.users)[i := u] && r == Success(200, View(u))
  {
    if Key(Str(userId)).None? {
      return Fail(500, "Error updating user.");
    }
    var id := Key(Str(userId)).value;
    var index := UserIndex(db.users, id);
    if index.None? {
      return Fail(404, "User not found.");
    }
    var i := index.value;
    var c := Changes(b, hash);
    if c == UserChanges(None, None, None) {
      return Fail(400, "No update fields provided (email, password, is_admin).");
    }
    var err := UpdateError(c, id, db.users, isEmail);
    if err.Some? {
      return CatchFailure(err.value, "Update failed: Email or username may already be in use.", "Error updating user.");
    }
    var u := ApplyChanges(db.users[i], c);
    UpdateKeepsUsersValid(db.users, db.nextUserId, i, u);
    db.SetUsers(db.users[i := u]);
    r := Success(200, View(u));
  }

  lemma UpdateKeepsUsersValid(us: seq<Store.User>, next: int, i: nat, u: Store.User)
    requires Store.UsersValid(us, next) && i < |us|
    requires u.userId == us[i].userId && u.username == us[i].username
    requires !EmailTaken(us, u.email, u.userId)
    ensures Store.UsersValid(us[i := u], next)
  {
    var vs := us[i := u];
    forall a, c | 0 <= a < c < |vs|
      ensures vs[a].userId != vs[c].userId && vs[a].username != vs[c].username && vs[a].email != vs[c].email
    {
      if a == i {
        assert us[c] in us && us[c].userId != u.userId;
      } else if c == i {
        assert us[a] in us && us[a].userId != u.userId;
      }
    }
  }

  // ---------------------------------------------------------------------
  // deleteUser

  /** The user table without the user `id`. */
  function RemoveUser(us: seq<Store.User>, id: int): (r: seq<Store.User>)
    ensures forall u :: u in r <==> u in us && u.userId != id
    ensures |r| <= |us|
  {
    if us == [] then [] else (if us[0].userId == id then [] else [us[0]]) + RemoveUser(us[1..], id)
  }

  /** The API keys of every other user: the cascade of a user's deletion. */
  function KeysWithout(ks: seq<Store.ApiKey>, id: int): (r: seq<Store.ApiKey>)
    ensures forall k :: k in r <==> k in ks && k.userId != id
    ensures |r| <= |ks|
  {
    if ks == [] then [] else (if ks[0].userId == id then [] else [ks[0]]) + KeysWithout(ks[1..], id)
  }

  /** Whether two users share none of the unique columns. */
  predicate Distinct(a: Store.User, b: Store.User)
  {
    a.userId != b.userId && a.username != b.username && a.email != b.email
  }

  lemma UsersTailValid(us: seq<Store.User>, next: int)
    requires Store.UsersValid(us, next) && us != []
    ensures Store.UsersValid(us[1..], next)
    ensures forall u :: u in us[1..] ==> Distinct(us[0], u)
  {
    var t := us[1..];
    forall a, c | 0 <= a < c < |t|
      ensures t[a].userId != t[c].userId && t[a].username != t[c].username && t[a].email != t[c].email
    {
      assert t[a] == us[a + 1] && t[c] == us[c + 1];
    }
    forall u | u in t ensures Distinct(us[0], u) {
      var k :| 0 <= k < |t| && t[k] == u;
      assert t[k] == us[k + 1];
    }
  }

  lemma UsersConsValid(x: Store.User, t: seq<Store.User>, next: int)
    requires Store.UsersValid(t, next) && x.userId < next
    requires forall u :: u in t ==> Distinct(x, u)
    ensures Store.UsersValid([x] + t, next)
  {
    var r := [x] + t;
    forall a, c | 0 <= a < c < |r|
      ensures r[a].userId != r[c].userId && r[a].username != r[c].username && r[a].email != r[c].email
    {
      assert r[c] == t[c - 1];
      if a > 0 {
        assert r[a] == t[a - 1];
      } else {
        assert r[c] in t;
      }
    }
  }

  /** Deleting rows keeps the user table valid. */
  lemma {:induction false} RemoveUserValid(us: seq<Store.User>, next: int, id: int)
    requires Store.UsersValid(us, next)
    ensures Store.UsersValid(RemoveUser(us, id), next)
  {
    if us != [] {
      UsersTailValid(us, next);
      RemoveUserValid(us[1..], next, id);
      if us[0].userId != id {
        UsersConsValid(us[0], RemoveUser(us[1..], id), next);
      }
    }
  }

  /** Deleting rows keeps the API keys unique. */
  lemma {:induction false} KeysWithoutUnique(ks: seq<Store.ApiKey>, id: int)
    requires Store.UniqueKeys(ks)
    ensures Store.UniqueKeys(KeysWithout(ks, id))
  {
    if ks != [] {
      var t := ks[1..];
      assert Store.UniqueKeys(t) by {
        forall a, c | 0 <= a < c < |t| ensures t[a].key != t[c].key {
          assert t[a] == ks[a + 1] && t[c] == ks[c + 1];
        }
      }
      KeysWithoutUnique(t, id);
      var rt := KeysWithout(t, id);
      if ks[0].userId != id {
        var r := [ks[0]] + rt;
        forall a, c | 0 <= a < c < |r| ensures r[a].key != r[c].key {
          assert r[c] == rt[c - 1];
          if a > 0 {
            assert r[a] == rt[a - 1];
          } else {
            assert r[c] in t;
            var k :| 0 <= k < |t| && t[k] == r[c];
            assert t[k] == ks[k + 1];
          }
        }
      }
    }
  }

  /** Whether the id in the path is the requesting admin's own: `parseInt(userId, 10) === requester`. */
  predicate IsSelf(userId: string, requester: int)
    ensures IsDecimal(userId) ==> (IsSelf(userId, requester) <==> DecimalValue(userId) == requester)
  {
    ParseInt(userId) == Some(requester)
  }

  /** An admin's own id, written as the route writes it, is always recognised. */
  lemma OwnIdIsSelf(requester: int)
    ensures IsSelf(IntToString(requester), requester)
  {
    ParseIntOfIntToString(requester);
  }

  /**
   * `deleteUser`: deleting oneself is a 400 before any lookup; an unknown
   * user is a 404; otherwise the user goes, and their API keys with them.
   */
  method DeleteUser(db: Store.Database, requester: int, userId: string) returns (r: Reply<()>)
    requires db.Valid()
    modifies db`users, db`apiKeys
    ensures db.Valid()
    ensures IsSelf(userId, requester) ==> r == Fail(400, "Cannot delete your own account.") && unchanged(db)
    ensures !IsSelf(userId, requester) && Key(Str(userId)).None? ==> r == Fail(500, "Error deleting user.") && unchanged(db)
    ensures !IsSelf(userId, requester) && Key(Str(userId)).Some? ==>
              var id := Key(Str(userId)).value;
              if AuthMiddleware.FindUser(old(db.users), id).None? then
                r == Fail(404, "User not found.") && unchanged(db)
              else
                && r == NoContent()
                && db.users == RemoveUser(old(db.users), id)
                && db.apiKeys == KeysWithout(old(db.apiKeys), id)
  {
    if IsSelf(userId, requester) {
      return Fail(400, "Cannot delete your own account.");
    }
    if Key(Str(userId)).None? {
      return Fail(500, "Error deleting user.");
    }
    var id := Key(Str(userId)).value;
    if AuthMiddleware.FindUser(db.users, id).None? {
      return Fail(404, "User not found.");
    }
    RemoveUserValid(db.users, db.nextUserId, id);
    db.SetUsers(RemoveUser(db.users, id));
    KeysWithoutUnique(db.apiKeys, id);
    db.SetApiKeys(KeysWithout(db.apiKeys, id));
    r := NoContent();
  }
}

=== FILE: admin_venues.dfy ===
/**
 * The administrators' venue table: create (geocoding the address when it
 * has one), read, partial update (re-geocoding only when the address
 * changes) and delete (with the venue's requests). The geocoding service is
 * a parameter.
 */
module AdminVenues {
  import opened Values
  import Store

  /** The venue properties of a create or update body. */
  datatype VenueBody = VenueBody(
    name: Field<string>,
    urlName: Field<string>,
    accepting: Field<bool>,
    address1: Field<string>,
    address2: Field<string>,
    city: Field<string>,
    state: Field<string>,
    zip: Field<string>,
    lat: Field<real>,
    lon: Field<real>)

  /** The address the geocoder is asked about. */
  datatype Address = Address(address1: Option<string>, city: Option<string>, state: Option<string>, zip: Option<string>)

  datatype Coords = Coords(lat: real, lon: real)

  /** A venue as replied, with its key. */
  datatype VenueRecord = VenueRecord(venueId: int, venue: Store.Venue)

  // ---------------------------------------------------------------------
  // createVenue

  /** Whether the new venue's address is worth geocoding: a truthy address1, city, state or zip. */
  predicate HasAddress(b: VenueBody)
  {
    FieldTruthy(b.address1) || FieldTruthy(b.city) || FieldTruthy(b.state) || FieldTruthy(b.zip)
  }

  /** The second address line never decides whether to geocode. */
  lemma Address2Ignored(b: VenueBody, a2: Field<string>)
    ensures HasAddress(b.(address2 := a2)) == HasAddress(b)
  {
  }

  /** The coordinates a new venue gets: the geocoder's answer, asked only when there is an address. */
  function CreateCoords(b: VenueBody, geocode: Address -> Option<Coords>): (c: Option<Coords>)
    ensures !HasAddress(b) ==> c.None?
    ensures HasAddress(b) ==>
              c == geocode(Address(FieldValue(b.address1), FieldValue(b.city), FieldValue(b.state), FieldValue(b.zip)))
  {
    if HasAddress(b) then
      geocode(Address(FieldValue(b.address1), FieldValue(b.city), FieldValue(b.state), FieldValue(b.zip)))
    else None
  }

  /**
   * The row `Venue.create` inserts: the body's columns, `accepting` false
   * when left out, and coordinates only when the geocoder found some. The
   * body's own `lat`/`lon` are not read.
   */
  function NewVenue(b: VenueBody, coords: Option<Coords>): (v: Store.Venue)
    requires FieldTruthy(b.name)
    ensures v.name == b.name.value && v.urlName == FieldValue(b.urlName)
    ensures v.accepting == (if b.accepting.Omitted? then Some(false) else FieldValue(b.accepting))
    ensures v.lat.Some? <==> coords.Some?
    ensures coords.Some? ==> v.lat == Some(coords.value.lat) && v.lon == Some(coords.value.lon)
  {
    Store.Venue(
      b.name.value,
      FieldValue(b.urlName),
      if b.accepting.Omitted? then Some(false) else FieldValue(b.accepting),
      FieldValue(b.address1), FieldValue(b.address2), FieldValue(b.city), FieldValue(b.state), FieldValue(b.zip),
      if coords.Some? then Some(coords.value.lat) else None,
      if coords.Some? then Some(coords.value.lon) else None)
  }

  /**
   * `createVenue`: a missing name is a 400, a missing url name breaks the
   * column's NOT NULL constraint (a database error, answered 500) and a
   * taken url name is a 409, each with nothing created; otherwise the venue
   * is inserted under the next key.
   */
  method CreateVenue(db: Store.Database, b: VenueBody, geocode: Address -> Option<Coords>) returns (r: Reply<VenueRecord>)
    requires db.Valid()
    modifies db`venues, db`nextVenueId
    ensures db.Valid()
    ensures !FieldTruthy(b.name) ==> r == Fail(400, "Venue name is required.") && unchanged(db)
    ensures FieldTruthy(b.name) && !b.urlName.Given? ==> r == Fail(500, "Error creating venue.") && unchanged(db)
    ensures FieldTruthy(b.name) && b.urlName.Given? && Store.UrlNameTaken(old(db.venues), b.urlName.value, -1) ==>
              r == CatchFailure(UniqueViolation, "Create failed: URL Name may already be in use.", "Error creating venue.") &&
              unchanged(db)
    ensures FieldTruthy(b.name) && b.urlName.Given? && !Store.UrlNameTaken(old(db.venues), b.urlName.value, -1) ==>
              var v := NewVenue(b, CreateCoords(b, geocode));
              var id := old(db.nextVenueId);
              && db.venues == old(db.venues)[id := v] && id !in old(db.venues)
              && r == Success(201, VenueRecord(id, v))
  {
    if !FieldTruthy(b.name) {
      return Fail(400, "Venue name is required.");
    }
    var coords := CreateCoords(b, geocode);
    if !b.urlName.Given? {
      return CatchFailure(OtherDbError, "Create failed: URL Name may already be in use.", "Error creating venue.");
    }
    if Store.UrlNameTaken(db.venues, b.urlName.value, -1) {
      return CatchFailure(UniqueViolation, "Create failed: URL Name may already be in use.", "Error creating venue.");
    }
    var v := NewVenue(b, coords);
    var id := db.AddVenue(v);
    r := Success(201, VenueRecord(id, v));
  }

  // ---------------------------------------------------------------------
  // getVenue

  /** `getVenue`. */
  function GetVenue(venueId: string, venues: map<int, Store.Venue>): (r: Reply<VenueRecord>)
    ensures Key(Str(venueId)).None? ==> r == Fail(500, "Error retrieving venue.")
    ensures Key(Str(venueId)).Some? && Key(Str(venueId)).value !in venues ==> r == Fail(404, "Venue not found.")
    ensures Key(Str(venueId)).Some? && Key(Str(venueId)).value in venues ==>
              r == Success(200, VenueRecord(Key(Str(venueId)).value, venues[Key(Str(venueId)).value]))
  {
    match Key(Str(venueId))
    case None => Fail(500, "Error retrieving venue.")
    case Some(id) => if id !in venues then Fail(404, "Venue not found.") else Success(200, VenueRecord(id, venues[id]))
  }

  // ---------------------------------------------------------------------
  // updateVenue

  /** `updateFields[field] !== undefined && updateFields[field] !== venue[field]`. */
  predicate Differs(f: Field<string>, stored: Option<string>)
  {
    !f.Omitted? && FieldValue(f) != stored
  }

  /** Whether the update touches the geocoded part of the address (address2 excluded). */
  predicate AddressChanged(b: VenueBody, v: Store.Venue)
    ensures b.address1.Omitted? && b.city.Omitted? && b.state.Omitted? && b.zip.Omitted? ==> !AddressChanged(b, v)
    ensures !AddressChanged(b, v) ==> MergedAddress(b, v) == Address(v.address1, v.city, v.state, v.zip)
  {
    Differs(b.address1, v.address1) || Differs(b.city, v.city) || Differs(b.state, v.state) || Differs(b.zip, v.zip)
  }

  /** `field ?? stored`: a given value wins, a null or absent one falls back to the stored column. */
  function Merge(f: Field<string>, stored: Option<string>): (r: Option<string>)
    ensures f.Given? ==> r == Some(f.value)
    ensures !f.Given? ==> r == stored
  {
    if f.Given? then Some(f.value) else stored
  }

  /** The address sent for re-geocoding: each part from the update when given, else the stored one. */
  function MergedAddress(b: VenueBody, v: Store.Venue): (a: Address)
    ensures b.address1.Given? && b.city.Given? && b.state.Given? && b.zip.Given? ==>
              a == Address(Some(b.address1.value), Some(b.city.value), Some(b.state.value), Some(b.zip.value))
    ensures !b.address1.Given? && !b.city.Given? && !b.state.Given? && !b.zip.Given? ==>
              a == Address(v.address1, v.city, v.state, v.zip)
  {
    Address(Merge(b.address1, v.address1), Merge(b.city, v.city), Merge(b.state, v.state), Merge(b.zip, v.zip))
  }

  /** `venue.update`: a left-out column keeps its value, a null one becomes null, a given one is set. */
  function Apply<T>(f: Field<T>, stored: Option<T>): (r: Option<T>)
    ensures f.Omitted? ==> r == stored
    ensures !f.Omitted? ==> r == FieldValue(f)
  {
    if f.Omitted? then stored else FieldValue(f)
  }

  /**
   * The updated row: the body's columns over the stored ones, and the
   * geocoder's coordinates over both when the address changed and it found
   * some. Requires a name that is not null (null is a validation error).
   */
  function Updated(b: VenueBody, v: Store.Venue, coords: Option<Coords>): (u: Store.Venue)
    requires !b.name.Nulled?
    ensures u.name == if b.name.Given? then b.name.value else v.name
    ensures coords.Some? ==> u.lat == Some(coords.value.lat) && u.lon == Some(coords.value.lon)
    ensures coords.None? ==> u.lat == Apply(b.lat, v.lat) && u.lon == Apply(b.lon, v.lon)
    ensures u.urlName == Apply(b.urlName, v.urlName) && u.accepting == Apply(b.accepting, v.accepting)
    ensures u.address1 == Apply(b.address1, v.address1) && u.address2 == Apply(b.address2, v.address2)
    ensures u.city == Apply(b.city, v.city) && u.state == Apply(b.state, v.state) && u.zip == Apply(b.zip, v.zip)
  {
    Store.Venue(
      if b.name.Given? then b.name.value else v.name,
      Apply(b.urlName, v.urlName),
      Apply(b.accepting, v.accepting),
      Apply(b.address1, v.address1), Apply(b.address2, v.address2), Apply(b.city, v.city),
      Apply(b.state, v.state), Apply(b.zip, v.zip),
      if coords.Some? then Some(coords.value.lat) else Apply(b.lat, v.lat),
      if coords.Some? then Some(coords.value.lon) else Apply(b.lon, v.lon))
  }

  /** The coordinates of an update: asked for only when the address changed. */
  function UpdateCoords(b: VenueBody, v: Store.Venue, geocode: Address -> Option<Coords>): (c: Option<Coords>)
    ensures !AddressChanged(b, v) ==> c.None?
    ensures AddressChanged(b, v) ==> c == geocode(MergedAddress(b, v))
  {
    if AddressChanged(b, v) then geocode(MergedAddress(b, v)) else None
  }

  /** An empty update leaves the row as it is. */
  lemma EmptyUpdateKeepsVenue(v: Store.Venue, geocode: Address -> Option<Coords>)
    ensures var b := VenueBody(Omitted, Omitted, Omitted, Omitted, Omitted, Omitted, Omitted, Omitted, Omitted, Omitted);
            Updated(b, v, UpdateCoords(b, v, geocode)) == v
  {
  }

  /**
   * When re-geocoding is not asked for or finds nothing, the coordinates
   * change only if the body names them; when it finds some, they replace the
   * stored ones and any in the body.
   */
  lemma CoordinatesOfUpdate(b: VenueBody, v: Store.Venue, geocode: Address -> Option<Coords>)
    requires !b.name.Nulled?
    ensures var c := UpdateCoords(b, v, geocode);
            var u := Updated(b, v, c);
            && (c.None? && b.lat.Omitted? ==> u.lat == v.lat)
            && (c.None? && b.lon.Omitted? ==> u.lon == v.lon)
            && (c.Some? ==> AddressChanged(b, v) && u.lat == Some(c.value.lat) && u.lon == Some(c.value.lon))
  {
  }

  /** Re-writing the stored address (or leaving it out) is not a change: the geocoder is not asked. */
  lemma SameAddressNotGeocoded(b: VenueBody, v: Store.Venue)
    requires b.address1 == Omitted || FieldValue(b.address1) == v.address1
    requires b.city == Omitted || FieldValue(b.city) == v.city
    requires b.state == Omitted || FieldValue(b.state) == v.state
    requires b.zip == Omitted || FieldValue(b.zip) == v.zip
    ensures !AddressChanged(b, v)
  {
  }

  /**
   * What the update fails with, if anything: a null name fails the model's
   * validation before the query; a null url name breaks the column's NOT
   * NULL constraint and a url name in use its unique index.
   */
  function UpdateError(b: VenueBody, id: int, venues: map<int, Store.Venue>): (e: Option<DbError>)
    ensures b.name.Nulled? ==> e == Some(ValidationFailure)
    ensures !b.name.Nulled? && b.urlName.Nulled? ==> e == Some(OtherDbError)
    ensures e.None? <==>
              !b.name.Nulled? && !b.urlName.Nulled? && !(b.urlName.Given? && Store.UrlNameTaken(venues, b.urlName.value, id))
  {
    if b.name.Nulled? then Some(ValidationFailure)
    else if b.urlName.Nulled? then Some(OtherDbError)
    else if b.urlName.Given? && Store.UrlNameTaken(venues, b.urlName.value, id) then Some(UniqueViolation)
    else None
  }

  /**
   * `updateVenue`: an empty name is a 400 and an unknown venue a 404; a
   * null name, a null url name or a url name used by another venue is
   * refused; otherwise the
   * venue becomes `Updated` and no other venue changes.
   */
  method UpdateVenue(db: Store.Database, venueId: string, b: VenueBody, geocode: Address -> Option<Coords>)
    returns (r: Reply<VenueRecord>)
    requires db.Valid()
    modifies db`venues
    ensures db.Valid()
    ensures b.name == Given("") ==> r == Fail(400, "Venue name cannot be empty.") && unchanged(db)
    ensures b.name != Given("") && Key(Str(venueId)).None? ==> r == Fail(500, "Error updating venue.") && unchanged(db)
    ensures b.name != Given("") && Key(Str(venueId)).Some? && Key(Str(venueId)).value !in old(db.venues) ==>
              r == Fail(404, "Venue not found.") && unchanged(db)
    ensures b.name != Given("") && Key(Str(venueId)).Some? && Key(Str(venueId)).value in old(db.venues) ==>
              var id := Key(Str(venueId)).value;
              var v := old(db.venues)[id];
              match UpdateError(b, id, old(db.venues))
              case Some(e) =>
                r == CatchFailure(e, "Update failed: URL Name may already be in use.", "Error updating venue.") &&
                unchanged(db)
              case None =>
                var u := Updated(b, v, UpdateCoords(b, v, geocode));
                db.venues == old(db.venues)[id := u] && r == Success(200, VenueRecord(id, u))
  {
    if b.name == Given("") {
      return Fail(400, "Venue name cannot be empty.");
    }
    if Key(Str(venueId)).None? {
      return Fail(500, "Error updating venue.");
    }
    var id := Key(Str(venueId)).value;
    if id !in db.venues {
      return Fail(404, "Venue not found.");
    }
    var v := db.venues[id];
    var coords := UpdateCoords(b, v, geocode);
    match UpdateError(b, id, db.venues)
    case Some(e) =>
      r := CatchFailure(e, "Update failed: URL Name may already be in use.", "Error updating venue.");
    case None =>
      var u := Updated(b, v, coords);
      UpdateKeepsVenuesValid(db.venues, db.nextVenueId, id, b, u);
      db.SetVenues(db.venues[id := u]);
      r := Success(200, VenueRecord(id, u));
  }

  lemma UpdateKeepsVenuesValid(vs: map<int, Store.Venue>, next: int, id: int, b: VenueBody, u: Store.Venue)
    requires Store.VenuesValid(vs, next) && id in vs
    requires u.urlName == Apply(b.urlName, vs[id].urlName)
    requires !b.urlName.Nulled? && !(b.urlName.Given? && Store.UrlNameTaken(vs, b.urlName.value, id))
    ensures Store.VenuesValid(vs[id := u], next)
  {
    var ws := vs[id := u];
    forall a, c | a in ws && c in ws && a != c && ws[a].urlName.Some? ensures ws[a].urlName != ws[c].urlName {
      if a == id && b.urlName.Given? {
        assert c in vs && c != id;
      } else if c == id && b.urlName.Given? {
        assert a in vs && a != id;
      }
    }
  }

  // ---------------------------------------------------------------------
  // deleteVenue

  /** `deleteVenue`: an unknown venue is a 404; a known one goes, and its requests with it. */
  method DeleteVenue(db: Store.Database, venueId: string) returns (r: Reply<()>)
    requires db.Valid()
    modifies db`venues, db`requests
    ensures db.Valid()
    ensures Key(Str(venueId)).None? ==> r == Fail(500, "Error deleting venue.") && unchanged(db)
    ensures Key(Str(venueId)).Some? && Key(Str(venueId)).value !in old(db.venues) ==>
              r == Fail(404, "Venue not found.") && unchanged(db)
    ensures Key(Str(venueId)).Some? && Key(Str(venueId)).value in old(db.venues) ==>
              var id := Key(Str(venueId)).value;
              && r == NoContent()
              && db.venues == old(db.venues) - {id}
              && db.requests == Store.Without(old(db.requests), id)
  {
    if Key(Str(venueId)).None? {
      return Fail(500, "Error deleting venue.");
    }
    var id := Key(Str(venueId)).value;
    if id !in db.venues {
      return Fail(404, "Venue not found.");
    }
    db.SetVenues(db.venues - {id});
    Store.WithoutKeepsValid(db.requests, db.nextRequestId, id);
    db.SetRequests(Store.Without(db.requests, id));
    r := NoContent();
  }
}

=== FILE: auth_middleware.dfy ===
/**
 * The three gates in front of the handlers: the OpenKJ API-key check, the
 * admin bearer-token check and the patron bearer-token check. Each reads the
 * store and either admits the request or answers it; none changes anything.
 * Signature checking of tokens is a parameter (`verify`).
 */
module AuthMiddleware {
  import opened Values
  import opened Text
  import Store

  /** The OpenKJ commands whose venue must exist. */
  predicate IsVenueCommand(command: JsValue)
  {
    command == Str("getRequests") || command == Str("deleteRequest") ||
    command == Str("setAccepting") || command == Str("clearRequests")
  }

  /** A rejection carries no payload. */
  type Rejection = Reply<()>

  function Reject(status: int, text: string): (r: Rejection)
    ensures r.status == status && r.error && r.errorString == text && r.body.None?
  {
    Fail(status, text)
  }

  /** The first row whose key is one of `texts`. */
  function FindKey(keys: seq<Store.ApiKey>, texts: set<string>): (r: Option<Store.ApiKey>)
    ensures r.Some? <==> exists i :: 0 <= i < |keys| && keys[i].key in texts
    ensures r.Some? ==> r.value in keys && r.value.key in texts
  {
    match Store.FirstIndex(keys, (k: Store.ApiKey) => k.key in texts)
    case None => None
    case Some(i) => Some(keys[i])
  }

  /**
   * The key texts `findOne({ where: { key: apiKey } })` looks for: the string
   * itself, or the strings of an array (an `IN` list); None for any other
   * value, which makes the query fail.
   */
  function KeyTexts(apiKey: JsValue): (r: Option<set<string>>)
    ensures apiKey.Str? ==> r == Some({apiKey.s})
    ensures apiKey.Arr? ==> r == TextsIn(apiKey.items)
    ensures !apiKey.Str? && !apiKey.Arr? ==> r.None?
  {
    match apiKey
    case Str(s) => Some({s})
    case Arr(items) => TextsIn(items)
    case _ => None
  }

  function FindUser(users: seq<Store.User>, id: int): (r: Option<Store.User>)
    ensures r.Some? <==> exists i :: 0 <= i < |users| && users[i].userId == id
    ensures r.Some? ==> r.value in users && r.value.userId == id
  {
    match Store.FirstIndex(users, (u: Store.User) => u.userId == id)
    case None => None
    case Some(i) => Some(users[i])
  }

  function FindPatron(patrons: seq<Store.Patron>, id: int): (r: Option<Store.Patron>)
    ensures r.Some? <==> exists i :: 0 <= i < |patrons| && patrons[i].patronId == id
    ensures r.Some? ==> r.value in patrons && r.value.patronId == id
  {
    match Store.FirstIndex(patrons, (p: Store.Patron) => p.patronId == id)
    case None => None
    case Some(i) => Some(patrons[i])
  }

  // ---------------------------------------------------------------------
  // OpenKJ API key

  /** Who generated the key: its user, or the placeholder used when that user is gone. */
  datatype KeyOwner = OwnerUser(userId: int) | OwnerDeleted

  datatype KeyCheck = KeyAccepted(keyId: int, owner: KeyOwner) | KeyRejected(reply: Rejection)

  /**
   * `verifyOpenKJApiKey`: the key must be present and known; for the four
   * venue commands a truthy `venue_id` must name an existing venue. Every
   * rejection is a 200 with the error flag except a failed query (500). A
   * key sent as an array is looked up as an `IN` list; when it matches no
   * row, logging its prefix with `substring` throws, which is answered 500.
   */
  function CheckApiKey(apiKey: JsValue, command: JsValue, venueId: JsValue,
                       keys: seq<Store.ApiKey>, users: seq<Store.User>,
                       venues: map<int, Store.Venue>): (r: KeyCheck)
    ensures !Truthy(apiKey) ==> r == KeyRejected(Reject(200, "Authentication failed: API key is required."))
    ensures r.KeyAccepted? <==>
              && Truthy(apiKey) && KeyTexts(apiKey).Some?
              && (exists i :: 0 <= i < |keys| && keys[i].key in KeyTexts(apiKey).value)
              && (Truthy(venueId) && IsVenueCommand(command) ==> Key(venueId).Some? && Key(venueId).value in venues)
    ensures apiKey.Str? && apiKey.s != "" && (forall i :: 0 <= i < |keys| ==> keys[i].key != apiKey.s) ==>
              r == KeyRejected(Reject(200, "Authentication failed: Invalid API key."))
    ensures r.KeyAccepted? ==> var k := FindKey(keys, KeyTexts(apiKey).value).value;
              && k in keys && k.key in KeyTexts(apiKey).value && r.keyId == k.apiKeyId
              && (r.owner.OwnerDeleted? <==> FindUser(users, k.userId).None?)
              && (r.owner.OwnerUser? ==> r.owner.userId == k.userId)
    ensures r.KeyRejected? ==> r.reply.error && (r.reply.status == 200 || r.reply.status == 500)
  {
    if !Truthy(apiKey) then KeyRejected(Reject(200, "Authentication failed: API key is required."))
    else match KeyTexts(apiKey)
      case None => KeyRejected(Reject(500, "Server error during authentication."))
      case Some(texts) =>
        match FindKey(keys, texts)
        case None =>
          if apiKey.Str? then KeyRejected(Reject(200, "Authentication failed: Invalid API key."))
          else KeyRejected(Reject(500, "Server error during authentication."))
        case Some(k) =>
          var owner := if FindUser(users, k.userId).Some? then OwnerUser(k.userId) else OwnerDeleted;
          CheckVenue(KeyAccepted(k.apiKeyId, owner), command, venueId, venues)
  }

  /** The venue check after an accepted key: a truthy `venue_id` of a venue command must name a venue. */
  function CheckVenue(accepted: KeyCheck, command: JsValue, venueId: JsValue,
                      venues: map<int, Store.Venue>): (r: KeyCheck)
    requires accepted.KeyAccepted?
    ensures r.KeyAccepted? <==> (Truthy(venueId) && IsVenueCommand(command) ==> Key(venueId).Some? && Key(venueId).value in venues)
    ensures r.KeyAccepted? ==> r == accepted
    ensures r.KeyRejected? ==> r.reply.error && (r.reply.status == 200 || r.reply.status == 500)
  {
    if Truthy(venueId) && IsVenueCommand(command) then
      match Key(venueId)
      case None => KeyRejected(Reject(500, "Server error during authentication."))
      case Some(v) =>
        if v !in venues then KeyRejected(Reject(200, "Operation failed: Venue ID " + ToJsString(venueId) + " not found."))
        else accepted
    else accepted
  }

  /** A known key sent inside an array passes the check just as it does on its own. */
  lemma KeyInArrayAccepted(key: string, others: seq<JsValue>, command: JsValue, venueId: JsValue,
                           keys: seq<Store.ApiKey>, users: seq<Store.User>, venues: map<int, Store.Venue>)
    requires key != "" && forall v :: v in others ==> v.Str?
    requires CheckApiKey(Str(key), command, venueId, keys, users, venues).KeyAccepted?
    ensures CheckApiKey(Arr([Str(key)] + others), command, venueId, keys, users, venues).KeyAccepted?
  {
    KnownKeyInArray(key, others, keys);
  }

  lemma KnownKeyInArray(key: string, others: seq<JsValue>, keys: seq<Store.ApiKey>)
    requires forall v :: v in others ==> v.Str?
    requires exists i :: 0 <= i < |keys| && keys[i].key in {key}
    ensures KeyTexts(Arr([Str(key)] + others)).Some?
    ensures exists i :: 0 <= i < |keys| && keys[i].key in KeyTexts(Arr([Str(key)] + others)).value
  {
    var items := [Str(key)] + others;
    assert forall j :: 0 <= j < |items| ==> items[j].Str? by {
      forall j | 0 < j < |items| ensures items[j].Str? {
        assert items[j] == others[j - 1] && items[j] in others;
      }
    }
    var texts := TextsIn(items).value;
    assert key in texts by {
      assert Str(key) == items[0] && Str(key) in items;
    }
    var i :| 0 <= i < |keys| && keys[i].key in {key};
    assert keys[i].key in KeyTexts(Arr(items)).value;
  }

  // ---------------------------------------------------------------------
  // Bearer tokens

  /** The claims a token carries: admin tokens hold the first three, patron tokens the last two. */
  datatype Claims = Claims(
    userId: Option<int>,
    username: Option<string>,
    isAdmin: Option<bool>,
    patronId: Option<int>,
    email: Option<string>)

  /** The outcome of checking a token's signature and expiry. */
  datatype JwtResult = Decoded(claims: Claims) | Expired | Malformed(message: string) | VerifyFailed

  /**
   * `authHeader.split(' ')[1]` of a header starting with `Bearer `; None when
   * there is no header, another scheme, or an empty token.
   */
  function BearerToken(header: Option<string>): (t: Option<string>)
    ensures t.Some? ==> header.Some? && StartsWith(header.value, "Bearer ")
    ensures t.Some? ==> t.value != "" && ' ' !in t.value
  {
    if header.Some? && StartsWith(header.value, "Bearer ") then
      var parts := Split(header.value, ' ');
      if |parts| > 1 && parts[1] != "" then Some(parts[1]) else None
    else None
  }

  /** A header built from a token without spaces yields that token back. */
  lemma BearerTokenRoundTrip(token: string)
    requires token != "" && ' ' !in token
    ensures BearerToken(Some("Bearer " + token)) == Some(token)
  {
    var h := "Bearer " + token;
    assert StartsWith(h, "Bearer ");
    assert h == "Bearer" + " " + token;
    SplitJoin(["Bearer", token], ' ');
    assert Join(["Bearer", token], " ") == h;
  }

  datatype Gate<A> = Admit(who: A) | Deny(reply: Rejection)

  /** The reply to a token that failed verification. */
  function JwtFailure(j: JwtResult): (r: Rejection)
    requires !j.Decoded?
    ensures r.status == (if j.VerifyFailed? then 500 else 401)
  {
    match j
    case Expired => Reject(401, "Authentication failed: Token expired.")
    case Malformed(m) => Reject(401, "Authentication failed: " + m)
    case VerifyFailed => Reject(500, "Server error during authentication.")
  }

  /**
   * `verifyAdminToken`: a bearer token, a valid signature, a user that still
   * exists and whose `is_admin` is true.
   */
  function AdminGate(header: Option<string>, verify: string -> JwtResult,
                     users: seq<Store.User>): (r: Gate<Store.User>)
    ensures BearerToken(header).None? ==> r == Deny(Reject(401, "Authentication required: No token provided."))
    ensures r.Admit? <==>
              && BearerToken(header).Some?
              && verify(BearerToken(header).value).Decoded?
              && var c := verify(BearerToken(header).value).claims;
                 c.userId.Some? && FindUser(users, c.userId.value).Some? &&
                 FindUser(users, c.userId.value).value.isAdmin == Some(true)
    ensures r.Admit? ==> r.who in users && r.who.isAdmin == Some(true)
    ensures r.Admit? ==> r.who == FindUser(users, verify(BearerToken(header).value).claims.userId.value).value
    ensures r.Deny? ==> r.reply.status in {401, 403, 500}
  {
    match BearerToken(header)
    case None => Deny(Reject(401, "Authentication required: No token provided."))
    case Some(token) =>
      match verify(token)
      case Decoded(c) =>
        var user := if c.userId.Some? then FindUser(users, c.userId.value) else None;
        if user.None? then Deny(Reject(401, "Invalid token: User not found."))
        else if user.value.isAdmin != Some(true) then Deny(Reject(403, "Forbidden: Admin privileges required."))
        else Admit(user.value)
      case _ => Deny(JwtFailure(verify(token)))
  }

  /**
   * `verifyPatronToken`: a bearer token, a valid signature, a truthy
   * `patronId`, and a patron that still exists.
   */
  function PatronGate(header: Option<string>, verify: string -> JwtResult,
                      patrons: seq<Store.Patron>): (r: Gate<(Claims, Store.Patron)>)
    ensures BearerToken(header).None? ==> r == Deny(Reject(401, "Authentication required: No token provided."))
    ensures r.Admit? <==>
              && BearerToken(header).Some?
              && verify(BearerToken(header).value).Decoded?
              && var c := verify(BearerToken(header).value).claims;
                 c.patronId.Some? && c.patronId.value != 0 && FindPatron(patrons, c.patronId.value).Some?
    ensures r.Admit? ==> r.who.1 in patrons && Some(r.who.1.patronId) == r.who.0.patronId
    ensures r.Admit? ==> var c := verify(BearerToken(header).value).claims;
              r.who.0 == c && r.who.1 == FindPatron(patrons, c.patronId.value).value
    ensures r.Deny? ==> r.reply.status in {401, 500}
  {
    match BearerToken(header)
    case None => Deny(Reject(401, "Authentication required: No token provided."))
    case Some(token) =>
      match verify(token)
      case Decoded(c) =>
        if c.patronId.None? || c.patronId.value == 0 then Deny(Reject(401, "Authentication failed: Invalid token type."))
        else (match FindPatron(patrons, c.patronId.value)
          case None => Deny(Reject(401, "Invalid token: Patron not found."))
          case Some(p) => Admit((c, p)))
      case _ => Deny(JwtFailure(verify(token)))
  }

  /** Claims as patron login signs them, and as admin login signs them. */
  predicate PatronClaims(c: Claims) { c.userId.None? && c.patronId.Some? }
  predicate AdminClaims(c: Claims) { c.userId.Some? && c.patronId.None? }

  /** A patron's token never passes the admin gate: it is refused with 401. */
  lemma PatronTokenNotAdmin(header: Option<string>, verify: string -> JwtResult, users: seq<Store.User>)
    requires BearerToken(header).Some?
    requires verify(BearerToken(header).value).Decoded?
    requires PatronClaims(verify(BearerToken(header).value).claims)
    ensures AdminGate(header, verify, users) == Deny(Reject(401, "Invalid token: User not found."))
  {
  }

  /** An admin's token never passes the patron gate: it is refused with 401. */
  lemma AdminTokenNotPatron(header: Option<string>, verify: string -> JwtResult, patrons: seq<Store.Patron>)
    requires BearerToken(header).Some?
    requires verify(BearerToken(header).value).Decoded?
    requires AdminClaims(verify(BearerToken(header).value).claims)
    ensures PatronGate(header, verify, patrons) == Deny(Reject(401, "Authentication failed: Invalid token type."))
  {
  }
}

=== FILE: favorites.dfy ===
/**
 * A patron's favourite songs: the table of (patron, song) pairs, kept in
 * the order the pairs were added, with an add that never duplicates a pair
 * and a remove that deletes exactly one.
 */
module Favorites {
  import opened Values
  import opened Text
  import Store
  import AuthMiddleware

  /** A favourite as listed: the song's key, artist and title. */
  datatype FavoriteSong = FavoriteSong(songId: int, artist: string, title: string)

  /** The pairs of the table, as a set. */
  function Pairs(fs: seq<Store.Favorite>): (p: set<Store.Favorite>)
    ensures forall f :: f in p <==> f in fs
  {
    set f | f in fs
  }

  /** Whether a favourite is the patron's and its song still exists. */
  predicate Listable(f: Store.Favorite, patronId: int, book: map<int, Store.Song>)
  {
    f.patronId == patronId && f.songId in book
  }

  function SongOf(f: Store.Favorite, book: map<int, Store.Song>): FavoriteSong
    requires f.songId in book
  {
    FavoriteSong(f.songId, book[f.songId].artist, book[f.songId].title)
  }

  /** The patron's favourite songs, the most recently added first. */
  function PatronFavorites(fs: seq<Store.Favorite>, patronId: int, book: map<int, Store.Song>): (r: seq<FavoriteSong>)
    ensures |r| <= |fs|
    ensures forall x :: x in r <==> exists f :: f in fs && Listable(f, patronId, book) && x == SongOf(f, book)
  {
    if fs == [] then []
    else
      var f := fs[|fs| - 1];
      var rest := PatronFavorites(fs[..|fs| - 1], patronId, book);
      assert forall g :: g in fs <==> g in fs[..|fs| - 1] || g == f by {
        assert fs == fs[..|fs| - 1] + [f];
      }
      (if Listable(f, patronId, book) then [SongOf(f, book)] else []) + rest
  }

  /** Newest first: a pair just added heads its patron's list; another patron's list is unchanged. */
  lemma NewestFirst(fs: seq<Store.Favorite>, f: Store.Favorite, patronId: int, book: map<int, Store.Song>)
    ensures Listable(f, patronId, book) ==>
              PatronFavorites(fs + [f], patronId, book) == [SongOf(f, book)] + PatronFavorites(fs, patronId, book)
    ensures f.patronId != patronId ==>
              PatronFavorites(fs + [f], patronId, book) == PatronFavorites(fs, patronId, book)
  {
    assert (fs + [f])[..|fs + [f]| - 1] == fs;
  }

  /** `listFavorites`: a patron that no longer exists is a 404. */
  function ListFavorites(patronId: int, patrons: seq<Store.Patron>, fs: seq<Store.Favorite>,
                         book: map<int, Store.Song>): (r: Reply<seq<FavoriteSong>>)
    ensures AuthMiddleware.FindPatron(patrons, patronId).None? ==> r == Fail(404, "Patron not found.")
    ensures AuthMiddleware.FindPatron(patrons, patronId).Some? ==>
              r.status == 200 && r.body.Some? &&
              forall x :: x in r.body.value <==> exists f :: f in fs && Listable(f, patronId, book) && x == SongOf(f, book)
  {
    if AuthMiddleware.FindPatron(patrons, patronId).None? then Fail(404, "Patron not found.")
    else Success(200, PatronFavorites(fs, patronId, book))
  }

  /** The confirmation of an add: the message and the pair. */
  datatype Added = Added(message: string, favorite: Store.Favorite)

  /** The table without the pair `f`. */
  function Remove(fs: seq<Store.Favorite>, f: Store.Favorite): (r: seq<Store.Favorite>)
    ensures |r| <= |fs|
    ensures forall g :: g in r <==> g in fs && g != f
    ensures f !in fs ==> r == fs
  {
    if fs == [] then []
    else (if fs[0] == f then [] else [fs[0]]) + Remove(fs[1..], f)
  }

  /** Removing a pair keeps the pairs unique, and removes exactly one row when it was there. */
  lemma {:induction false} RemoveUnique(fs: seq<Store.Favorite>, f: Store.Favorite)
    requires Store.UniqueFavorites(fs)
    ensures Store.UniqueFavorites(Remove(fs, f))
    ensures f in fs ==> |Remove(fs, f)| == |fs| - 1
  {
    if fs != [] {
      var t := fs[1..];
      assert Store.UniqueFavorites(t) by {
        forall i, j | 0 <= i < j < |t| ensures t[i] != t[j] {
          assert t[i] == fs[i + 1] && t[j] == fs[j + 1];
        }
      }
      assert fs[0] !in t by {
        forall k | 0 <= k < |t| ensures t[k] != fs[0] {
          assert t[k] == fs[k + 1];
        }
      }
      RemoveUnique(t, f);
      var rt := Remove(t, f);
      if fs[0] != f {
        var r := [fs[0]] + rt;
        forall i, j | 0 <= i < j < |r| ensures r[i] != r[j] {
          assert r[j] == rt[j - 1];
          if i > 0 {
            assert r[i] == rt[i - 1];
          } else {
            assert r[j] in rt;
          }
        }
      }
    }
  }

  /** Adding a new pair and removing it again gives the table back. */
  lemma {:induction false} RemoveAdded(fs: seq<Store.Favorite>, f: Store.Favorite)
    requires f !in fs
    ensures Remove(fs + [f], f) == fs
  {
    if fs == [] {
      assert [f][1..] == [];
    } else {
      assert (fs + [f])[1..] == fs[1..] + [f];
      RemoveAdded(fs[1..], f);
    }
  }

  /**
   * `addFavorite`: without a song id, with an unknown song or an unknown
   * patron nothing changes; a pair already present gives 200 and nothing
   * changes; otherwise the pair is added and the reply is 201.
   */
  method AddFavorite(db: Store.Database, patronId: int, songId: JsValue) returns (r: Reply<Added>)
    requires db.Valid()
    modifies db`favorites
    ensures db.Valid()
    ensures !Truthy(songId) ==> r == Fail(400, "Song ID is required.") && unchanged(db)
    ensures Truthy(songId) && Key(songId).None? ==> r == Fail(500, "Error adding favorite.") && unchanged(db)
    ensures Truthy(songId) && Key(songId).Some? && Key(songId).value !in db.songbook ==>
              r == Fail(404, "Song with ID " + ToJsString(songId) + " not found.") && unchanged(db)
    ensures Truthy(songId) && Key(songId).Some? && Key(songId).value in db.songbook ==>
              var f := Store.Favorite(patronId, Key(songId).value);
              if f in old(db.favorites) then
                r == Success(200, Added("Song is already in favorites.", f)) && unchanged(db)
              else if AuthMiddleware.FindPatron(db.patrons, patronId).None? then
                r == Fail(400, "Invalid Patron or Song ID provided.") && unchanged(db)
              else
                r == Success(201, Added("Song added to favorites.", f)) &&
                db.favorites == old(db.favorites) + [f] && Pairs(db.favorites) == Pairs(old(db.favorites)) + {f}
  {
    if !Truthy(songId) {
      return Fail(400, "Song ID is required.");
    }
    if Key(songId).None? {
      return Fail(500, "Error adding favorite.");
    }
    var s := Key(songId).value;
    if s !in db.songbook {
      return Fail(404, "Song with ID " + ToJsString(songId) + " not found.");
    }
    var f := Store.Favorite(patronId, s);
    if f in db.favorites {
      return Success(200, Added("Song is already in favorites.", f));
    }
    if AuthMiddleware.FindPatron(db.patrons, patronId).None? {
      return Fail(400, "Invalid Patron or Song ID provided.");
    }
    var fs := db.favorites + [f];
    forall i, j | 0 <= i < j < |fs| ensures fs[i] != fs[j] {
      assert fs[i] == db.favorites[i];
      if j < |db.favorites| {
        assert fs[j] == db.favorites[j];
      } else {
        assert db.favorites[i] in db.favorites;
      }
    }
    db.SetFavorites(fs);
    r := Success(201, Added("Song added to favorites.", f));
  }

  /**
   * `removeFavorite`: 204 when the patron's pair existed, which is then gone
   * while every other pair stays; 404 and no change otherwise.
   */
  method RemoveFavorite(db: Store.Database, patronId: int, songId: string) returns (r: Reply<()>)
    requires db.Valid()
    modifies db`favorites
    ensures db.Valid()
    ensures songId == "" ==> r == Fail(400, "Song ID parameter is required.") && unchanged(db)
    ensures songId != "" && Key(Str(songId)).None? ==> r == Fail(500, "Error removing favorite.") && unchanged(db)
    ensures songId != "" && Key(Str(songId)).Some? ==>
              var f := Store.Favorite(patronId, Key(Str(songId)).value);
              && (r == NoContent() <==> f in old(db.favorites))
              && (f in old(db.favorites) ==>
                    db.favorites == Remove(old(db.favorites), f) && Pairs(db.favorites) == Pairs(old(db.favorites)) - {f})
              && (f !in old(db.favorites) ==>
                    r == Fail(404, "Favorite not found for this user and song.") && unchanged(db))
  {
    if songId == "" {
      return Fail(400, "Song ID parameter is required.");
    }
    if Key(Str(songId)).None? {
      return Fail(500, "Error removing favorite.");
    }
    var f := Store.Favorite(patronId, Key(Str(songId)).value);
    if f in db.favorites {
      RemoveUnique(db.favorites, f);
      db.SetFavorites(Remove(db.favorites, f));
      r := NoContent();
    } else {
      r := Fail(404, "Favorite not found for this user and song.");
    }
  }
}

=== FILE: openkj.dfy ===
/**
 * The OpenKJ command endpoint: one POST body whose `command` selects an
 * operation on the request queue, the venues' accepting flags or the global
 * songbook. Every answer is HTTP 200 with an `error` flag, and every change
 * of state increments the global serial that OpenKJ polls.
 */
module OpenKJ {
  import opened Values
  import opened Text
  import Ordering
  import Store
  import AuthMiddleware

  datatype Command =
    | GetSerial | GetRequests | DeleteRequest | SetAccepting | GetVenues | ClearRequests
    | AddSongs | ClearDatabase | GetAlert | GetEntitledSystemCount | ConnectionTest

  function CommandName(c: Command): string
  {
    match c
    case GetSerial => "getSerial"
    case GetRequests => "getRequests"
    case DeleteRequest => "deleteRequest"
    case SetAccepting => "setAccepting"
    case GetVenues => "getVenues"
    case ClearRequests => "clearRequests"
    case AddSongs => "addSongs"
    case ClearDatabase => "clearDatabase"
    case GetAlert => "getAlert"
    case GetEntitledSystemCount => "getEntitledSystemCount"
    case ConnectionTest => "connectionTest"
  }

  /** The `switch (command)`: only a string equal to a command's name selects it. */
  function ParseCommand(v: JsValue): (c: Option<Command>)
    ensures c.Some? ==> v == Str(CommandName(c.value))
    ensures c.None? ==> forall d :: v != Str(CommandName(d))
  {
    if v == Str("getSerial") then Some(GetSerial)
    else if v == Str("getRequests") then Some(GetRequests)
    else if v == Str("deleteRequest") then Some(DeleteRequest)
    else if v == Str("setAccepting") then Some(SetAccepting)
    else if v == Str("getVenues") then Some(GetVenues)
    else if v == Str("clearRequests") then Some(ClearRequests)
    else if v == Str("addSongs") then Some(AddSongs)
    else if v == Str("clearDatabase") then Some(ClearDatabase)
    else if v == Str("getAlert") then Some(GetAlert)
    else if v == Str("getEntitledSystemCount") then Some(GetEntitledSystemCount)
    else if v == Str("connectionTest") then Some(ConnectionTest)
    else None
  }

  /** Every command is recognised by its own name and by no other. */
  lemma ParseCommandName(c: Command)
    ensures ParseCommand(Str(CommandName(c))) == Some(c)
  {
  }

  /** The commands whose venue must be named, and must exist. */
  predicate NeedsVenue(c: Command)
  {
    c == GetRequests || c == DeleteRequest || c == SetAccepting || c == ClearRequests
  }

  /** The dispatcher and the API-key check agree on which commands need a venue. */
  lemma VenueCommandsAgree(v: JsValue)
    ensures AuthMiddleware.IsVenueCommand(v) <==> ParseCommand(v).Some? && NeedsVenue(ParseCommand(v).value)
  {
  }

  /** The fields of the POST body the endpoint reads. */
  datatype Body = Body(
    command: JsValue,
    apiKey: JsValue,
    venueId: JsValue,
    requestId: JsValue,
    accepting: JsValue,
    songs: JsValue)

  /** A queue entry as OpenKJ receives it: the time in whole seconds. */
  datatype QueueRow = QueueRow(requestId: int, artist: string, title: string, singer: string,
                               requestTime: int, keyChange: int)

  datatype VenueRow = VenueRow(venueId: int, name: string, urlName: Option<string>, accepting: Option<bool>)

  /** Why one entry of `addSongs` was refused; the entry is kept for the message. */
  datatype EntryError = InvalidEntry(entry: JsValue) | EmptyAfterTrim(entry: JsValue)

  datatype Payload =
    | SerialBody(serial: nat)
    | RequestsBody(requests: seq<QueueRow>, serial: nat)
    | AcceptingBody(venueId: int, accepting: bool, serial: nat)
    | VenuesBody(venues: seq<VenueRow>)
    | SongsBody(errors: seq<EntryError>, processed: nat, lastArtist: Option<string>,
                lastTitle: Option<string>, serial: nat)
    | AlertBody(alert: bool, title: string, message: string)
    | CountBody(count: nat)
    | ConnectionBody(connection: string)

  /** A reply, or an exception that escaped the handler (no reply written by it, nothing changed). */
  datatype Outcome = Replied(reply: Reply<Payload>) | Thrown

  // ---------------------------------------------------------------------
  // getRequests: the queue of one venue

  /** `ORDER BY request_time ASC`: rows without a time come last. */
  predicate TimeLe(a: Store.Request, b: Store.Request)
  {
    match (a.requestTime, b.requestTime)
    case (Some(x), Some(y)) => x <= y
    case (Some(_), None) => true
    case (None, Some(_)) => false
    case (None, None) => true
  }

  lemma TimeLeTotal()
    ensures Ordering.Total(TimeLe)
  {
  }

  /** `Math.floor(request_time.getTime() / 1000)`. */
  function RowOf(r: Store.Request): QueueRow
    requires r.requestTime.Some?
  {
    QueueRow(r.requestId, r.artist, r.title, r.singer, r.requestTime.value / 1000, r.keyChange)
  }

  /** Every row as OpenKJ sees it; rows without a time are dropped. */
  function Rows(rs: seq<Store.Request>): (q: seq<QueueRow>)
    ensures |q| <= |rs|
  {
    if rs == [] then [] else (if rs[0].requestTime.Some? then [RowOf(rs[0])] else []) + Rows(rs[1..])
  }

  /** The reply's `requests`: the venue's rows in time order, each time in seconds, untimed rows dropped. */
  function Queue(rs: seq<Store.Request>, v: int): (q: seq<QueueRow>)
    ensures |q| <= |Store.ForVenue(rs, v)|
  {
    Rows(Ordering.Sort(Store.ForVenue(rs, v), TimeLe))
  }

  ghost predicate InTimeOrder(q: seq<QueueRow>)
  {
    forall i :: 0 <= i < |q| - 1 ==> q[i].requestTime <= q[i + 1].requestTime
  }

  lemma {:induction false} RowsConcat(a: seq<Store.Request>, b: seq<Store.Request>)
    ensures Rows(a + b) == Rows(a) + Rows(b)
  {
    if a != [] {
      var head := if a[0].requestTime.Some? then [RowOf(a[0])] else [];
      calc {
        Rows(a + b);
        { assert (a + b)[0] == a[0] && (a + b)[1..] == a[1..] + b; }
        head + Rows(a[1..] + b);
        { RowsConcat(a[1..], b); }
        head + (Rows(a[1..]) + Rows(b));
        (head + Rows(a[1..])) + Rows(b);
      }
    } else {
      assert a + b == b;
    }
  }

  /** Rows of two orderings of the same requests are the same rows. */
  lemma {:induction false} RowsPermutation(s: seq<Store.Request>, t: seq<Store.Request>)
    requires multiset(s) == multiset(t)
    ensures multiset(Rows(s)) == multiset(Rows(t))
    decreases |s|
  {
    if s == [] {
      assert |t| == |multiset(t)| == 0;
    } else {
      var x := s[0];
      assert x in multiset(t);
      var k :| 0 <= k < |t| && t[k] == x;
      var rest := t[..k] + t[k + 1..];
      assert t == t[..k] + [x] + t[k + 1..];
      assert multiset(rest) == multiset(t) - multiset{x};
      assert s == [x] + s[1..];
      RowsPermutation(s[1..], rest);
      RowsAround(t[..k], x, t[k + 1..]);
      RowsConcat([x], s[1..]);
    }
  }

  /** The rows around one request are its row plus the rows of the others. */
  lemma RowsAround(pre: seq<Store.Request>, x: Store.Request, post: seq<Store.Request>)
    ensures multiset(Rows(pre + [x] + post)) == multiset(Rows([x])) + multiset(Rows(pre + post))
  {
    RowsConcat(pre + [x], post);
    RowsConcat(pre, [x]);
    RowsConcat(pre, post);
  }

  /** In a sequence sorted with untimed rows last, the first row OpenKJ sees is the first row. */
  lemma {:induction false} RowsHead(s: seq<Store.Request>)
    requires Ordering.SortedBy(s, TimeLe)
    requires Rows(s) != []
    ensures s[0].requestTime.Some? && Rows(s)[0] == RowOf(s[0])
  {
    if s[0].requestTime.None? {
      assert Rows(s) == Rows(s[1..]);
      RowsHead(s[1..]);
      assert false;
    }
  }

  lemma DivMonotone(a: int, b: int)
    requires a <= b
    ensures a / 1000 <= b / 1000
  {
  }

  lemma {:induction false} RowsInOrder(s: seq<Store.Request>)
    requires Ordering.SortedBy(s, TimeLe)
    ensures InTimeOrder(Rows(s))
  {
    if s != [] {
      assert Ordering.SortedBy(s[1..], TimeLe);
      RowsInOrder(s[1..]);
      var tail := Rows(s[1..]);
      if s[0].requestTime.Some? && tail != [] {
        RowsHead(s[1..]);
        DivMonotone(s[0].requestTime.value, s[1].requestTime.value);
        var q := Rows(s);
        assert q == [RowOf(s[0])] + tail;
        assert forall i :: 0 < i < |q| ==> q[i] == tail[i - 1];
      }
    }
  }

  /** The queue is in time order. */
  lemma QueueInTimeOrder(rs: seq<Store.Request>, v: int)
    ensures InTimeOrder(Queue(rs, v))
  {
    TimeLeTotal();
    Ordering.SortCorrect(Store.ForVenue(rs, v), TimeLe);
    RowsInOrder(Ordering.Sort(Store.ForVenue(rs, v), TimeLe));
  }

  /** The queue holds each timed request of the venue exactly once, and nothing else. */
  lemma QueueContents(rs: seq<Store.Request>, v: int)
    ensures multiset(Queue(rs, v)) == multiset(Rows(Store.ForVenue(rs, v)))
  {
    TimeLeTotal();
    Ordering.SortCorrect(Store.ForVenue(rs, v), TimeLe);
    RowsPermutation(Ordering.Sort(Store.ForVenue(rs, v), TimeLe), Store.ForVenue(rs, v));
  }

  // ---------------------------------------------------------------------
  // getVenues

  /** The venue keys in `[lo, hi)`, ascending: the table in key order. */
  function KeysFrom(venues: map<int, Store.Venue>, lo: int, hi: int): (r: seq<int>)
    ensures forall k :: k in r <==> k in venues && lo <= k < hi
    ensures forall i, j :: 0 <= i < j < |r| ==> r[i] < r[j]
    decreases hi - lo
  {
    if lo >= hi then []
    else
      var rest := KeysFrom(venues, lo + 1, hi);
      assert forall i :: 0 <= i < |rest| ==> lo < rest[i] by {
        forall i | 0 <= i < |rest| ensures lo < rest[i] {
          assert rest[i] in rest;
        }
      }
      if lo in venues then
        var r := [lo] + rest;
        assert forall i, j :: 0 <= i < j < |r| ==> r[i] < r[j] by {
          forall i, j | 0 <= i < j < |r| ensures r[i] < r[j] {
            assert r[j] == rest[j - 1];
            if i > 0 {
              assert r[i] == rest[i - 1];
            }
          }
        }
        r
      else rest
  }

  /** The attributes `getVenues` selects. */
  function VenueRowOf(id: int, v: Store.Venue): VenueRow
  {
    VenueRow(id, v.name, v.urlName, v.accepting)
  }

  /** One row per venue, in key order; `bound` is above every key. */
  function VenueRows(venues: map<int, Store.Venue>, bound: int): (r: seq<VenueRow>)
    requires forall id :: id in venues ==> 0 <= id < bound
    ensures forall x :: x in r <==> x.venueId in venues && x == VenueRowOf(x.venueId, venues[x.venueId])
    ensures forall i, j :: 0 <= i < j < |r| ==> r[i].venueId != r[j].venueId
  {
    var ks := KeysFrom(venues, 0, bound);
    var r := seq(|ks|, i requires 0 <= i < |ks| => VenueRowOf(ks[i], venues[ks[i]]));
    EveryVenueListed(venues, bound, ks, r);
    r
  }

  lemma EveryVenueListed(venues: map<int, Store.Venue>, bound: int, ks: seq<int>, r: seq<VenueRow>)
    requires forall id :: id in venues ==> 0 <= id < bound
    requires forall k :: k in ks <==> k in venues && 0 <= k < bound
    requires |r| == |ks| && forall i :: 0 <= i < |ks| ==> ks[i] in venues && r[i] == VenueRowOf(ks[i], venues[ks[i]])
    ensures forall id :: id in venues ==> VenueRowOf(id, venues[id]) in r
  {
    forall id | id in venues ensures VenueRowOf(id, venues[id]) in r {
      assert id in ks;
      var i :| 0 <= i < |ks| && ks[i] == id;
      assert r[i] == VenueRowOf(id, venues[id]);
    }
  }

  predicate NameLe(a: VenueRow, b: VenueRow)
  {
    Ordering.StrLe(a.name, b.name)
  }

  /** `Venue.findAll({ order: [['name', 'ASC']] })`. */
  function VenueList(venues: map<int, Store.Venue>, bound: int): (r: seq<VenueRow>)
    requires forall id :: id in venues ==> 0 <= id < bound
    ensures multiset(r) == multiset(VenueRows(venues, bound))
  {
    Ordering.Sort(VenueRows(venues, bound), NameLe)
  }

  /** The venue list is ordered by name and holds every venue exactly once. */
  lemma VenueListCorrect(venues: map<int, Store.Venue>, bound: int)
    requires forall id :: id in venues ==> 0 <= id < bound
    ensures Ordering.SortedBy(VenueList(venues, bound), NameLe)
    ensures forall x :: x in VenueList(venues, bound) <==>
              x.venueId in venues && x == VenueRowOf(x.venueId, venues[x.venueId])
    ensures multiset(VenueList(venues, bound)) == multiset(VenueRows(venues, bound))
  {
    assert Ordering.Total(NameLe) by {
      forall a: VenueRow, b: VenueRow ensures NameLe(a, b) || NameLe(b, a) {
        Ordering.StrLeTotal(a.name, b.name);
      }
    }
    Ordering.SortCorrect(VenueRows(venues, bound), NameLe);
    assert forall x :: x in VenueList(venues, bound) <==> x in multiset(VenueRows(venues, bound));
  }

  /** `count > 0 ? count : 1` over all venues. */
  function EntitledCount(venues: map<int, Store.Venue>): (n: nat)
    ensures n >= 1
    ensures |venues| > 0 ==> n == |venues|
  {
    if |venues| > 0 then |venues| else 1
  }

  // ---------------------------------------------------------------------
  // setAccepting

  /** The accepting flag OpenKJ sends: `'1'`, `true`, or anything whose text is `true` in any case; likewise for false. */
  function CoerceAccepting(v: JsValue): (r: Option<bool>)
    ensures v.Bool? ==> r == Some(v.b)
    ensures v == Undefined || v == Null ==> r.None?
  {
    if v == Str("1") || v == Bool(true) || LowerAscii(ToJsString(v)) == "true" then Some(true)
    else if v == Str("0") || v == Bool(false) || LowerAscii(ToJsString(v)) == "false" then Some(false)
    else None
  }

  /** Booleans and the strings `1`/`0`, `true`/`false` in any case are read as the flag they name. */
  lemma AcceptingAccepts(b: bool, s: string)
    requires LowerAscii(s) == (if b then "true" else "false")
    ensures CoerceAccepting(Bool(b)) == Some(b)
    ensures CoerceAccepting(Str(if b then "1" else "0")) == Some(b)
    ensures CoerceAccepting(Str(s)) == Some(b)
  {
    if !b {
      assert LowerAscii(s)[0] == 'f';
      assert s != "1";
    }
  }

  /** Numbers, the numeric 1 and 0 included, are refused. */
  lemma AcceptingRefusesNumbers(n: int)
    ensures CoerceAccepting(Num(n)) == None
  {
    var t := IntToString(n);
    var m: nat := if n < 0 then -n else n;
    assert IsDecimal(NatToString(m));
    assert t[0] == '-' || IsDigit(t[0]);
    var l := LowerAscii(t);
    assert l[0] == t[0];
    assert l != "true" && l != "false";
  }

  // ---------------------------------------------------------------------
  // addSongs

  predicate Trimmed(s: string)
  {
    s != "" && !IsSpace(s[0]) && !IsSpace(s[|s| - 1])
  }

  /** `const { artist, title } = song` throws for exactly these entries. */
  predicate Destructurable(v: JsValue)
  {
    v != Null && v != Undefined
  }

  datatype EntryCheck = Accepted(song: Store.Song) | Rejected(error: EntryError)

  /** One entry: both fields truthy strings, both non-empty after trimming. */
  function CheckEntry(entry: JsValue): (c: EntryCheck)
    ensures c.Accepted? <==>
              Prop(entry, "artist").Str? && Prop(entry, "title").Str? &&
              Trim(Prop(entry, "artist").s) != "" && Trim(Prop(entry, "title").s) != ""
    ensures c.Accepted? ==> c.song == Store.Song(Trim(Prop(entry, "artist").s), Trim(Prop(entry, "title").s))
    ensures c.Accepted? ==> Trimmed(c.song.artist) && Trimmed(c.song.title)
    ensures c.Rejected? ==> c.error.entry == entry
  {
    var artist := Prop(entry, "artist");
    var title := Prop(entry, "title");
    if !Truthy(artist) || !Truthy(title) || !artist.Str? || !title.Str? then Rejected(InvalidEntry(entry))
    else
      var a := Trim(artist.s);
      var t := Trim(title.s);
      if a == "" || t == "" then Rejected(EmptyAfterTrim(entry)) else Accepted(Store.Song(a, t))
  }

  /** What the loop over the entries gathers: the errors, the songs to insert, the last song. */
  datatype Scan = Scan(errors: seq<EntryError>, toAdd: seq<Store.Song>, last: Option<Store.Song>)

  function ScanEntries(songs: seq<JsValue>): (sc: Scan)
    requires forall i :: 0 <= i < |songs| ==> Destructurable(songs[i])
    ensures |sc.errors| + |sc.toAdd| == |songs|
    ensures sc.last.None? <==> sc.toAdd == []
    ensures sc.last.Some? ==> sc.last.value == sc.toAdd[|sc.toAdd| - 1]
    decreases |songs|
  {
    if songs == [] then Scan([], [], None)
    else
      var prev := ScanEntries(songs[..|songs| - 1]);
      match CheckEntry(songs[|songs| - 1])
      case Rejected(e) => Scan(prev.errors + [e], prev.toAdd, prev.last)
      case Accepted(s) => Scan(prev.errors, prev.toAdd + [s], Some(s))
  }

  /** Extending the entries by one extends the scan by that entry's check. */
  lemma ScanExtend(items: seq<JsValue>, i: nat)
    requires i < |items|
    requires forall j :: 0 <= j <= i ==> Destructurable(items[j])
    ensures ScanEntries(items[..i + 1]) ==
            match CheckEntry(items[i])
            case Rejected(e) => Scan(ScanEntries(items[..i]).errors + [e], ScanEntries(items[..i]).toAdd, ScanEntries(items[..i]).last)
            case Accepted(s) => Scan(ScanEntries(items[..i]).errors, ScanEntries(items[..i]).toAdd + [s], Some(s))
  {
    var prefix := items[..i + 1];
    assert prefix[..i] == items[..i] && prefix[i] == items[i];
  }

  /** The check of every entry, in input order. */
  function Checks(songs: seq<JsValue>): (cs: seq<EntryCheck>)
    ensures |cs| == |songs|
    ensures forall i :: 0 <= i < |songs| ==> cs[i] == CheckEntry(songs[i])
  {
    seq(|songs|, i requires 0 <= i < |songs| => CheckEntry(songs[i]))
  }

  /**
   * The scan against the check of each entry: there are no errors exactly
   * when every entry is accepted, and nothing to add exactly when every entry
   * is refused.
   */
  lemma ScanChecks(songs: seq<JsValue>)
    requires forall i :: 0 <= i < |songs| ==> Destructurable(songs[i])
    ensures ScanEntries(songs).errors == [] <==> forall i :: 0 <= i < |songs| ==> CheckEntry(songs[i]).Accepted?
    ensures ScanEntries(songs).toAdd == [] <==> forall i :: 0 <= i < |songs| ==> CheckEntry(songs[i]).Rejected?
  {
    NoErrorsIffAllAccepted(songs);
    NothingAddedIffAllRefused(songs);
  }

  lemma NoErrorsIffAllAccepted(songs: seq<JsValue>)
    requires forall i :: 0 <= i < |songs| ==> Destructurable(songs[i])
    ensures ScanEntries(songs).errors == [] <==> forall i :: 0 <= i < |songs| ==> CheckEntry(songs[i]).Accepted?
  {
    var sc, cs := ScanEntries(songs), Checks(songs);
    ScanGathers(songs);
    if sc.errors != [] {
      assert Rejected(sc.errors[0]) in cs;
    }
    if i :| 0 <= i < |songs| && CheckEntry(songs[i]).Rejected? {
      assert cs[i] in cs;
    }
  }

  lemma NothingAddedIffAllRefused(songs: seq<JsValue>)
    requires forall i :: 0 <= i < |songs| ==> Destructurable(songs[i])
    ensures ScanEntries(songs).toAdd == [] <==> forall i :: 0 <= i < |songs| ==> CheckEntry(songs[i]).Rejected?
  {
    var sc, cs := ScanEntries(songs), Checks(songs);
    ScanGathers(songs);
    if sc.toAdd != [] {
      assert Accepted(sc.toAdd[0]) in cs;
    }
    if i :| 0 <= i < |songs| && CheckEntry(songs[i]).Accepted? {
      assert cs[i] in cs;
    }
  }

  /**
   * A song is gathered exactly when some entry is accepted as that song, and
   * an error exactly when some entry is refused with it.
   */
  lemma {:induction false} ScanGathers(songs: seq<JsValue>)
    requires forall i :: 0 <= i < |songs| ==> Destructurable(songs[i])
    ensures forall x :: x in ScanEntries(songs).toAdd <==> Accepted(x) in Checks(songs)
    ensures forall e :: e in ScanEntries(songs).errors <==> Rejected(e) in Checks(songs)
    decreases |songs|
  {
    if songs != [] {
      var n := |songs| - 1;
      var init := songs[..n];
      ScanGathers(init);
      ChecksSnoc(songs);
      var sc, prev, c := ScanEntries(songs), ScanEntries(init), CheckEntry(songs[n]);
      assert sc == if c.Accepted? then Scan(prev.errors, prev.toAdd + [c.song], Some(c.song))
                   else Scan(prev.errors + [c.error], prev.toAdd, prev.last);
    }
  }

  lemma ChecksSnoc(songs: seq<JsValue>)
    requires songs != []
    ensures Checks(songs) == Checks(songs[..|songs| - 1]) + [CheckEntry(songs[|songs| - 1])]
  {
  }

  /** One row of `INSERT ... ON CONFLICT DO NOTHING`: skipped when its `combined` value is present. */
  function InsertSong(book: map<int, Store.Song>, next: int, s: Store.Song): map<int, Store.Song>
  {
    if Store.Combined(s) in Store.CombinedSet(book) then book else book[next := s]
  }

  /**
   * `bulkCreate(songsToAdd, { ignoreDuplicates: true })`: each song takes the
   * next key and is inserted unless its `combined` value is already present,
   * in the table or earlier in the batch.
   */
  function MergeSongs(book: map<int, Store.Song>, next: int, batch: seq<Store.Song>): map<int, Store.Song>
    decreases |batch|
  {
    if batch == [] then book else MergeSongs(InsertSong(book, next, batch[0]), next + 1, batch[1..])
  }

  function CombinedOf(batch: seq<Store.Song>): set<string>
  {
    set s | s in batch :: Store.Combined(s)
  }

  lemma InsertSongValid(book: map<int, Store.Song>, next: int, s: Store.Song)
    requires Store.SongbookValid(book, next)
    ensures Store.SongbookValid(InsertSong(book, next, s), next + 1)
    ensures forall id :: id in book ==> id in InsertSong(book, next, s) && InsertSong(book, next, s)[id] == book[id]
  {
    var c := Store.Combined(s);
    if c !in Store.CombinedSet(book) {
      forall a | a in book ensures Store.Combined(book[a]) != c {
        assert Store.Combined(book[a]) in Store.CombinedSet(book);
      }
    }
  }

  lemma InsertSongCombined(book: map<int, Store.Song>, next: int, s: Store.Song)
    requires Store.SongbookValid(book, next)
    ensures Store.CombinedSet(InsertSong(book, next, s)) == Store.CombinedSet(book) + {Store.Combined(s)}
  {
    var c := Store.Combined(s);
    var b := InsertSong(book, next, s);
    if c !in Store.CombinedSet(book) {
      assert next !in book;
      assert Store.Combined(b[next]) == c;
      forall x | x in Store.CombinedSet(b) ensures x in Store.CombinedSet(book) + {c} {
        var id :| id in b && x == Store.Combined(b[id]);
        if id != next {
          assert x == Store.Combined(book[id]);
        }
      }
      forall x | x in Store.CombinedSet(book) ensures x in Store.CombinedSet(b) {
        var id :| id in book && x == Store.Combined(book[id]);
        assert b[id] == book[id];
      }
    }
  }

  lemma CombinedOfCons(batch: seq<Store.Song>)
    requires batch != []
    ensures CombinedOf(batch) == {Store.Combined(batch[0])} + CombinedOf(batch[1..])
  {
    forall x | x in CombinedOf(batch) ensures x in {Store.Combined(batch[0])} + CombinedOf(batch[1..]) {
      var t :| t in batch && x == Store.Combined(t);
      if t != batch[0] {
        var k :| 0 <= k < |batch| && batch[k] == t;
        assert batch[1..][k - 1] == t;
      }
    }
  }

  /**
   * The merge keeps every existing song under its key, keeps `combined`
   * unique, and afterwards the songbook holds exactly the old titles plus the
   * batch's.
   */
  lemma {:induction false} MergeSongsCorrect(book: map<int, Store.Song>, next: int, batch: seq<Store.Song>)
    requires Store.SongbookValid(book, next)
    ensures Store.SongbookValid(MergeSongs(book, next, batch), next + |batch|)
    ensures forall id :: id in book ==> id in MergeSongs(book, next, batch) && MergeSongs(book, next, batch)[id] == book[id]
    ensures Store.CombinedSet(MergeSongs(book, next, batch)) == Store.CombinedSet(book) + CombinedOf(batch)
    decreases |batch|
  {
    if batch != [] {
      var b := InsertSong(book, next, batch[0]);
      InsertSongValid(book, next, batch[0]);
      InsertSongCombined(book, next, batch[0]);
      MergeSongsCorrect(b, next + 1, batch[1..]);
      CombinedOfCons(batch);
    }
  }

  const SongErrorsText := "Errors occurred during song addition. Check 'errors' array."

  // ---------------------------------------------------------------------
  // Handlers

  /** `getSerial`: the state row exists afterwards; the serial is kept and replied. */
  predicate SerialServed(before: Store.Tables, after: Store.Tables, o: Outcome)
  {
    && after == before.(hasState := true)
    && o == Replied(Success(200, SerialBody(before.serial)))
  }

  method GetSerialCmd(db: Store.Database) returns (o: Outcome)
    requires db.Valid()
    modifies db`hasState, db`serial
    ensures db.Valid() && SerialServed(old(db.Snapshot()), db.Snapshot(), o)
  {
    db.EnsureStateRow();
    o := Replied(Success(200, SerialBody(db.serial)));
  }

  /** `getRequests`: the venue's queue and the current serial (without creating the state row). */
  predicate RequestsServed(t: Store.Tables, venueId: JsValue, o: Outcome)
  {
    && (!Truthy(venueId) ==> o == Replied(Fail(200, "Venue ID is required.")))
    && (Truthy(venueId) && Key(venueId).None? ==> o == Replied(Fail(200, "Error retrieving requests.")))
    && (Truthy(venueId) && Key(venueId).Some? ==>
          o == Replied(Success(200, RequestsBody(Queue(t.requests, Key(venueId).value), t.serial))))
  }

  /** Reads only. */
  method GetRequestsCmd(db: Store.Database, venueId: JsValue) returns (o: Outcome)
    requires db.Valid()
    ensures RequestsServed(db.Snapshot(), venueId, o)
  {
    if !Truthy(venueId) {
      return Replied(Fail(200, "Venue ID is required."));
    }
    match Key(venueId)
    case None =>
      o := Replied(Fail(200, "Error retrieving requests."));
    case Some(v) =>
      var serial := db.CurrentSerial();
      o := Replied(Success(200, RequestsBody(Queue(db.requests, v), serial)));
  }

  /**
   * The request keys `request_id` selects: the cast of a single value, or,
   * for an array, the casts of its items, which Sequelize compares with
   * `IN (...)` (an empty array matching nothing); None when the query fails
   * on a value that cannot be cast.
   */
  function RequestKeys(requestId: JsValue): Option<set<int>>
  {
    if requestId.Arr? then KeysIn(requestId.items)
    else if Key(requestId).Some? then Some({Key(requestId).value})
    else None
  }

  /** The row `findOne` returns for `WHERE request_id IN rids AND venue_id = vid`: the first in table order. */
  function RequestIndex(rs: seq<Store.Request>, rids: set<int>, vid: int): Option<nat>
  {
    Store.FirstIndex(rs, (r: Store.Request) => r.requestId in rids && r.venueId == vid)
  }

  /** An id sent inside a one-item array selects what it selects on its own; an empty array selects no row. */
  lemma ArrayRequestId(x: JsValue, rs: seq<Store.Request>, vid: int)
    requires !x.Arr? && x != Null
    ensures RequestKeys(Arr([x])) == RequestKeys(x)
    ensures RequestKeys(Arr([])) == Some({}) && RequestIndex(rs, {}, vid).None?
  {
    assert [x][1..] == [];
    assert KeysIn([x][1..]) == Some({});
    if Key(x).Some? {
      assert {Key(x).value} + {} == {Key(x).value};
    }
  }

  /**
   * `deleteRequest`: a missing or uncastable id, or no row of that venue
   * with that id (or, for an array, with one of its ids), is refused with
   * nothing changed; otherwise exactly the row found is removed and the
   * serial goes up by one.
   */
  predicate RequestDeleted(before: Store.Tables, after: Store.Tables, venueId: JsValue, requestId: JsValue, o: Outcome)
  {
    && (Missing(requestId) ==> o == Replied(Fail(200, "Request ID is required.")) && after == before)
    && (!Missing(requestId) && (RequestKeys(requestId).None? || Key(venueId).None?) ==>
          o == Replied(Fail(200, "Error deleting request.")) && after == before)
    && (!Missing(requestId) && RequestKeys(requestId).Some? && Key(venueId).Some? ==>
          match RequestIndex(before.requests, RequestKeys(requestId).value, Key(venueId).value)
          case None => o == Replied(Fail(200, "Request not found.")) && after == before
          case Some(i) =>
            && after == before.(requests := Store.RemoveAt(before.requests, i), serial := before.serial + 1, hasState := true)
            && o == Replied(Success(200, SerialBody(after.serial))))
  }

  method DeleteRequestCmd(db: Store.Database, venueId: JsValue, requestId: JsValue) returns (o: Outcome)
    requires db.Valid()
    modifies db`requests, db`hasState, db`serial
    ensures db.Valid()
    ensures db.serial == old(db.serial) || db.serial == old(db.serial) + 1
    ensures RequestDeleted(old(db.Snapshot()), db.Snapshot(), venueId, requestId, o)
  {
    if Missing(requestId) {
      return Replied(Fail(200, "Request ID is required."));
    }
    if RequestKeys(requestId).None? || Key(venueId).None? {
      return Replied(Fail(200, "Error deleting request."));
    }
    var rids, vid := RequestKeys(requestId).value, Key(venueId).value;
    match RequestIndex(db.requests, rids, vid)
    case None =>
      o := Replied(Fail(200, "Request not found."));
    case Some(i) =>
      ghost var before := db.Snapshot();
      Store.RemoveAtKeepsValid(db.requests, db.nextRequestId, i);
      db.SetRequests(Store.RemoveAt(db.requests, i));
      var serial := db.UpdateSerial();
      o := Replied(Success(200, SerialBody(serial)));
      assert db.Snapshot() == before.(requests := Store.RemoveAt(before.requests, i), serial := before.serial + 1, hasState := true);
  }

  /**
   * `setAccepting`, given the venue key and the flag as read from the body: an unreadable flag, an uncastable id or an unknown venue
   * is refused with nothing changed; otherwise only that venue's flag
   * changes and the serial goes up by one.
   */
  predicate AcceptingSet(before: Store.Tables, after: Store.Tables, key: Option<int>, flag: Option<bool>, o: Outcome)
  {
    && (flag.None? ==>
          o == Replied(Fail(200, "A boolean accepting status (true/false or 1/0) is required.")) && after == before)
    && (flag.Some? && key.None? ==>
          o == Replied(Fail(200, "Error setting accepting status.")) && after == before)
    && (flag.Some? && key.Some? && key.value !in before.venues ==>
          o == Replied(Fail(200, "Venue not found.")) && after == before)
    && (flag.Some? && key.Some? && key.value in before.venues ==>
          var v, b := key.value, flag.value;
          && after == before.(venues := before.venues[v := before.venues[v].(accepting := Some(b))],
                              serial := before.serial + 1, hasState := true)
          && o == Replied(Success(200, AcceptingBody(v, b, after.serial))))
  }


  method SetAcceptingCmd(db: Store.Database, venueId: JsValue, accepting: JsValue) returns (o: Outcome)
    requires db.Valid()
    modifies db`venues, db`hasState, db`serial
    ensures db.Valid()
    ensures db.serial == old(db.serial) || db.serial == old(db.serial) + 1
    ensures AcceptingSet(old(db.Snapshot()), db.Snapshot(), Key(venueId), CoerceAccepting(accepting), o)
  {
    var b, key := CoerceAccepting(accepting), Key(venueId);
    if b.None? {
      return Replied(Fail(200, "A boolean accepting status (true/false or 1/0) is required."));
    }
    match key
    case None =>
      o := Replied(Fail(200, "Error setting accepting status."));
    case Some(v) =>
      if v !in db.venues {
        o := Replied(Fail(200, "Venue not found."));
      } else {
        ghost var before := db.Snapshot();
        db.SetVenueAccepting(v, b.value);
        var serial := db.UpdateSerial();
        o := Replied(Success(200, AcceptingBody(v, b.value, serial)));
        assert db.Snapshot() == before.(venues := before.venues[v := before.venues[v].(accepting := Some(b.value))],
                                        serial := before.serial + 1, hasState := true);
      }
  }

  /**
   * `clearRequests`: an uncastable id is refused with nothing changed;
   * otherwise exactly that venue's requests are removed and the serial goes
   * up by one.
   */
  predicate RequestsCleared(before: Store.Tables, after: Store.Tables, venueId: JsValue, o: Outcome)
  {
    && (Key(venueId).None? ==> o == Replied(Fail(200, "Error clearing requests.")) && after == before)
    && (Key(venueId).Some? ==>
          && after == before.(requests := Store.Without(before.requests, Key(venueId).value),
                              serial := before.serial + 1, hasState := true)
          && o == Replied(Success(200, SerialBody(after.serial))))
  }

  method ClearRequestsCmd(db: Store.Database, venueId: JsValue) returns (o: Outcome)
    requires db.Valid()
    modifies db`requests, db`hasState, db`serial
    ensures db.Valid()
    ensures db.serial == old(db.serial) || db.serial == old(db.serial) + 1
    ensures RequestsCleared(old(db.Snapshot()), db.Snapshot(), venueId, o)
  {
    match Key(venueId)
    case None =>
      o := Replied(Fail(200, "Error clearing requests."));
    case Some(v) =>
      Store.WithoutKeepsValid(db.requests, db.nextRequestId, v);
      db.SetRequests(Store.Without(db.requests, v));
      var serial := db.UpdateSerial();
      o := Replied(Success(200, SerialBody(serial)));
  }

  /** The song fields of the reply: the last accepted entry's artist and title, or null. */
  function LastArtist(sc: Scan): Option<string>
  {
    if sc.last.Some? then Some(sc.last.value.artist) else None
  }

  function LastTitle(sc: Scan): Option<string>
  {
    if sc.last.Some? then Some(sc.last.value.title) else None
  }

  /**
   * The `for (const song of songs)` loop: None when an entry cannot be
   * destructured (the loop throws there), otherwise what it gathered.
   */
  method ScanSongs(items: seq<JsValue>) returns (sc: Option<Scan>)
    ensures sc.None? <==> exists i :: 0 <= i < |items| && !Destructurable(items[i])
    ensures sc.Some? ==> sc.value == ScanEntries(items)
  {
    var errors: seq<EntryError> := [];
    var toAdd: seq<Store.Song> := [];
    var last: Option<Store.Song> := None;
    var i := 0;
    while i < |items|
      invariant 0 <= i <= |items|
      invariant forall j :: 0 <= j < i ==> Destructurable(items[j])
      invariant Scan(errors, toAdd, last) == ScanEntries(items[..i])
    {
      if !Destructurable(items[i]) {
        return None;
      }
      ScanExtend(items, i);
      match CheckEntry(items[i]) {
        case Rejected(e) =>
          errors := errors + [e];
        case Accepted(s) =>
          toAdd := toAdd + [s];
          last := Some(s);
      }
      i := i + 1;
    }
    assert items[..i] == items;
    sc := Some(Scan(errors, toAdd, last));
  }

  /**
   * The `songsToAdd.length > 0` branch: `SongDB.bulkCreate(songsToAdd, { ignoreDuplicates: true })`,
   * then `updateSerial()` when `bump` holds. An empty batch changes nothing.
   * Returns the serial to reply with.
   */
  method BulkInsert(db: Store.Database, batch: seq<Store.Song>, bump: bool) returns (serial: nat)
    requires db.Valid()
    modifies db`songbook, db`nextSongId, db`hasState, db`serial
    ensures db.Valid()
    ensures db.Snapshot() == old(db.Snapshot()).(songbook := MergeSongs(old(db.songbook), old(db.nextSongId), batch),
                                                 nextSongId := old(db.nextSongId) + |batch|,
                                                 serial := old(db.serial) + (if batch != [] && bump then 1 else 0),
                                                 hasState := old(db.hasState) || (batch != [] && bump))
    ensures serial == db.serial
  {
    serial := db.CurrentSerial();
    if |batch| > 0 {
      MergeSongsCorrect(db.songbook, db.nextSongId, batch);
      db.SetSongbook(MergeSongs(db.songbook, db.nextSongId, batch), db.nextSongId + |batch|);
      if bump {
        serial := db.UpdateSerial();
      }
    } else {
      assert MergeSongs(db.songbook, db.nextSongId, batch) == db.songbook;
    }
  }


  /**
   * `addSongs`: without a songs array, or with an entry that cannot be
   * destructured, nothing changes. Otherwise the valid entries are merged
   * into the songbook; the reply's error flag is set exactly when some entry
   * was refused, and the serial goes up by one exactly when some entry was
   * accepted.
   */
  predicate SongsAdded(before: Store.Tables, after: Store.Tables, songs: JsValue, o: Outcome)
  {
    && (!songs.Arr? ==>
          && o == Replied(Reply(200, true, "Songs array is required.", Some(SongsBody([], 0, None, None, before.serial))))
          && after == before)
    && (songs.Arr? && (exists i :: 0 <= i < |songs.items| && !Destructurable(songs.items[i])) ==>
          o == Thrown && after == before)
    && (songs.Arr? && (forall i :: 0 <= i < |songs.items| ==> Destructurable(songs.items[i])) ==>
          var sc := ScanEntries(songs.items);
          && after == before.(songbook := MergeSongs(before.songbook, before.nextSongId, sc.toAdd),
                              nextSongId := before.nextSongId + |sc.toAdd|,
                              serial := before.serial + (if sc.toAdd == [] then 0 else 1),
                              hasState := before.hasState || sc.toAdd != [])
          && o == Replied(Reply(200, sc.errors != [], if sc.errors != [] then SongErrorsText else "",
                                Some(SongsBody(sc.errors, |sc.toAdd|, LastArtist(sc), LastTitle(sc), after.serial))))
          && (o.reply.error <==> exists i :: 0 <= i < |songs.items| && CheckEntry(songs.items[i]).Rejected?)
          && (after.serial == before.serial + 1 <==> exists i :: 0 <= i < |songs.items| && CheckEntry(songs.items[i]).Accepted?))
  }

  /** The scan's outcome, once the store and the reply are built from it, is what `addSongs` promises. */
  lemma ScannedSongsAdded(before: Store.Tables, after: Store.Tables, songs: JsValue, o: Outcome)
    requires songs.Arr? && forall i :: 0 <= i < |songs.items| ==> Destructurable(songs.items[i])
    requires var sc := ScanEntries(songs.items);
             && after == before.(songbook := MergeSongs(before.songbook, before.nextSongId, sc.toAdd),
                                 nextSongId := before.nextSongId + |sc.toAdd|,
                                 serial := before.serial + (if sc.toAdd == [] then 0 else 1),
                                 hasState := before.hasState || sc.toAdd != [])
             && o == Replied(Reply(200, sc.errors != [], if sc.errors != [] then SongErrorsText else "",
                                   Some(SongsBody(sc.errors, |sc.toAdd|, LastArtist(sc), LastTitle(sc), after.serial))))
    ensures SongsAdded(before, after, songs, o)
  {
    ScanChecks(songs.items);
  }

  /**
   * The second half of `addSongs`, once every entry has been scanned: the
   * valid songs are inserted and the reply reports the scan.
   */
  method StoreScanned(db: Store.Database, songs: JsValue, scan: Scan) returns (o: Outcome)
    requires db.Valid()
    requires songs.Arr? && forall i :: 0 <= i < |songs.items| ==> Destructurable(songs.items[i])
    requires scan == ScanEntries(songs.items)
    modifies db`songbook, db`nextSongId, db`hasState, db`serial
    ensures db.Valid()
    ensures SongsAdded(old(db.Snapshot()), db.Snapshot(), songs, o)
  {
    var errors, toAdd := scan.errors, scan.toAdd;
    ghost var before := db.Snapshot();
    assert toAdd != [] ==> |errors| < |songs.items|;
    var serial := BulkInsert(db, toAdd, |errors| < |songs.items|);
    o := Replied(Reply(200, errors != [], if errors != [] then SongErrorsText else "",
                       Some(SongsBody(errors, |toAdd|, LastArtist(scan), LastTitle(scan), serial))));
    ScannedSongsAdded(before, db.Snapshot(), songs, o);
  }

  method AddSongsCmd(db: Store.Database, songs: JsValue) returns (o: Outcome)
    requires db.Valid()
    modifies db`songbook, db`nextSongId, db`hasState, db`serial
    ensures db.Valid()
    ensures db.serial == old(db.serial) || db.serial == old(db.serial) + 1
    ensures SongsAdded(old(db.Snapshot()), db.Snapshot(), songs, o)
  {
    if !songs.Arr? {
      var serial := db.CurrentSerial();
      return Replied(Reply(200, true, "Songs array is required.", Some(SongsBody([], 0, None, None, serial))));
    }
    label Scanning:
    var scan := ScanSongs(songs.items);
    assert unchanged@Scanning(db) && db.Valid();
    if scan.None? {
      return Thrown;
    }
    o := StoreScanned(db, songs, scan.value);
  }

  /** `clearDatabase`: the songbook is emptied and the serial goes up by one. */
  predicate DatabaseCleared(before: Store.Tables, after: Store.Tables, o: Outcome)
  {
    && after == before.(songbook := map[], serial := before.serial + 1, hasState := true)
    && o == Replied(Success(200, SerialBody(after.serial)))
  }

  method ClearDatabaseCmd(db: Store.Database) returns (o: Outcome)
    requires db.Valid()
    modifies db`songbook, db`nextSongId, db`hasState, db`serial
    ensures db.Valid() && DatabaseCleared(old(db.Snapshot()), db.Snapshot(), o)
  {
    db.SetSongbook(map[], db.nextSongId);
    var serial := db.UpdateSerial();
    o := Replied(Success(200, SerialBody(serial)));
  }

  /** The alert placeholder: never active. */
  function AlertPayload(): (p: Payload)
    ensures p.AlertBody? && !p.alert
  {
    AlertBody(false, "", "")
  }

  // ---------------------------------------------------------------------
  // Dispatch

  /**
   * What one recognised command does: its handler's reply and new state,
   * with every table the handler does not write left as it was.
   */
  predicate Effect(before: Store.Tables, after: Store.Tables, c: Command, body: Body, o: Outcome)
    requires forall id :: id in after.venues ==> 0 <= id < after.nextVenueId
  {
    match c
    case GetSerial => SerialServed(before, after, o)
    case GetRequests => RequestsServed(before, body.venueId, o) && after == before
    case DeleteRequest => RequestDeleted(before, after, body.venueId, body.requestId, o)
    case SetAccepting => AcceptingSet(before, after, Key(body.venueId), CoerceAccepting(body.accepting), o)
    case GetVenues => o == Replied(Success(200, VenuesBody(VenueList(after.venues, after.nextVenueId)))) && after == before
    case ClearRequests => RequestsCleared(before, after, body.venueId, o)
    case AddSongs => SongsAdded(before, after, body.songs, o)
    case ClearDatabase => DatabaseCleared(before, after, o)
    case GetAlert => o == Replied(Success(200, AlertBody(false, "", ""))) && after == before
    case GetEntitledSystemCount => o == Replied(Success(200, CountBody(EntitledCount(after.venues)))) && after == before
    case ConnectionTest => o == Replied(Success(200, ConnectionBody("ok"))) && after == before
  }

  /** The handler of one recognised command. */
  method RunCommand(db: Store.Database, c: Command, body: Body) returns (o: Outcome)
    requires db.Valid()
    modifies db`venues, db`requests, db`songbook, db`nextSongId, db`hasState, db`serial
    ensures db.Valid()
    ensures db.serial == old(db.serial) || db.serial == old(db.serial) + 1
    ensures ReadOnly(c) ==> unchanged(db)
    ensures Effect(old(db.Snapshot()), db.Snapshot(), c, body, o)
  {
    if ReadOnly(c) {
      o := ReadCommand(db, c, body);
    } else {
      o := WriteCommand(db, c, body);
    }
  }

  /** The commands that only read the store. */
  predicate ReadOnly(c: Command)
  {
    c == GetRequests || c == GetVenues || c == GetAlert || c == GetEntitledSystemCount || c == ConnectionTest
  }

  /** The read-only commands: their replies are fixed by the current tables. */
  method ReadCommand(db: Store.Database, c: Command, body: Body) returns (o: Outcome)
    requires db.Valid() && ReadOnly(c)
    ensures Effect(old(db.Snapshot()), db.Snapshot(), c, body, o)
  {
    match c
    case GetRequests =>
      o := GetRequestsCmd(db, body.venueId);
    case GetVenues =>
      o := Replied(Success(200, VenuesBody(VenueList(db.venues, db.nextVenueId))));
    case GetAlert =>
      o := Replied(Success(200, AlertPayload()));
    case GetEntitledSystemCount =>
      o := Replied(Success(200, CountBody(EntitledCount(db.venues))));
    case ConnectionTest =>
      o := Replied(Success(200, ConnectionBody("ok")));
  }

  /** The commands that write the store: each raises the serial by at most one. */
  method WriteCommand(db: Store.Database, c: Command, body: Body) returns (o: Outcome)
    requires db.Valid() && !ReadOnly(c)
    modifies db`venues, db`requests, db`songbook, db`nextSongId, db`hasState, db`serial
    ensures db.Valid()
    ensures db.serial == old(db.serial) || db.serial == old(db.serial) + 1
    ensures Effect(old(db.Snapshot()), db.Snapshot(), c, body, o)
  {
    match c
    case GetSerial =>
      o := GetSerialCmd(db);
    case DeleteRequest =>
      o := DeleteRequestCmd(db, body.venueId, body.requestId);
    case SetAccepting =>
      o := SetAcceptingCmd(db, body.venueId, body.accepting);
    case ClearRequests =>
      o := ClearRequestsCmd(db, body.venueId);
    case AddSongs =>
      o := AddSongsCmd(db, body.songs);
    case ClearDatabase =>
      o := ClearDatabaseCmd(db);
  }

  /** A body that passes the presence checks and names a known command. */
  predicate Routed(body: Body)
  {
    && Truthy(body.command)
    && !(AuthMiddleware.IsVenueCommand(body.command) && Missing(body.venueId))
    && ParseCommand(body.command).Some?
  }

  /** `handleOpenKJCommand`: the presence checks, then the command's handler. */
  method Dispatch(db: Store.Database, body: Body) returns (o: Outcome)
    requires db.Valid()
    modifies db`venues, db`requests, db`songbook, db`nextSongId, db`hasState, db`serial
    ensures db.Valid()
    ensures db.serial == old(db.serial) || db.serial == old(db.serial) + 1
    ensures !Truthy(body.command) ==> o == Replied(Fail(200, "A valid command is required.")) && unchanged(db)
    ensures Truthy(body.command) && AuthMiddleware.IsVenueCommand(body.command) && Missing(body.venueId) ==>
              o == Replied(Fail(200, "Venue ID is required for this command.")) && unchanged(db)
    ensures Truthy(body.command) && ParseCommand(body.command).None? ==>
              o == Replied(Fail(200, "Unrecognized Command.")) && unchanged(db)
    ensures Routed(body) ==> Effect(old(db.Snapshot()), db.Snapshot(), ParseCommand(body.command).value, body, o)
    ensures Routed(body) && ReadOnly(ParseCommand(body.command).value) ==> unchanged(db)
  {
    if !Truthy(body.command) {
      return Replied(Fail(200, "A valid command is required."));
    }
    if AuthMiddleware.IsVenueCommand(body.command) && Missing(body.venueId) {
      return Replied(Fail(200, "Venue ID is required for this command."));
    }
    match ParseCommand(body.command)
    case None =>
      o := Replied(Fail(200, "Unrecognized Command."));
    case Some(c) =>
      o := RunCommand(db, c, body);
  }

  /** The API-key check's rejection, as an endpoint reply. */
  function AsOutcome(r: AuthMiddleware.Rejection): Outcome
  {
    Replied(Reply(r.status, r.error, r.errorString, None))
  }

  /** The route: the API-key check, then the dispatcher. A rejected request changes nothing. */
  method HandleOpenKJ(db: Store.Database, body: Body) returns (o: Outcome)
    requires db.Valid()
    modifies db`venues, db`requests, db`songbook, db`nextSongId, db`hasState, db`serial
    ensures db.Valid()
    ensures db.serial == old(db.serial) || db.serial == old(db.serial) + 1
    ensures var check := AuthMiddleware.CheckApiKey(body.apiKey, body.command, body.venueId,
                                                    old(db.apiKeys), old(db.users), old(db.venues));
            check.KeyRejected? ==> o == AsOutcome(check.reply) && unchanged(db)
    ensures var check := AuthMiddleware.CheckApiKey(body.apiKey, body.command, body.venueId,
                                                    old(db.apiKeys), old(db.users), old(db.venues));
            check.KeyAccepted? && Routed(body) ==> Effect(old(db.Snapshot()), db.Snapshot(), ParseCommand(body.command).value, body, o)
  {
    var check := AuthMiddleware.CheckApiKey(body.apiKey, body.command, body.venueId, db.apiKeys, db.users, db.venues);
    if check.KeyRejected? {
      return AsOutcome(check.reply);
    }
    o := Dispatch(db, body);
  }
}

=== FILE: ordering.dfy ===
/**
 * The database's `ORDER BY ... ASC`, modelled as a stable insertion sort over
 * a total comparison: rows that compare equal keep their table order.
 */
module Ordering {

  /** `le` is total: of any two values, one comes first. */
  ghost predicate Total<T(!new)>(le: (T, T) -> bool)
  {
    forall a: T, b: T :: le(a, b) || le(b, a)
  }

  /** Every element is ordered before its successor. */
  ghost predicate SortedBy<T>(s: seq<T>, le: (T, T) -> bool)
  {
    forall i :: 0 <= i < |s| - 1 ==> le(s[i], s[i + 1])
  }

  /** Places `x` before the first element it is ordered before. */
  function Insert<T>(x: T, s: seq<T>, le: (T, T) -> bool): seq<T>
  {
    if s == [] then [x]
    else if le(x, s[0]) then [x] + s
    else [s[0]] + Insert(x, s[1..], le)
  }

  /** The rows in `le` order (see `SortCorrect`); a sort only reorders. */
  function Sort<T>(s: seq<T>, le: (T, T) -> bool): (r: seq<T>)
    ensures multiset(r) == multiset(s)
    ensures |r| == |s|
  {
    if s == [] then []
    else
      InsertPermutes(s[0], Sort(s[1..], le), le);
      assert s == [s[0]] + s[1..];
      Insert(s[0], Sort(s[1..], le), le)
  }

  lemma {:induction false} InsertPermutes<T>(x: T, s: seq<T>, le: (T, T) -> bool)
    ensures multiset(Insert(x, s, le)) == multiset(s) + multiset{x}
  {
    if s != [] && !le(x, s[0]) {
      InsertPermutes(x, s[1..], le);
      assert s == [s[0]] + s[1..];
    }
  }

  lemma {:induction false} InsertSorted<T(!new)>(x: T, s: seq<T>, le: (T, T) -> bool)
    requires Total(le)
    requires SortedBy(s, le)
    ensures SortedBy(Insert(x, s, le), le)
    ensures |Insert(x, s, le)| == |s| + 1
    ensures Insert(x, s, le)[0] == x || (s != [] && Insert(x, s, le)[0] == s[0])
  {
    if s != [] && !le(x, s[0]) {
      assert le(s[0], x);
      InsertSorted(x, s[1..], le);
    }
  }

  /** The sorted sequence is ordered by `le` and holds exactly the same rows. */
  lemma {:induction false} SortCorrect<T(!new)>(s: seq<T>, le: (T, T) -> bool)
    requires Total(le)
    ensures SortedBy(Sort(s, le), le)
    ensures multiset(Sort(s, le)) == multiset(s)
    ensures |Sort(s, le)| == |s|
  {
    if s != [] {
      SortCorrect(s[1..], le);
      InsertSorted(s[0], Sort(s[1..], le), le);
    }
  }

  /** Code-point lexicographic order on strings. */
  predicate StrLe(a: string, b: string)
  {
    if a == [] then true
    else if b == [] then false
    else if a[0] != b[0] then a[0] < b[0]
    else StrLe(a[1..], b[1..])
  }

  lemma {:induction false} StrLeTotal(a: string, b: string)
    ensures StrLe(a, b) || StrLe(b, a)
  {
    if a != [] && b != [] && a[0] == b[0] {
      StrLeTotal(a[1..], b[1..]);
    }
  }
}

=== FILE: patron_auth.dfy ===
/**
 * Patron registration and login. Password hashing and comparison, the
 * e-mail validator of the patron model and token signing are parameters.
 */
module PatronAuth {
  import opened Values
  import opened Text
  import Store
  import AuthMiddleware

  datatype RegisterBody = RegisterBody(
    firstName: Option<string>,
    lastName: Option<string>,
    email: Option<string>,
    mobile: Option<string>,
    password: Option<string>)

  /** A patron as replied after registration: every column but the password hash. */
  datatype PatronView = PatronView(patronId: int, firstName: Option<string>, lastName: Option<string>,
                                   email: Option<string>, mobile: Option<string>)

  function View(p: Store.Patron): PatronView
  {
    PatronView(p.patronId, p.firstName, p.lastName, p.email, p.mobile)
  }

  predicate Present(s: Option<string>)
  {
    s.Some? && s.value != ""
  }

  // ---------------------------------------------------------------------
  // The e-mail pattern

  /**
   * The unanchored pattern `\S+@\S+\.\S+` finds a match: a non-space
   * character, `@`, a run of non-space characters, `.`, and a non-space
   * character, all adjacent.
   */
  predicate EmailPattern(s: string)
    ensures EmailPattern(s) ==> |s| >= 5 && '.' in s
  {
    exists a, d :: 1 <= a && a + 1 < d && d + 1 < |s| && MatchAt(s, a, d)
  }

  /** The match with `@` at `a` and the final `.` at `d`. */
  predicate MatchAt(s: string, a: int, d: int)
    requires 1 <= a && a + 1 < d && d + 1 < |s|
  {
    && !IsSpace(s[a - 1]) && s[a] == '@'
    && (forall k :: a < k < d ==> !IsSpace(s[k]))
    && s[d] == '.' && !IsSpace(s[d + 1])
  }

  /** Every address of the shape `local@domain.tld` without spaces is accepted. */
  lemma EmailPatternAccepts(local: string, domain: string, tld: string)
    requires local != "" && domain != "" && tld != ""
    requires forall c :: c in local + domain + tld ==> !IsSpace(c)
    ensures EmailPattern(local + "@" + domain + "." + tld)
  {
    var s := local + "@" + domain + "." + tld;
    var a := |local|;
    var d := |local| + 1 + |domain|;
    assert s[a - 1] == local[a - 1] && s[a - 1] in local + domain + tld;
    assert s[a] == '@';
    forall k | a < k < d ensures !IsSpace(s[k]) {
      assert s[k] == domain[k - a - 1];
      assert domain[k - a - 1] in local + domain + tld;
    }
    assert s[d] == '.';
    assert s[d + 1] == tld[0] && tld[0] in local + domain + tld;
    assert MatchAt(s, a, d);
  }

  /** A text without `@` is refused. */
  lemma EmailPatternNeedsAt(s: string)
    requires '@' !in s
    ensures !EmailPattern(s)
  {
  }

  // ---------------------------------------------------------------------
  // register

  /** Whether some patron already has the e-mail. */
  predicate EmailRegistered(patrons: seq<Store.Patron>, email: string)
  {
    exists p :: p in patrons && p.email == Some(email)
  }

  /** Whether some patron already has the mobile number. */
  predicate MobileTaken(patrons: seq<Store.Patron>, mobile: Option<string>)
  {
    mobile.Some? && exists p :: p in patrons && p.mobile == mobile
  }

  /** The reply of a registration that is turned away before anything is stored, or None. */
  function RegisterRefusal(b: RegisterBody, patrons: seq<Store.Patron>, isEmail: string -> bool): (r: Option<Reply<PatronView>>)
    ensures !(Present(b.email) && Present(b.password)) ==>
              r == Some(Fail(400, "Email and password are required for registration."))
    ensures Present(b.email) && Present(b.password) && !EmailPattern(b.email.value) ==>
              r == Some(Fail(400, "Invalid email format."))
    ensures Present(b.email) && Present(b.password) && EmailPattern(b.email.value) && EmailRegistered(patrons, b.email.value) ==>
              r == Some(Fail(409, "Email already registered."))
    ensures r.None? <==>
              && Present(b.email) && Present(b.password) && EmailPattern(b.email.value)
              && !EmailRegistered(patrons, b.email.value) && isEmail(b.email.value) && !MobileTaken(patrons, b.mobile)
    ensures r.Some? ==> r.value.error && r.value.status in {400, 409}
  {
    if !(Present(b.email) && Present(b.password)) then Some(Fail(400, "Email and password are required for registration."))
    else if !EmailPattern(b.email.value) then Some(Fail(400, "Invalid email format."))
    else if EmailRegistered(patrons, b.email.value) then Some(Fail(409, "Email already registered."))
    // the model's e-mail validation and the unique mobile number are validation errors
    else if !isEmail(b.email.value) || MobileTaken(patrons, b.mobile) then Some(Fail(400, "Validation failed"))
    else None
  }

  /**
   * `register`: a refused registration stores nothing; an accepted one
   * inserts the patron under the next key with the hashed password and
   * replies 201 without the hash.
   */
  method Register(db: Store.Database, b: RegisterBody, hash: string -> string, isEmail: string -> bool)
    returns (r: Reply<PatronView>)
    requires db.Valid()
    modifies db`patrons, db`nextPatronId
    ensures db.Valid()
    ensures RegisterRefusal(b, old(db.patrons), isEmail).Some? ==>
              r == RegisterRefusal(b, old(db.patrons), isEmail).value && unchanged(db)
    ensures RegisterRefusal(b, old(db.patrons), isEmail).None? ==>
              var p := Store.Patron(old(db.nextPatronId), b.firstName, b.lastName, b.email, b.mobile, Some(hash(b.password.value)));
              db.patrons == old(db.patrons) + [p] && r == Success(201, View(p))
  {
    var refusal := RegisterRefusal(b, db.patrons, isEmail);
    if refusal.Some? {
      return refusal.value;
    }
    var p := Store.Patron(db.nextPatronId, b.firstName, b.lastName, b.email, b.mobile, Some(hash(b.password.value)));
    var _ := db.AddPatron(p);
    r := Success(201, View(p));
  }

  // ---------------------------------------------------------------------
  // login

  /** What a patron's login returns besides the token. */
  datatype PatronInfo = PatronInfo(patronId: int, firstName: Option<string>, lastName: Option<string>, email: Option<string>)

  datatype LoginBody = LoginBody(token: string, patron: PatronInfo)

  /** The payload of a patron's token: the patron's key and e-mail, and no admin flag. */
  function TokenClaims(p: Store.Patron): (c: AuthMiddleware.Claims)
    ensures AuthMiddleware.PatronClaims(c) && c.isAdmin.None?
    ensures c.patronId == Some(p.patronId) && c.email == p.email
  {
    AuthMiddleware.Claims(None, None, None, Some(p.patronId), p.email)
  }

  /** The patron with the e-mail. */
  function FindByEmail(patrons: seq<Store.Patron>, email: string): (r: Option<Store.Patron>)
    ensures r.Some? ==> r.value in patrons && r.value.email == Some(email)
    ensures r.None? ==> !EmailRegistered(patrons, email)
  {
    match Store.FirstIndex(patrons, (p: Store.Patron) => p.email == Some(email))
    case None => None
    case Some(i) => Some(patrons[i])
  }

  /**
   * `login`: missing fields are a 400; an unknown e-mail or a patron without
   * a password is a 401, and so is a wrong password; otherwise 200 with a
   * token signed over the patron's claims.
   */
  function Login(email: Option<string>, password: Option<string>, patrons: seq<Store.Patron>,
                 compare: (string, string) -> bool, sign: AuthMiddleware.Claims -> string): (r: Reply<LoginBody>)
    ensures !(Present(email) && Present(password)) ==> r == Fail(400, "Email and password are required.")
    ensures r.status == 200 <==>
              && Present(email) && Present(password)
              && FindByEmail(patrons, email.value).Some?
              && Present(FindByEmail(patrons, email.value).value.passwordHash)
              && compare(password.value, FindByEmail(patrons, email.value).value.passwordHash.value)
    ensures r.status == 200 ==>
              var p := FindByEmail(patrons, email.value).value;
              r == Success(200, LoginBody(sign(TokenClaims(p)), PatronInfo(p.patronId, p.firstName, p.lastName, p.email)))
    ensures r.status != 200 ==> r.error && r.status in {400, 401}
  {
    if !(Present(email) && Present(password)) then Fail(400, "Email and password are required.")
    else match FindByEmail(patrons, email.value)
      case None => Fail(401, "Invalid credentials or user not registered.")
      case Some(p) =>
        if !Present(p.passwordHash) then Fail(401, "Invalid credentials or user not registered.")
        else if !compare(password.value, p.passwordHash.value) then Fail(401, "Invalid credentials.")
        else Success(200, LoginBody(sign(TokenClaims(p)), PatronInfo(p.patronId, p.firstName, p.lastName, p.email)))
  }

  /** A patron created without a password (no hash) can never log in. */
  lemma NoPasswordNoLogin(email: string, password: Option<string>, patrons: seq<Store.Patron>,
                          compare: (string, string) -> bool, sign: AuthMiddleware.Claims -> string)
    requires Present(password) && email != ""
    requires FindByEmail(patrons, email).Some? && FindByEmail(patrons, email).value.passwordHash.None?
    ensures Login(Some(email), password, patrons, compare, sign) == Fail(401, "Invalid credentials or user not registered.")
  {
  }

  /**
   * The token a login hands out opens the patron gate for that patron, as
   * long as verification gives back what signing put in and the token has no
   * spaces.
   */
  lemma LoginTokenPassesPatronGate(email: string, password: string, patrons: seq<Store.Patron>,
                                   compare: (string, string) -> bool, sign: AuthMiddleware.Claims -> string,
                                   verify: string -> AuthMiddleware.JwtResult)
    requires Login(Some(email), Some(password), patrons, compare, sign).status == 200
    requires forall c :: verify(sign(c)) == AuthMiddleware.Decoded(c)
    requires var t := Login(Some(email), Some(password), patrons, compare, sign).body.value.token; t != "" && ' ' !in t
    requires FindByEmail(patrons, email).value.patronId != 0
    ensures var t := Login(Some(email), Some(password), patrons, compare, sign).body.value.token;
            var g := AuthMiddleware.PatronGate(Some("Bearer " + t), verify, patrons);
            g.Admit? && g.who.1.patronId == FindByEmail(patrons, email).value.patronId
  {
    var t := Login(Some(email), Some(password), patrons, compare, sign).body.value.token;
    AuthMiddleware.BearerTokenRoundTrip(t);
  }
}

=== FILE: patron_requests.dfy ===
/**
 * A patron's song request: the guard chain in front of it (required fields,
 * the venue, its accepting flag), the row it adds to the queue, and the
 * serial bump that tells OpenKJ to fetch the queue again.
 */
module PatronRequests {
  import opened Values
  import opened Text
  import Ordering
  import Store
  import OpenKJ

  /** The properties of the submission body the handler reads. */
  datatype SubmitBody = SubmitBody(
    venueId: JsValue,
    artist: JsValue,
    title: JsValue,
    singerName: JsValue,
    keyChange: JsValue)

  /** `parseInt(s, 10) || 0`: the leading number of the text, or 0 when it has none. */
  function ParseIntOrZero(s: string): int
  {
    match ParseInt(s)
    case Some(n) => n
    case None => 0
  }

  /**
   * `parseInt(String(n), 10) || 0` for a number n: n itself below 10^21 in
   * magnitude; from there on `String(n)` is in exponent form, of which only
   * the leading digit is read.
   */
  function NumberKeyChange(n: int): (k: int)
    ensures -ExponentFrom < n < ExponentFrom ==> k == n
    ensures n >= ExponentFrom ==> k == LeadingDigit(n) as int && 1 <= k <= 9
    ensures n <= -ExponentFrom ==> k == -(LeadingDigit(-n) as int) && -9 <= k <= -1
  {
    ParseIntOfNumber(n);
    ParseIntOrZero(NumberToString(n))
  }

  /**
   * `parseInt(key_change, 10) || 0`, where an absent `key_change` defaults
   * to 0: the text of the value parsed as an integer, and 0 when it has no
   * leading number.
   */
  function KeyChange(v: JsValue): (k: int)
    ensures v.Num? && -ExponentFrom < v.n < ExponentFrom ==> k == v.n
    ensures v.Num? && v.n >= ExponentFrom ==> 1 <= k <= 9
    ensures v.Num? && v.n <= -ExponentFrom ==> -9 <= k <= -1
    ensures v.Str? && ParseInt(v.s).None? ==> k == 0
  {
    match v
    case Undefined => 0
    case Num(n) => NumberKeyChange(n)
    case _ => ParseIntOrZero(ToJsString(v))
  }

  /**
   * The decimal text of any integer is read as that integer, and text
   * without a leading number becomes 0.
   */
  lemma KeyChangeValues(n: int, s: string)
    ensures KeyChange(Str(IntToString(n))) == n
    ensures ParseInt(s).None? ==> KeyChange(Str(s)) == 0
    ensures KeyChange(Undefined) == 0 && KeyChange(Null) == 0
  {
    ParseIntOfIntToString(n);
    NoLeadingNumber("null");
  }

  /** Text that starts with neither white space, a sign nor a digit has no leading number. */
  lemma NoLeadingNumber(w: string)
    requires w != "" && !IsSpace(w[0]) && !IsDigit(w[0]) && w[0] != '-' && w[0] != '+'
    ensures ParseInt(w) == None
  {
    assert LeadingSpaces(w) == 0;
    assert TrimStart(w) == w;
  }

  /** Whether every required property is present (truthy). */
  predicate AllPresent(b: SubmitBody)
  {
    Truthy(b.venueId) && Truthy(b.artist) && Truthy(b.title) && Truthy(b.singerName)
  }

  /**
   * The reply of a submission that is turned away, or None when the request
   * is stored. A text field that is not a string makes `trim` throw, and a
   * key change beyond the column's 32-bit range makes the insert fail; the
   * handler reports both as a 500.
   */
  function Refusal(b: SubmitBody, venues: map<int, Store.Venue>): (r: Option<Reply<Store.Request>>)
    ensures !AllPresent(b) ==> r == Some(Fail(400, "Venue ID, artist, title, and singer name are required."))
    ensures AllPresent(b) && Key(b.venueId).None? ==> r == Some(Fail(500, "Error submitting request."))
    ensures AllPresent(b) && Key(b.venueId).Some? && Key(b.venueId).value !in venues ==>
              r == Some(Fail(404, "Venue with ID " + ToJsString(b.venueId) + " not found."))
    ensures AllPresent(b) && Key(b.venueId).Some? && Key(b.venueId).value in venues &&
            venues[Key(b.venueId).value].accepting != Some(true) ==>
              r == Some(Fail(403, "Venue \"" + venues[Key(b.venueId).value].name + "\" is not currently accepting requests."))
    ensures AllPresent(b) && Key(b.venueId).Some? && Key(b.venueId).value in venues &&
            venues[Key(b.venueId).value].accepting == Some(true) &&
            (!(b.artist.Str? && b.title.Str? && b.singerName.Str?) || !IsInt4(KeyChange(b.keyChange))) ==>
              r == Some(Fail(500, "Error submitting request."))
    ensures r.None? <==>
              && AllPresent(b) && Key(b.venueId).Some? && Key(b.venueId).value in venues
              && venues[Key(b.venueId).value].accepting == Some(true)
              && b.artist.Str? && b.title.Str? && b.singerName.Str?
              && IsInt4(KeyChange(b.keyChange))
    ensures r.Some? ==> r.value.error && r.value.status in {400, 403, 404, 500}
  {
    if !AllPresent(b) then Some(Fail(400, "Venue ID, artist, title, and singer name are required."))
    else match Key(b.venueId)
      case None => Some(Fail(500, "Error submitting request."))
      case Some(v) =>
        if v !in venues then Some(Fail(404, "Venue with ID " + ToJsString(b.venueId) + " not found."))
        else if venues[v].accepting != Some(true) then
          Some(Fail(403, "Venue \"" + venues[v].name + "\" is not currently accepting requests."))
        else if !(b.artist.Str? && b.title.Str? && b.singerName.Str?) then Some(Fail(500, "Error submitting request."))
        else if !IsInt4(KeyChange(b.keyChange)) then Some(Fail(500, "Error submitting request."))
        else None
  }

  /**
   * `submitRequest`: a refused submission changes nothing; an accepted one
   * stores the trimmed fields and the key change under the next request key, stamped `now`,
   * then increments the serial by exactly one and answers 201 with the row.
   */
  method SubmitRequest(db: Store.Database, b: SubmitBody, now: int) returns (r: Reply<Store.Request>)
    requires db.Valid()
    modifies db`requests, db`nextRequestId, db`hasState, db`serial
    ensures db.Valid()
    ensures Refusal(b, old(db.venues)).Some? ==> r == Refusal(b, old(db.venues)).value && unchanged(db)
    ensures Refusal(b, old(db.venues)).None? ==>
              var req := Store.Request(old(db.nextRequestId), Key(b.venueId).value,
                                       Trim(b.artist.s), Trim(b.title.s), Trim(b.singerName.s), Some(now), KeyChange(b.keyChange));
              && r == Success(201, req)
              && db.requests == old(db.requests) + [req]
              && db.nextRequestId == old(db.nextRequestId) + 1
              && db.serial == old(db.serial) + 1 && db.hasState
  {
    var refusal := Refusal(b, db.venues);
    if refusal.Some? {
      return refusal.value;
    }
    var req := db.AddRequest(Key(b.venueId).value, Trim(b.artist.s), Trim(b.title.s), Trim(b.singerName.s),
                             Some(now), KeyChange(b.keyChange));
    var _ := db.UpdateSerial();
    r := Success(201, req);
  }

  /** What OpenKJ sees next: a stored request joins its venue's queue, once. */
  lemma SubmissionJoinsQueue(rs: seq<Store.Request>, req: Store.Request)
    requires req.requestTime.Some?
    ensures multiset(OpenKJ.Queue(rs + [req], req.venueId)) ==
              multiset(OpenKJ.Queue(rs, req.venueId)) + multiset{OpenKJ.RowOf(req)}
  {
    var v := req.venueId;
    var before := Store.ForVenue(rs, v);
    Store.ForVenueAppend(rs, req, v);
    assert Store.ForVenue(rs + [req], v) == before + [req];
    assert OpenKJ.Rows([req]) == [OpenKJ.RowOf(req)] by {
      assert [req][1..] == [];
    }
    OpenKJ.RowsConcat(before, [req]);
    assert OpenKJ.Rows(before + [req]) == OpenKJ.Rows(before) + [OpenKJ.RowOf(req)];
    OpenKJ.QueueContents(rs + [req], v);
    OpenKJ.QueueContents(rs, v);
  }

  /** The queues of the other venues do not change. */
  lemma SubmissionLeavesOtherQueues(rs: seq<Store.Request>, req: Store.Request, w: int)
    requires w != req.venueId
    ensures OpenKJ.Queue(rs + [req], w) == OpenKJ.Queue(rs, w)
  {
    Store.ForVenueAppend(rs, req, w);
    assert Store.ForVenue(rs, w) + [] == Store.ForVenue(rs, w);
    assert Store.ForVenue(rs + [req], w) == Store.ForVenue(rs, w);
  }
}

=== FILE: song.dfy ===
/**
 * Song search: pagination arithmetic, the text normalisation applied to search
 * input, the number-to-words variant, and the prefix tsquery strings handed to
 * the full-text search. Only the strings and numbers passed to the database
 * are modelled; the matching and ranking are not.
 */
module SongSearch {
  import opened Values
  import opened Text

  // ---------------------------------------------------------------------
  // Pagination

  /** A numeric query parameter: absent, present but empty, or a number. */
  datatype NumParam = Absent | Blank | Number(n: int)

  /** The value after a destructuring default (`page = 1`): None when falsy. */
  function WithDefault(p: NumParam, default: int): Option<int>
  {
    match p
    case Absent => Some(default)
    case Blank => None
    case Number(n) => Some(n)
  }

  datatype Pagination = Pagination(limit: int, offset: int)

  /** `getPagination(page, size)`: page size 20 unless given, offset of the page's first item. */
  function GetPagination(page: Option<int>, size: Option<int>): (p: Pagination)
    ensures p.limit == if size.Some? then size.value else 20
    ensures page.None? ==> p.offset == 0
    ensures page.Some? ==> p.offset == (page.value - 1) * p.limit
  {
    var limit := if size.Some? then size.value else 20;
    Pagination(limit, if page.Some? then (page.value - 1) * limit else 0)
  }

  /** `Math.ceil(count / limit)` as the reply carries it: None is the JSON `null` of NaN or Infinity. */
  function TotalPages(count: nat, limit: int): (r: Option<nat>)
    requires limit >= 0 // a negative LIMIT makes the query fail before the page count is computed
    ensures r.None? <==> limit == 0
  {
    if limit == 0 then None else Some((count + limit - 1) / limit)
  }

  /**
   * The paging of a query with `page = 1` and `size = defaultSize` as
   * destructuring defaults: an absent size is the default, an empty one is
   * 20; an absent or empty page is the first page.
   */
  function QueryPagination(page: NumParam, size: NumParam, defaultSize: int): (p: Pagination)
    ensures p.limit == match size case Absent => defaultSize case Blank => 20 case Number(n) => n
    ensures p.offset == if page.Number? then (page.n - 1) * p.limit else 0
  {
    GetPagination(WithDefault(page, 1), WithDefault(size, defaultSize))
  }

  /** `page ? +page : 1`. */
  function CurrentPage(page: Option<int>): int
  {
    if page.Some? then page.value else 1
  }

  /** The page count is the least number of pages of `limit` items that hold `count` items. */
  lemma TotalPagesBounds(count: nat, limit: int)
    requires limit > 0
    ensures TotalPages(count, limit).Some?
    ensures count == 0 ==> TotalPages(count, limit) == Some(0)
    ensures count > 0 ==> var t := TotalPages(count, limit).value;
              t >= 1 && (t - 1) * limit < count <= t * limit
  {
    if count > 0 {
      var t := (count + limit - 1) / limit;
      var m := (count + limit - 1) % limit;
      assert t * limit + m == count + limit - 1;
      assert t * limit >= count;
      assert (t - 1) * limit < count;
    }
  }

  /**
   * Item `k` (counting from 0) is shown on page `k / limit + 1`: that page
   * exists and its window `[offset, offset + limit)` holds `k`.
   */
  lemma PageOfItem(count: nat, limit: int, k: nat)
    requires limit > 0 && k < count
    ensures var page := k / limit + 1;
            var p := GetPagination(Some(page), Some(limit));
            p.limit == limit && p.offset <= k < p.offset + limit &&
            1 <= page <= TotalPages(count, limit).value
  {
    TotalPagesBounds(count, limit);
    var q, m := k / limit, k % limit;
    assert k == q * limit + m && 0 <= m < limit;
    var t := TotalPages(count, limit).value;
    assert GetPagination(Some(q + 1), Some(limit)).offset == q * limit;
    if t <= q {
      MulLe(t, q, limit);
      assert false;
    }
  }

  lemma MulLe(a: int, b: int, c: nat)
    requires a <= b
    ensures a * c <= b * c
  {
  }

  /**
   * The pages' windows do not overlap: item `k` lies in the window of page
   * `page` (counting from 1) exactly when `page` is `k / limit + 1`, so with
   * `PageOfItem` every item is shown on one page and one only.
   */
  lemma PageWindowExact(limit: int, k: nat, page: int)
    requires limit > 0 && page >= 1
    ensures var p := GetPagination(Some(page), Some(limit));
            p.offset <= k < p.offset + limit <==> page == k / limit + 1
  {
    var q, m := k / limit, k % limit;
    assert k == q * limit + m && 0 <= m < limit;
    var o := GetPagination(Some(page), Some(limit)).offset;
    assert o == (page - 1) * limit;
    if page - 1 < q {
      MulLe(page, q, limit);
      assert o + limit <= q * limit;
    } else if page - 1 > q {
      MulLe(q + 1, page - 1, limit);
      assert o >= q * limit + limit;
    }
  }

  // ---------------------------------------------------------------------
  // Normalisation

  predicate NormalChar(c: char)
  {
    ('a' <= c <= 'z') || ('0' <= c <= '9') || c == '_'
  }

  /**
   * The output shape of `basicNormalize`: lower-case word characters, words
   * separated by single spaces, no space at either end.
   */
  ghost predicate NormalForm(r: string)
  {
    && (forall i :: 0 <= i < |r| ==> NormalChar(r[i]) || r[i] == ' ')
    && (r != "" ==> r[0] != ' ' && r[|r| - 1] != ' ')
    && (forall i :: 0 <= i < |r| - 1 ==> r[i] == ' ' ==> r[i + 1] != ' ')
  }

  /** `replace(/[^\w\s]/g, ' ')`. */
  function PunctToSpace(s: string): (r: string)
    ensures |r| == |s|
    ensures forall i :: 0 <= i < |s| ==> r[i] == if IsWordChar(s[i]) || IsSpace(s[i]) then s[i] else ' '
  {
    if s == [] then [] else [if IsWordChar(s[0]) || IsSpace(s[0]) then s[0] else ' '] + PunctToSpace(s[1..])
  }

  /** `replace(/\s+/g, ' ')`: every run of white space becomes one space. */
  function CollapseSpaces(s: string): (r: string)
    ensures forall i :: 0 <= i < |r| ==> r[i] == ' ' || (!IsSpace(r[i]) && r[i] in s)
    ensures forall i :: 0 <= i < |r| - 1 ==> r[i] == ' ' ==> !IsSpace(r[i + 1])
    ensures s != [] && !IsSpace(s[0]) ==> r != [] && r[0] == s[0]
    decreases |s|
  {
    if s == [] then []
    else if IsSpace(s[0]) then
      var rest := TrimStart(s[1..]);
      var tail := CollapseSpaces(rest);
      assert forall c :: c in rest ==> c in s;
      " " + tail
    else
      var tail := CollapseSpaces(s[1..]);
      [s[0]] + tail
  }

  /** `basicNormalize(str)`. */
  function BasicNormalize(s: string): (r: string)
    ensures s == "" ==> r == ""
    ensures NormalForm(r)
  {
    if s == "" then ""
    else
      var p := PunctToSpace(LowerAscii(s));
      var c := CollapseSpaces(p);
      assert forall i :: 0 <= i < |p| ==> NormalChar(p[i]) || IsSpace(p[i]);
      assert forall i :: 0 <= i < |c| ==> NormalChar(c[i]) || c[i] == ' ';
      var r := Trim(c);
      TrimKeepsShape(c);
      r
  }

  lemma TrimKeepsShape(c: string)
    requires forall i :: 0 <= i < |c| ==> NormalChar(c[i]) || c[i] == ' '
    requires forall i :: 0 <= i < |c| - 1 ==> c[i] == ' ' ==> !IsSpace(c[i + 1])
    ensures NormalForm(Trim(c))
  {
    var r := Trim(c);
    var i, j :| 0 <= i <= j <= |c| && r == c[i..j];
    assert forall k :: 0 <= k < |r| ==> r[k] == c[i + k];
  }

  /** White space that is always a single ' ' followed by a non-space. */
  ghost predicate SingleSpaces(s: string)
  {
    && (forall i :: 0 <= i < |s| ==> IsSpace(s[i]) ==> s[i] == ' ')
    && (forall i :: 0 <= i < |s| - 1 ==> IsSpace(s[i]) ==> !IsSpace(s[i + 1]))
  }

  lemma {:induction false} CollapseOfSingleSpaces(s: string)
    requires SingleSpaces(s)
    ensures CollapseSpaces(s) == s
    decreases |s|
  {
    if s != [] {
      var t := s[1..];
      forall i | 0 <= i < |t| && IsSpace(t[i])
        ensures t[i] == ' ' && (i + 1 < |t| ==> !IsSpace(t[i + 1]))
      {
        assert t[i] == s[i + 1];
        assert i + 1 < |t| ==> t[i + 1] == s[i + 2];
      }
      if IsSpace(s[0]) {
        assert |s| == 1 || !IsSpace(s[1]);
        assert LeadingSpaces(s[1..]) == 0;
        assert TrimStart(s[1..]) == s[1..];
      }
      CollapseOfSingleSpaces(s[1..]);
      assert s == [s[0]] + s[1..];
    }
  }

  /** A string already in normal form is left as it is. */
  lemma NormalFormFixed(r: string)
    requires NormalForm(r)
    ensures BasicNormalize(r) == r
  {
    if r != "" {
      var l := LowerAscii(r);
      assert forall i :: 0 <= i < |r| ==> l[i] == r[i];
      assert l == r;
      var p := PunctToSpace(l);
      assert p == r;
      assert forall c :: NormalChar(c) ==> !IsSpace(c);
      assert SingleSpaces(r);
      CollapseOfSingleSpaces(r);
      TrimOfTrimmed(r);
    }
  }

  /** `basicNormalize` is idempotent. */
  lemma BasicNormalizeIdempotent(s: string)
    ensures BasicNormalize(BasicNormalize(s)) == BasicNormalize(s)
  {
    NormalFormFixed(BasicNormalize(s));
  }

  /** Normalised text never holds a comma. */
  lemma NoComma(s: string)
    ensures ',' !in BasicNormalize(s)
  {
    var r := BasicNormalize(s);
  }

  // ---------------------------------------------------------------------
  // Number words

  /** Each all-digit token replaced by `written` (the number-to-words library), the others kept. */
  function ConvertTokens(tokens: seq<string>, written: string -> string): (r: seq<string>)
    ensures |r| == |tokens|
    ensures forall i :: 0 <= i < |tokens| ==> r[i] == if IsDecimal(tokens[i]) then written(tokens[i]) else tokens[i]
  {
    seq(|tokens|, i requires 0 <= i < |tokens| => if IsDecimal(tokens[i]) then written(tokens[i]) else tokens[i])
  }

  /** `convertTokensNumbers(str)`. */
  function ConvertTokensNumbers(s: string, written: string -> string): (r: string)
    ensures (forall t :: t in Split(s, ' ') ==> !IsDecimal(t)) ==> r == s
  {
    var ts := Split(s, ' ');
    JoinSplit(s, ' ');
    assert (forall t :: t in ts ==> !IsDecimal(t)) ==> ConvertTokens(ts, written) == ts;
    Join(ConvertTokens(ts, written), " ")
  }

  /** Text in which no all-digit token changes under `written` comes back unchanged. */
  lemma ConvertKeepsText(s: string, written: string -> string)
    requires forall t :: t in Split(s, ' ') && IsDecimal(t) ==> written(t) == t
    ensures ConvertTokensNumbers(s, written) == s
  {
    var ts := Split(s, ' ');
    assert ConvertTokens(ts, written) == ts;
    JoinSplit(s, ' ');
  }

  /** The written-number library's output: words, with no decimal digit in them. */
  ghost predicate WordsOnly(written: string -> string)
  {
    forall t :: IsDecimal(t) ==> forall k :: 0 <= k < |written(t)| ==> !IsDigit(written(t)[k])
  }

  /** The number of decimal digits in a text. */
  function DigitCount(s: string): nat
  {
    if s == "" then 0 else (if IsDigit(s[0]) then 1 else 0) + DigitCount(s[1..])
  }

  lemma {:induction false} DigitCountConcat(a: string, b: string)
    ensures DigitCount(a + b) == DigitCount(a) + DigitCount(b)
    decreases |a|
  {
    if a == "" {
      assert a + b == b;
    } else {
      assert (a + b)[0] == a[0] && (a + b)[1..] == a[1..] + b;
      DigitCountConcat(a[1..], b);
    }
  }

  lemma {:induction false} NoDigitCount(s: string)
    requires forall k :: 0 <= k < |s| ==> !IsDigit(s[k])
    ensures DigitCount(s) == 0
    decreases |s|
  {
    if s != "" {
      assert forall k :: 0 <= k < |s| - 1 ==> s[1..][k] == s[k + 1];
      NoDigitCount(s[1..]);
    }
  }

  /** Converting one token never adds digits, and removes some from an all-digit token. */
  lemma TokenDigits(t: string, written: string -> string)
    requires WordsOnly(written)
    ensures IsDecimal(t) ==> DigitCount(written(t)) < DigitCount(t)
  {
    if IsDecimal(t) {
      NoDigitCount(written(t));
      assert DigitCount(t) >= 1;
    }
  }

  /** Converting the tokens of a text removes digits exactly when some token is all digits. */
  lemma {:induction false} ConvertDropsDigits(ts: seq<string>, written: string -> string)
    requires WordsOnly(written)
    ensures DigitCount(Join(ConvertTokens(ts, written), " ")) <= DigitCount(Join(ts, " "))
    ensures (exists i :: 0 <= i < |ts| && IsDecimal(ts[i])) ==>
            DigitCount(Join(ConvertTokens(ts, written), " ")) < DigitCount(Join(ts, " "))
    decreases |ts|
  {
    if |ts| > 0 {
      var c := ConvertTokens(ts, written);
      TokenDigits(ts[0], written);
      if |ts| > 1 {
        var rest := ts[1..];
        assert c[1..] == ConvertTokens(rest, written);
        ConvertDropsDigits(rest, written);
        DigitCountConcat(ts[0] + " ", Join(rest, " "));
        DigitCountConcat(ts[0], " ");
        DigitCountConcat(c[0] + " ", Join(c[1..], " "));
        DigitCountConcat(c[0], " ");
        if i :| 0 <= i < |ts| && IsDecimal(ts[i]) {
          if i > 0 {
            assert IsDecimal(rest[i - 1]);
          }
        }
      }
    }
  }

  /**
   * Since number words hold no digits, the conversion changes the text
   * exactly when the text has an all-digit token.
   */
  lemma ConvertChangesIff(s: string, written: string -> string)
    requires WordsOnly(written)
    ensures ConvertTokensNumbers(s, written) != s <==> exists t :: t in Split(s, ' ') && IsDecimal(t)
  {
    var ts := Split(s, ' ');
    JoinSplit(s, ' ');
    if t :| t in ts && IsDecimal(t) {
      var k :| 0 <= k < |ts| && ts[k] == t;
      ConvertDropsDigits(ts, written);
    } else {
      ConvertKeepsText(s, written);
    }
  }

  /**
   * Number words hold no digits, so a second, spelled-out variant exists
   * exactly when the normalised text has an all-digit token.
   */
  lemma NumberVariantIffDigits(s: string, written: string -> string)
    requires WordsOnly(written) && s != ""
    ensures |ImprovedNormalize(s, written)| == 2 <==> exists t :: t in Split(BasicNormalize(s), ' ') && IsDecimal(t)
  {
    ConvertChangesIff(BasicNormalize(s), written);
  }

  /** `"b, a"` becomes `"a b"`: the two comma-separated parts, trimmed and swapped; any other text is kept. */
  function SwapAroundComma(n0: string): string
  {
    var parts := Split(n0, ',');
    if |parts| == 2 then Join([Trim(parts[1]), Trim(parts[0])], " ") else n0
  }

  /** `improvedNormalize(str)`: the normalised text, plus its number-words variant when that differs. */
  function ImprovedNormalize(s: string, written: string -> string): (r: seq<string>)
    ensures s == "" ==> r == [""]
    ensures s != "" ==> 1 <= |r| <= 2 && r[0] == BasicNormalize(s)
    ensures s != "" ==> (|r| == 2 <==> ConvertTokensNumbers(r[0], written) != r[0])
    ensures |r| == 2 ==> r[1] == ConvertTokensNumbers(r[0], written)
  {
    if s == "" then [""]
    else
      var n0 := BasicNormalize(s);
      var n := if ',' in n0 then SwapAroundComma(n0) else n0;
      NoComma(s);
      assert n == n0;
      var textual := ConvertTokensNumbers(n, written);
      if n != textual then [n, textual] else [n]
  }

  // ---------------------------------------------------------------------
  // Prefix tsquery strings

  /** One variant as a prefix query: every space-separated token suffixed with `:*`, joined by ` & `. */
  function TsQuery(variant: string): (q: string)
    ensures ' ' !in variant ==> q == variant + ":*"
  {
    var tokens := Split(variant, ' ');
    Join(seq(|tokens|, i requires 0 <= i < |tokens| => tokens[i] + ":*"), " & ")
  }

  /** Each token followed by the prefix marker `:*`. */
  function Prefixed(tokens: seq<string>): (r: seq<string>)
    ensures |r| == |tokens|
    ensures forall i :: 0 <= i < |tokens| ==> r[i] == tokens[i] + ":*"
  {
    seq(|tokens|, i requires 0 <= i < |tokens| => tokens[i] + ":*")
  }

  /**
   * The pieces between the `&` signs of a text joined by ` & `: each item
   * with the space before it (except the first, unless `lead`) and the space
   * after it (except the last).
   */
  function Spaced(xs: seq<string>, lead: bool): (r: seq<string>)
    ensures |r| == |xs|
  {
    seq(|xs|, i requires 0 <= i < |xs| =>
      (if i > 0 || lead then " " else "") + xs[i] + (if i < |xs| - 1 then " " else ""))
  }

  lemma {:induction false} JoinAmpersand(xs: seq<string>, lead: bool)
    requires |xs| >= 1
    ensures (if lead then " " else "") + Join(xs, " & ") == Join(Spaced(xs, lead), "&")
    decreases |xs|
  {
    var pre := if lead then " " else "";
    var sp := Spaced(xs, lead);
    if |xs| > 1 {
      var rest := xs[1..];
      JoinAmpersand(rest, true);
      assert sp[1..] == Spaced(rest, true);
      assert Join(sp, "&") == (pre + xs[0] + " ") + "&" + Join(Spaced(rest, true), "&");
      assert Join(xs, " & ") == xs[0] + " & " + Join(rest, " & ");
    }
  }

  /**
   * The query of a non-empty normalised variant splits at its `&` signs into
   * the variant's tokens in order, each followed by `:*` and padded by the
   * spaces of the ` & ` separators.
   */
  lemma TsQueryTerms(v: string)
    requires NormalForm(v) && v != ""
    ensures Split(TsQuery(v), '&') == Spaced(Prefixed(Split(v, ' ')), false)
  {
    var ts := Split(v, ' ');
    NormalTokens(v);
    var joined := Join(Prefixed(ts), " & ");
    assert TsQuery(v) == joined;
    JoinAmpersand(Prefixed(ts), false);
    assert "" + joined == joined;
    TermsWithoutAmpersand(ts);
    SplitJoin(Spaced(Prefixed(ts), false), '&');
  }

  lemma TermsWithoutAmpersand(ts: seq<string>)
    requires forall t :: t in ts ==> forall k :: 0 <= k < |t| ==> NormalChar(t[k])
    ensures forall i :: 0 <= i < |ts| ==> '&' !in Spaced(Prefixed(ts), false)[i]
  {
    var sp := Spaced(Prefixed(ts), false);
    forall i | 0 <= i < |ts| ensures '&' !in sp[i] {
      assert ts[i] in ts;
      assert '&' !in ts[i];
    }
  }

  /** Text whose normalisation is empty yields the bare term `:*`. */
  lemma EmptyVariantQuery()
    ensures TsQuery("") == ":*"
  {
    assert Split("", ' ') == [""];
  }

  /** Every token of a non-empty normalised variant is a non-empty run of lower-case word characters. */
  lemma {:induction false} NormalTokens(v: string)
    requires NormalForm(v) && v != ""
    ensures forall t :: t in Split(v, ' ') ==> t != "" && forall k :: 0 <= k < |t| ==> NormalChar(t[k])
    decreases |v|
  {
    if ' ' in v {
      var i := IndexOf(v, ' ');
      assert 0 < i < |v| - 1;
      var head, rest := v[..i], v[i + 1..];
      assert Split(v, ' ') == [head] + Split(rest, ' ');
      assert forall k :: 0 <= k < |head| ==> NormalChar(head[k]) by {
        forall k | 0 <= k < |head| ensures NormalChar(head[k]) {
          assert head[k] == v[k] && head[k] in head;
        }
      }
      assert NormalForm(rest) by {
        forall k | 0 <= k < |rest| ensures rest[k] == v[i + 1 + k] {
        }
      }
      NormalTokens(rest);
    } else {
      assert Split(v, ' ') == [v];
      assert forall k :: 0 <= k < |v| ==> NormalChar(v[k]) by {
        forall k | 0 <= k < |v| ensures NormalChar(v[k]) {
          assert v[k] in v;
        }
      }
    }
  }

  /** The full-text plan of a search: one or two tsquery strings and the optional artist/title patterns. */
  datatype SearchPlan =
    | FullText(tsquery0: string, tsquery1: Option<string>, artistPattern: Option<string>,
               titlePattern: Option<string>, page: Pagination)
    | Standard(artistPattern: Option<string>, titlePattern: Option<string>, page: Pagination)

  /** `%basicNormalize(x)%` for a truthy filter. */
  function LikePattern(x: string): Option<string>
  {
    if x == "" then None else Some("%" + BasicNormalize(x) + "%")
  }

  /** The strings and numbers `searchSongs` hands to the database (empty text stands for an absent filter). */
  function PlanSearch(q: string, artist: string, title: string, page: NumParam, size: NumParam,
                      written: string -> string): (plan: SearchPlan)
    ensures plan.FullText? <==> q != ""
    ensures plan.FullText? ==> plan.tsquery0 == TsQuery(BasicNormalize(q))
    ensures plan.FullText? ==> (plan.tsquery1.Some? <==> ConvertTokensNumbers(BasicNormalize(q), written) != BasicNormalize(q))
    ensures plan.FullText? && plan.tsquery1.Some? ==>
              plan.tsquery1.value == TsQuery(ConvertTokensNumbers(BasicNormalize(q), written))
    ensures plan.artistPattern == if artist == "" then None else Some("%" + BasicNormalize(artist) + "%")
    ensures plan.titlePattern == if title == "" then None else Some("%" + BasicNormalize(title) + "%")
    ensures plan.page == QueryPagination(page, size, 20)
  {
    var p := QueryPagination(page, size, 20);
    if q != "" then
      var variants := ImprovedNormalize(q, written);
      FullText(TsQuery(variants[0]),
               if |variants| > 1 then Some(TsQuery(variants[1])) else None,
               LikePattern(artist), LikePattern(title), p)
    else
      Standard(LikePattern(artist), LikePattern(title), p)
  }

  /**
   * The paging figures of `listArtists` for `distinct` artists (page size
   * 100 unless given). None is the 500 "Error retrieving artists.": the
   * database refuses a negative `LIMIT`, and a negative `OFFSET`, which a
   * page below 1 gives with a positive limit.
   */
  function ArtistPaging(distinct: nat, page: NumParam, size: NumParam): (r: Option<(Pagination, Option<nat>, int)>)
    ensures var limit := QueryPagination(page, size, 100).limit;
              r.None? <==> limit < 0 || (limit > 0 && page.Number? && page.n < 1)
    ensures r.Some? ==> r.value.0 == QueryPagination(page, size, 100)
    ensures r.Some? ==> (r.value.1.None? <==> r.value.0.limit == 0)
    ensures r.Some? && r.value.0.limit > 0 && distinct == 0 ==> r.value.1 == Some(0)
    ensures r.Some? && r.value.0.limit > 0 && distinct > 0 ==>
              (r.value.1.value - 1) * r.value.0.limit < distinct <= r.value.1.value * r.value.0.limit
    ensures r.Some? ==> r.value.2 == if page.Number? then page.n else 1
  {
    var pg := WithDefault(page, 1);
    var p := QueryPagination(page, size, 100);
    if p.limit < 0 || p.offset < 0 then None
    else if p.limit > 0 then
      TotalPagesBounds(distinct, p.limit);
      Some((p, TotalPages(distinct, p.limit), CurrentPage(pg)))
    else
      Some((p, TotalPages(distinct, p.limit), CurrentPage(pg)))
  }
}

=== FILE: store.dfy ===
/**
 * The relational store behind every handler, as in-memory tables: venues by
 * id, the request queue, the global songbook, favourites, users, patrons,
 * API keys, and the single `state` row that carries the global serial.
 */
module Store {
  import opened Values

  /** The boolean column `accepting` is nullable. */
  datatype Venue = Venue(
    name: string,
    urlName: Option<string>,
    accepting: Option<bool>,
    address1: Option<string>,
    address2: Option<string>,
    city: Option<string>,
    state: Option<string>,
    zip: Option<string>,
    lat: Option<real>,
    lon: Option<real>)

  /** `requestTime` is milliseconds since the epoch; the column is nullable. */
  datatype Request = Request(
    requestId: int,
    venueId: int,
    artist: string,
    title: string,
    singer: string,
    requestTime: Option<int>,
    keyChange: int)

  datatype Song = Song(artist: string, title: string)

  datatype Favorite = Favorite(patronId: int, songId: int)

  /** `isAdmin` is a nullable boolean column. */
  datatype User = User(userId: int, username: string, passwordHash: string, email: string, isAdmin: Option<bool>)

  datatype Patron = Patron(
    patronId: int,
    firstName: Option<string>,
    lastName: Option<string>,
    email: Option<string>,
    mobile: Option<string>,
    passwordHash: Option<string>)

  datatype ApiKey = ApiKey(apiKeyId: int, key: string, userId: int)

  /** The songbook's unique column: `artist - title`. */
  function Combined(s: Song): string
  {
    s.artist + " - " + s.title
  }

  /** The `combined` values present in a songbook. */
  function CombinedSet(book: map<int, Song>): set<string>
  {
    set id | id in book :: Combined(book[id])
  }

  /** The index of the first element satisfying `p`. */
  function FirstIndex<T>(s: seq<T>, p: T -> bool): (r: Option<nat>)
    ensures r.Some? ==> r.value < |s| && p(s[r.value]) && forall j :: 0 <= j < r.value ==> !p(s[j])
    ensures r.None? ==> forall j :: 0 <= j < |s| ==> !p(s[j])
  {
    if s == [] then None
    else if p(s[0]) then Some(0)
    else match FirstIndex(s[1..], p)
      case None => None
      case Some(k) => Some(k + 1)
  }

  function RemoveAt<T>(s: seq<T>, i: nat): (r: seq<T>)
    requires i < |s|
    ensures |r| == |s| - 1
    ensures forall j :: 0 <= j < i ==> r[j] == s[j]
    ensures forall j :: i <= j < |r| ==> r[j] == s[j + 1]
  {
    s[..i] + s[i + 1..]
  }

  /** The requests of venue `v`, in table order (`WHERE venue_id = v`). */
  function ForVenue(rs: seq<Request>, v: int): (r: seq<Request>)
    ensures |r| <= |rs|
    ensures forall x :: x in r <==> x in rs && x.venueId == v
  {
    if rs == [] then [] else (if rs[0].venueId == v then [rs[0]] else []) + ForVenue(rs[1..], v)
  }

  /** The requests of every other venue, in table order: what `DELETE ... WHERE venue_id = v` leaves. */
  function Without(rs: seq<Request>, v: int): (r: seq<Request>)
    ensures |r| <= |rs|
    ensures forall x :: x in r <==> x in rs && x.venueId != v
  {
    if rs == [] then [] else (if rs[0].venueId != v then [rs[0]] else []) + Without(rs[1..], v)
  }

  /** Deleting a venue's requests removes exactly as many rows as it has. */
  lemma {:induction false} PartitionByVenue(rs: seq<Request>, v: int)
    ensures |ForVenue(rs, v)| + |Without(rs, v)| == |rs|
  {
    if rs != [] {
      PartitionByVenue(rs[1..], v);
    }
  }

  /** A row added at the end of the table joins its own venue's rows, at the end. */
  lemma {:induction false} ForVenueAppend(rs: seq<Request>, x: Request, v: int)
    ensures ForVenue(rs + [x], v) == ForVenue(rs, v) + (if x.venueId == v then [x] else [])
  {
    var tail := if x.venueId == v then [x] else [];
    if rs == [] {
      assert rs + [x] == [x];
    } else {
      var t, head := rs[1..], if rs[0].venueId == v then [rs[0]] else [];
      assert (rs + [x])[0] == rs[0] && (rs + [x])[1..] == t + [x];
      ForVenueAppend(t, x, v);
      calc {
        ForVenue(rs + [x], v);
        head + ForVenue(t + [x], v);
        head + (ForVenue(t, v) + tail);
        (head + ForVenue(t, v)) + tail;
        ForVenue(rs, v) + tail;
      }
    }
  }

  /** Request ids are keys below the next auto-increment value. */
  ghost predicate RequestsValid(rs: seq<Request>, next: int)
  {
    && (forall i :: 0 <= i < |rs| ==> rs[i].requestId < next)
    && (forall i, j :: 0 <= i < j < |rs| ==> rs[i].requestId != rs[j].requestId)
  }

  /** The rows after the first keep the keys valid and none repeats the first row's key. */
  lemma TailValid(rs: seq<Request>, next: int)
    requires RequestsValid(rs, next) && rs != []
    ensures RequestsValid(rs[1..], next)
    ensures forall x :: x in rs[1..] ==> x.requestId != rs[0].requestId
  {
    var t := rs[1..];
    forall i, j | 0 <= i < j < |t| ensures t[i].requestId != t[j].requestId {
      assert t[i] == rs[i + 1] && t[j] == rs[j + 1];
    }
    forall x | x in t ensures x.requestId != rs[0].requestId {
      var k :| 0 <= k < |t| && t[k] == x;
      assert t[k] == rs[k + 1];
    }
  }

  /** A row whose key is fresh may be put in front of valid rows. */
  lemma ConsValid(x: Request, t: seq<Request>, next: int)
    requires RequestsValid(t, next) && x.requestId < next
    requires forall y :: y in t ==> y.requestId != x.requestId
    ensures RequestsValid([x] + t, next)
  {
    var r := [x] + t;
    forall i, j | 0 <= i < j < |r| ensures r[i].requestId != r[j].requestId {
      assert r[j] == t[j - 1];
      if i > 0 {
        assert r[i] == t[i - 1];
      } else {
        assert r[j] in t;
      }
    }
  }

  /** Deleting all rows of one venue keeps the keys valid. */
  lemma {:induction false} WithoutKeepsValid(rs: seq<Request>, next: int, v: int)
    requires RequestsValid(rs, next)
    ensures RequestsValid(Without(rs, v), next)
  {
    if rs != [] {
      TailValid(rs, next);
      WithoutKeepsValid(rs[1..], next, v);
      if rs[0].venueId != v {
        ConsValid(rs[0], Without(rs[1..], v), next);
      }
    }
  }

  /** Deleting one row keeps the keys valid, and no remaining row carries the deleted key. */
  lemma RemoveAtKeepsValid(rs: seq<Request>, next: int, i: nat)
    requires RequestsValid(rs, next) && i < |rs|
    ensures RequestsValid(RemoveAt(rs, i), next)
    ensures forall x :: x in RemoveAt(rs, i) ==> x.requestId != rs[i].requestId
  {
    var r := RemoveAt(rs, i);
    forall a, b | 0 <= a < b < |r| ensures r[a].requestId != r[b].requestId {
      var a' := if a < i then a else a + 1;
      var b' := if b < i then b else b + 1;
      assert r[a] == rs[a'] && r[b] == rs[b'];
    }
    forall x | x in r ensures x.requestId != rs[i].requestId {
      var k :| 0 <= k < |r| && r[k] == x;
      var k' := if k < i then k else k + 1;
      assert r[k] == rs[k'];
    }
  }

  /** With unique keys, deleting the row at `i` deletes exactly the rows carrying its key. */
  lemma RemoveByKey(rs: seq<Request>, next: int, i: nat)
    requires RequestsValid(rs, next) && i < |rs|
    ensures forall x :: x in RemoveAt(rs, i) <==> x in rs && x.requestId != rs[i].requestId
  {
    RemoveAtKeepsValid(rs, next, i);
    var r := RemoveAt(rs, i);
    forall x | x in rs && x.requestId != rs[i].requestId ensures x in r {
      var k :| 0 <= k < |rs| && rs[k] == x;
      if k < i {
        assert r[k] == x;
      } else {
        assert k != i;
        assert r[k - 1] == x;
      }
    }
    forall x | x in r ensures x in rs {
      var k :| 0 <= k < |r| && r[k] == x;
      if k < i {
        assert rs[k] == x;
      } else {
        assert rs[k + 1] == x;
      }
    }
  }

  /** Song ids are below the next auto-increment value and `combined` is unique. */
  ghost predicate SongbookValid(book: map<int, Song>, next: int)
  {
    && (forall id :: id in book ==> id < next)
    && (forall a, b :: a in book && b in book && a != b ==> Combined(book[a]) != Combined(book[b]))
  }

  /** (patron, song) is the composite key of the favourites table. */
  ghost predicate UniqueFavorites(fs: seq<Favorite>)
  {
    forall i, j :: 0 <= i < j < |fs| ==> fs[i] != fs[j]
  }

  /** User ids, usernames and emails are unique. */
  ghost predicate UsersValid(us: seq<User>, next: int)
  {
    && (forall i :: 0 <= i < |us| ==> us[i].userId < next)
    && (forall i, j :: 0 <= i < j < |us| ==>
          us[i].userId != us[j].userId && us[i].username != us[j].username && us[i].email != us[j].email)
  }

  /** Patron ids are unique, and so are the emails and mobile numbers that are not null. */
  ghost predicate PatronsValid(ps: seq<Patron>, next: int)
  {
    && (forall i :: 0 <= i < |ps| ==> ps[i].patronId < next)
    && (forall i, j :: 0 <= i < j < |ps| ==>
          && ps[i].patronId != ps[j].patronId
          && (ps[i].email.Some? ==> ps[i].email != ps[j].email)
          && (ps[i].mobile.Some? ==> ps[i].mobile != ps[j].mobile))
  }

  /** Venue ids are below the next auto-increment value, and `url_name` is never null and unique. */
  ghost predicate VenuesValid(vs: map<int, Venue>, next: int)
  {
    && (forall id :: id in vs ==> 0 <= id < next && vs[id].urlName.Some?)
    && (forall a, b :: a in vs && b in vs && a != b && vs[a].urlName.Some? ==> vs[a].urlName != vs[b].urlName)
  }

  /** Whether some venue other than `except` already uses the url name `u`. */
  predicate UrlNameTaken(vs: map<int, Venue>, u: string, except: int)
  {
    exists id :: id in vs && id != except && vs[id].urlName == Some(u)
  }

  /** API key strings are unique. */
  ghost predicate UniqueKeys(ks: seq<ApiKey>)
  {
    forall i, j :: 0 <= i < j < |ks| ==> ks[i].key != ks[j].key
  }

  /**
   * The part of the store the OpenKJ commands read or write, as one value:
   * venues, the request queue, the songbook with its next key, the state
   * row, and the venue key counter.
   */
  datatype Tables = Tables(
    venues: map<int, Venue>,
    requests: seq<Request>,
    songbook: map<int, Song>,
    nextSongId: nat,
    hasState: bool,
    serial: nat,
    nextVenueId: nat)

  class Database {
    var venues: map<int, Venue>
    var requests: seq<Request>
    var songbook: map<int, Song>
    var favorites: seq<Favorite>
    var users: seq<User>
    var patrons: seq<Patron>
    var apiKeys: seq<ApiKey>
    /** Whether the single `state` row exists. */
    var hasState: bool
    var serial: nat
    /** The next values of the auto-increment keys. */
    var nextVenueId: nat
    var nextRequestId: nat
    var nextSongId: nat
    var nextUserId: nat
    var nextPatronId: nat

    /** A freshly migrated database: empty tables, no state row, every key counter at 1. */
    constructor ()
      ensures Valid()
      ensures venues == map[] && requests == [] && songbook == map[] && favorites == []
      ensures users == [] && patrons == [] && apiKeys == []
      ensures !hasState && CurrentSerial() == 0
      ensures nextVenueId == 1 && nextRequestId == 1 && nextSongId == 1 && nextUserId == 1 && nextPatronId == 1
    {
      venues, requests, songbook, favorites := map[], [], map[], [];
      users, patrons, apiKeys := [], [], [];
      hasState, serial := false, 0;
      nextVenueId, nextRequestId, nextSongId, nextUserId, nextPatronId := 1, 1, 1, 1, 1;
    }

    /** The tables the OpenKJ commands read or write, as they stand. */
    function Snapshot(): Tables
      reads this
    {
      Tables(venues, requests, songbook, nextSongId, hasState, serial, nextVenueId)
    }

    /** The keys and unique columns of the schema, and the default serial of a missing state row. */
    ghost predicate Valid()
      reads this
    {
      && (!hasState ==> serial == 0)
      && VenuesValid(venues, nextVenueId)
      && RequestsValid(requests, nextRequestId)
      && SongbookValid(songbook, nextSongId)
      && UniqueFavorites(favorites)
      && UsersValid(users, nextUserId)
      && PatronsValid(patrons, nextPatronId)
      && UniqueKeys(apiKeys)
    }

    /** The serial a reader sees: `state ? state.serial : 0`. */
    function CurrentSerial(): (s: nat)
      reads this
      requires Valid()
      ensures s == serial
    {
      if hasState then serial else 0
    }

    /** Creates the state row with serial 0 when, and only when, none exists. */
    method EnsureStateRow()
      requires Valid()
      modifies this`hasState, this`serial
      ensures Valid() && hasState
      ensures serial == old(serial)
      ensures !old(hasState) ==> serial == 0
      ensures Snapshot() == old(Snapshot()).(serial := serial, hasState := true)
    {
      if !hasState {
        hasState := true;
        serial := 0;
      }
    }

    /** Increments the global serial by one (creating the row first if needed) and returns the new value. */
    method UpdateSerial() returns (newSerial: nat)
      requires Valid()
      modifies this`hasState, this`serial
      ensures Valid() && hasState
      ensures serial == old(serial) + 1
      ensures newSerial == serial
      ensures Snapshot() == old(Snapshot()).(serial := serial, hasState := true)
    {
      if !hasState {
        EnsureStateRow();
      }
      serial := serial + 1;
      newSerial := serial;
    }

    /** Replaces the request table by rows whose keys are valid. */
    method SetRequests(rs: seq<Request>)
      requires Valid() && RequestsValid(rs, nextRequestId)
      modifies this`requests
      ensures Valid() && requests == rs
      ensures Snapshot() == old(Snapshot()).(requests := rs)
    {
      requests := rs;
    }

    /** Inserts a request under the next key (the auto-increment column). */
    method AddRequest(venueId: int, artist: string, title: string, singer: string,
                      time: Option<int>, keyChange: int) returns (r: Request)
      requires Valid()
      modifies this`requests, this`nextRequestId
      ensures Valid()
      ensures r == Request(old(nextRequestId), venueId, artist, title, singer, time, keyChange)
      ensures requests == old(requests) + [r] && nextRequestId == old(nextRequestId) + 1
    {
      r := Request(nextRequestId, venueId, artist, title, singer, time, keyChange);
      var rs := requests + [r];
      forall i, j | 0 <= i < j < |rs| ensures rs[i].requestId != rs[j].requestId {
        assert rs[i] == requests[i];
        if j < |requests| {
          assert rs[j] == requests[j];
        }
      }
      requests := rs;
      nextRequestId := nextRequestId + 1;
    }

    /** Replaces the venue table by a valid one. */
    method SetVenues(vs: map<int, Venue>)
      requires Valid() && VenuesValid(vs, nextVenueId)
      modifies this`venues
      ensures Valid() && venues == vs
    {
      venues := vs;
    }

    /** Sets one venue's accepting flag; its key and url name stay. */
    method SetVenueAccepting(id: int, accepting: bool)
      requires Valid() && id in venues
      modifies this`venues
      ensures Valid()
      ensures venues == old(venues)[id := old(venues)[id].(accepting := Some(accepting))]
      ensures Snapshot() == old(Snapshot()).(venues := venues)
    {
      var vs := venues[id := venues[id].(accepting := Some(accepting))];
      assert forall k :: k in vs ==> k in venues && vs[k].urlName == venues[k].urlName;
      venues := vs;
    }

    /** Inserts a venue whose url name is given and free under the next key. */
    method AddVenue(v: Venue) returns (id: nat)
      requires Valid()
      requires v.urlName.Some? && !UrlNameTaken(venues, v.urlName.value, -1)
      modifies this`venues, this`nextVenueId
      ensures Valid()
      ensures id == old(nextVenueId) && id !in old(venues)
      ensures venues == old(venues)[id := v] && nextVenueId == id + 1
    {
      id := nextVenueId;
      var vs := venues[id := v];
      forall a, b | a in vs && b in vs && a != b && vs[a].urlName.Some? ensures vs[a].urlName != vs[b].urlName {
        if a == id {
          assert b in venues && b != -1;
        } else if b == id {
          assert a in venues && a != -1;
        }
      }
      venues := vs;
      nextVenueId := nextVenueId + 1;
    }

    /** Replaces the favourites by a table without duplicate pairs. */
    method SetFavorites(fs: seq<Favorite>)
      requires Valid() && UniqueFavorites(fs)
      modifies this`favorites
      ensures Valid() && favorites == fs
    {
      favorites := fs;
    }

    /** Replaces the users by a valid table. */
    method SetUsers(us: seq<User>)
      requires Valid() && UsersValid(us, nextUserId)
      modifies this`users
      ensures Valid() && users == us
    {
      users := us;
    }

    /** Inserts a user under the next key. */
    method AddUser(u: User) returns (id: nat)
      requires Valid()
      requires u.userId == nextUserId
      requires forall x :: x in users ==> x.username != u.username && x.email != u.email
      modifies this`users, this`nextUserId
      ensures Valid()
      ensures id == old(nextUserId) && users == old(users) + [u] && nextUserId == id + 1
    {
      id := nextUserId;
      var us := users + [u];
      forall i, j | 0 <= i < j < |us|
        ensures us[i].userId != us[j].userId && us[i].username != us[j].username && us[i].email != us[j].email
      {
        assert us[i] == users[i];
        if j < |users| {
          assert us[j] == users[j];
        } else {
          assert users[i] in users;
        }
      }
      users := us;
      nextUserId := nextUserId + 1;
    }

    /** Replaces the API keys by a table of unique keys. */
    method SetApiKeys(ks: seq<ApiKey>)
      requires Valid() && UniqueKeys(ks)
      modifies this`apiKeys
      ensures Valid() && apiKeys == ks
    {
      apiKeys := ks;
    }

    /** Inserts a patron whose email and mobile number are free under the next key. */
    method AddPatron(p: Patron) returns (id: nat)
      requires Valid()
      requires p.patronId == nextPatronId
      requires forall x :: x in patrons ==> (p.email.Some? ==> x.email != p.email) && (p.mobile.Some? ==> x.mobile != p.mobile)
      modifies this`patrons, this`nextPatronId
      ensures Valid()
      ensures id == old(nextPatronId) && patrons == old(patrons) + [p] && nextPatronId == id + 1
    {
      id := nextPatronId;
      var ps := patrons + [p];
      forall i, j | 0 <= i < j < |ps|
        ensures && ps[i].patronId != ps[j].patronId
                && (ps[i].email.Some? ==> ps[i].email != ps[j].email)
                && (ps[i].mobile.Some? ==> ps[i].mobile != ps[j].mobile)
      {
        assert ps[i] == patrons[i];
        if j < |patrons| {
          assert ps[j] == patrons[j];
        } else {
          assert patrons[i] in patrons;
        }
      }
      patrons := ps;
      nextPatronId := nextPatronId + 1;
    }

    /** Replaces the songbook (and the next song key) by a valid one. */
    method SetSongbook(book: map<int, Song>, next: nat)
      requires Valid() && SongbookValid(book, next)
      modifies this`songbook, this`nextSongId
      ensures Valid() && songbook == book && nextSongId == next
      ensures Snapshot() == old(Snapshot()).(songbook := book, nextSongId := next)
    {
      songbook := book;
      nextSongId := next;
    }
  }
}

=== FILE: text.dfy ===
/**
 * The JavaScript string operations the handlers rely on: the white-space class
 * shared by `\s` and `trim()`, ASCII lower-casing, `split` on one character,
 * `join`, `startsWith`, `String(v)` and `parseInt(v, 10)`.
 */
module Text {
  import opened Values

  /** White space and line terminators: the class `\s` and the characters `trim()` removes. */
  predicate IsSpace(c: char)
  {
    var n := c as int;
    n == 0x09 || n == 0x0A || n == 0x0B || n == 0x0C || n == 0x0D || n == 0x20 ||
    n == 0xA0 || n == 0x1680 || (0x2000 <= n <= 0x200A) || n == 0x2028 || n == 0x2029 ||
    n == 0x202F || n == 0x205F || n == 0x3000 || n == 0xFEFF
  }

  /** The class `\w`: ASCII letters, digits and the underscore. */
  predicate IsWordChar(c: char)
  {
    ('a' <= c <= 'z') || ('A' <= c <= 'Z') || ('0' <= c <= '9') || c == '_'
  }

  function LowerChar(c: char): (d: char)
    ensures !('A' <= d <= 'Z')
    ensures 'A' <= c <= 'Z' || d == c
  {
    if 'A' <= c <= 'Z' then ((c as int) + 32) as char else c
  }

  /** `toLowerCase()` restricted to the ASCII letters. */
  function LowerAscii(s: string): (r: string)
    ensures |r| == |s|
    ensures forall i :: 0 <= i < |s| ==> r[i] == LowerChar(s[i])
  {
    if s == [] then [] else [LowerChar(s[0])] + LowerAscii(s[1..])
  }

  // ---------------------------------------------------------------------
  // trim()

  /** The number of white-space characters at the start of `s`. */
  function LeadingSpaces(s: string): (k: nat)
    ensures k <= |s|
    ensures forall i :: 0 <= i < k ==> IsSpace(s[i])
    ensures k < |s| ==> !IsSpace(s[k])
  {
    if s == [] || !IsSpace(s[0]) then 0 else 1 + LeadingSpaces(s[1..])
  }

  /** The number of white-space characters at the end of `s`. */
  function TrailingSpaces(s: string): (k: nat)
    ensures k <= |s|
    ensures forall i :: |s| - k <= i < |s| ==> IsSpace(s[i])
    ensures k < |s| ==> !IsSpace(s[|s| - k - 1])
  {
    if s == [] || !IsSpace(s[|s| - 1]) then 0 else 1 + TrailingSpaces(s[..|s| - 1])
  }

  function TrimStart(s: string): string
  {
    s[LeadingSpaces(s)..]
  }

  function TrimEnd(s: string): string
  {
    s[..|s| - TrailingSpaces(s)]
  }

  /** `s.trim()`: no white space at either end, and only white space was removed. */
  function Trim(s: string): (r: string)
    ensures r == "" || (!IsSpace(r[0]) && !IsSpace(r[|r| - 1]))
    ensures exists i, j :: 0 <= i <= j <= |s| && r == s[i..j] &&
              (forall k :: 0 <= k < i ==> IsSpace(s[k])) &&
              (forall k :: j <= k < |s| ==> IsSpace(s[k]))
  {
    var t := TrimStart(s);
    var r := TrimEnd(t);
    var i := LeadingSpaces(s);
    var j := i + |r|;
    assert r == s[i..j];
    r
  }

  lemma {:induction false} TrimOfTrimmed(s: string)
    requires s == "" || (!IsSpace(s[0]) && !IsSpace(s[|s| - 1]))
    ensures Trim(s) == s
  {
    assert LeadingSpaces(s) == 0;
    assert TrailingSpaces(s) == 0;
  }

  // ---------------------------------------------------------------------
  // split / join

  function IndexOf(s: string, c: char): (i: nat)
    requires c in s
    ensures i < |s| && s[i] == c && c !in s[..i]
  {
    if s[0] == c then 0 else 1 + IndexOf(s[1..], c)
  }

  /** `s.split(c)` for a one-character separator. */
  function Split(s: string, c: char): (parts: seq<string>)
    ensures |parts| >= 1
    ensures forall i :: 0 <= i < |parts| ==> c !in parts[i]
    decreases |s|
  {
    if c !in s then [s]
    else
      var i := IndexOf(s, c);
      [s[..i]] + Split(s[i + 1..], c)
  }

  /** `parts.join(sep)`. */
  function Join(parts: seq<string>, sep: string): string
  {
    if |parts| == 0 then ""
    else if |parts| == 1 then parts[0]
    else parts[0] + sep + Join(parts[1..], sep)
  }

  /** Splitting and joining back with the same character gives the original text. */
  lemma {:induction false} JoinSplit(s: string, c: char)
    ensures Join(Split(s, c), [c]) == s
    decreases |s|
  {
    if c in s {
      var i := IndexOf(s, c);
      var head, rest := s[..i], s[i + 1..];
      var parts, tail := Split(s, c), Split(rest, c);
      assert parts == [head] + tail;
      assert |parts| > 1 && parts[0] == head && parts[1..] == tail;
      assert Join(parts, [c]) == head + [c] + Join(tail, [c]);
      JoinSplit(rest, c);
      assert s == head + [c] + rest;
    }
  }

  /** Joining pieces that do not contain the separator and splitting again gives the pieces back. */
  lemma {:induction false} SplitJoin(parts: seq<string>, c: char)
    requires |parts| >= 1
    requires forall i :: 0 <= i < |parts| ==> c !in parts[i]
    ensures Split(Join(parts, [c]), c) == parts
  {
    if |parts| > 1 {
      SplitJoin(parts[1..], c);
      var s := Join(parts, [c]);
      var p := parts[0];
      assert s == p + [c] + Join(parts[1..], [c]);
      assert s[|p|] == c;
      assert s[..|p|] == p;
      assert IndexOf(s, c) == |p| by {
        IndexOfPrefix(p, c, [c] + Join(parts[1..], [c]));
      }
      assert s[|p| + 1..] == Join(parts[1..], [c]);
    }
  }

  lemma {:induction false} IndexOfPrefix(p: string, c: char, rest: string)
    requires c !in p
    requires |rest| > 0 && rest[0] == c
    ensures c in p + rest && IndexOf(p + rest, c) == |p|
  {
    assert (p + rest)[|p|] == c;
    if |p| > 0 {
      assert (p + rest)[1..] == p[1..] + rest;
      IndexOfPrefix(p[1..], c, rest);
    }
  }

  predicate StartsWith(s: string, prefix: string)
  {
    |prefix| <= |s| && s[..|prefix|] == prefix
  }

  // ---------------------------------------------------------------------
  // Coercions

  /** From 10^21 on, in absolute value, JavaScript writes a number in exponent form. */
  const ExponentFrom: int := 1_000_000_000_000_000_000_000

  /** The most significant decimal digit. */
  function LeadingDigit(m: nat): (d: nat)
    ensures d < 10
    ensures m > 0 ==> d > 0
  {
    if m < 10 then m else LeadingDigit(m / 10)
  }

  /** The decimal text of m starts with its leading digit. */
  lemma {:induction false} NatToStringHead(m: nat)
    ensures NatToString(m)[0] == DigitChar(LeadingDigit(m))
  {
    if m >= 10 {
      NatToStringHead(m / 10);
      assert NatToString(m) == NatToString(m / 10) + [DigitChar(m % 10)];
    }
  }

  /** `s` without its trailing zeros. */
  function DropTrailingZeros(s: string): (r: string)
    ensures |r| <= |s| && r == s[..|r|]
    ensures r == "" || r[|r| - 1] != '0'
  {
    if s == [] || s[|s| - 1] != '0' then s else DropTrailingZeros(s[..|s| - 1])
  }

  /**
   * The exponent form of m without a sign: the leading digit, a point and
   * the other digits up to the last non-zero one when there are such, then
   * `e+` and the number of digits after the first.
   */
  function ExponentForm(m: nat): (r: string)
    ensures |r| > 1 && r[0] == DigitChar(LeadingDigit(m)) && (r[1] == '.' || r[1] == 'e')
  {
    NatToStringHead(m);
    var ds := NatToString(m);
    var fraction := DropTrailingZeros(ds[1..]);
    var exponent := "e+" + NatToString(|ds| - 1);
    var r := [ds[0]] + (if fraction == "" then "" else "." + fraction) + exponent;
    r
  }

  /**
   * `String(n)` for an integer n: the decimal text below 10^21, the exponent
   * form from there on, and for a negative n a `-` before the text of -n.
   */
  function NumberToString(n: int): (t: string)
    ensures 0 <= n < ExponentFrom ==> IsDecimal(t)
    ensures -ExponentFrom < n < 0 ==> |t| > 1 && t[0] == '-' && IsDecimal(t[1..])
    ensures n >= ExponentFrom ==> |t| > 1 && t[0] == DigitChar(LeadingDigit(n)) && !IsDigit(t[1])
    ensures n <= -ExponentFrom ==> |t| > 2 && t[0] == '-' && t[1] == DigitChar(LeadingDigit(-n)) && !IsDigit(t[2])
    decreases if n < 0 then 1 else 0
  {
    if n < 0 then
      var u := NumberToString(-n);
      assert ("-" + u)[1..] == u;
      "-" + u
    else if n < ExponentFrom then NatToString(n)
    else ExponentForm(n)
  }

  /** `String(v)`. */
  function ToJsString(v: JsValue): (t: string)
    ensures v.Str? ==> t == v.s
    ensures v.Num? && 0 <= v.n < ExponentFrom ==> IsDecimal(t)
    ensures v.Num? && -ExponentFrom < v.n < 0 ==> |t| > 1 && t[0] == '-' && IsDecimal(t[1..])
    ensures v.Num? && v.n >= ExponentFrom ==> |t| > 1 && t[0] == DigitChar(LeadingDigit(v.n)) && !IsDigit(t[1])
    ensures v.Num? && v.n <= -ExponentFrom ==> |t| > 2 && t[0] == '-' && t[1] == DigitChar(LeadingDigit(-v.n)) && !IsDigit(t[2])
  {
    match v
    case Undefined => "undefined"
    case Null => "null"
    case Bool(b) => if b then "true" else "false"
    case Num(n) => NumberToString(n)
    case Str(s) => s
    case Arr(items) =>
      Join(seq(|items|, i requires 0 <= i < |items| =>
             if items[i] == Undefined || items[i] == Null then "" else ToJsString(items[i])), ",")
    case Obj(_) => "[object Object]"
  }

  /** The longest prefix of decimal digits. */
  function DigitPrefix(s: string): (d: string)
    ensures |d| <= |s| && d == s[..|d|]
    ensures forall i :: 0 <= i < |d| ==> IsDigit(d[i])
    ensures |d| < |s| ==> !IsDigit(s[|d|])
  {
    if s == [] || !IsDigit(s[0]) then "" else [s[0]] + DigitPrefix(s[1..])
  }

  /**
   * `parseInt(s, 10)`: leading white space, an optional sign, then the longest
   * run of digits; None stands for NaN (no digit at all).
   */
  function ParseInt(s: string): (r: Option<int>)
    ensures IsDecimal(s) ==> r == Some(DecimalValue(s))
  {
    DecimalUntrimmed(s);
    var t := TrimStart(s);
    var negative := |t| > 0 && t[0] == '-';
    var u := if |t| > 0 && (t[0] == '-' || t[0] == '+') then t[1..] else t;
    var d := DigitPrefix(u);
    var value: int := if d == "" then 0 else DecimalValue(d);
    if d == "" then None else Some(if negative then -value else value)
  }

  /** A string of digits has no leading space and is its own digit prefix. */
  lemma DecimalUntrimmed(s: string)
    ensures IsDecimal(s) ==> TrimStart(s) == s && DigitPrefix(s) == s
  {
    if IsDecimal(s) {
      assert LeadingSpaces(s) == 0;
      DigitPrefixOfDecimal(s);
    }
  }

  lemma {:induction false} DigitPrefixOfDecimal(s: string)
    requires forall i :: 0 <= i < |s| ==> IsDigit(s[i])
    ensures DigitPrefix(s) == s
  {
    if s != [] {
      DigitPrefixOfDecimal(s[1..]);
    }
  }

  /** `parseInt` reads an optionally negated run of digits as its value. */
  lemma ParseIntOfDigits(d: string, negative: bool)
    requires IsDecimal(d)
    ensures ParseInt((if negative then "-" else "") + d) ==
            Some(if negative then -(DecimalValue(d) as int) else DecimalValue(d))
  {
    var s := (if negative then "-" else "") + d;
    assert s[0] == '-' || IsDigit(s[0]);
    assert LeadingSpaces(s) == 0;
    assert TrimStart(s) == s;
    assert (|s| > 0 && s[0] == '-') == negative;
    var u := if s[0] == '-' || s[0] == '+' then s[1..] else s;
    assert u == d;
    DigitPrefixOfDecimal(d);
  }

  /**
   * `parseInt(String(n), 10)`: n itself below 10^21 in absolute value, and
   * from there on the signed leading digit, where the exponent form's point
   * or `e` ends the digits.
   */
  lemma ParseIntOfNumber(n: int)
    ensures -ExponentFrom < n < ExponentFrom ==> ParseInt(NumberToString(n)) == Some(n)
    ensures n >= ExponentFrom ==> ParseInt(NumberToString(n)) == Some(LeadingDigit(n) as int)
    ensures n <= -ExponentFrom ==> ParseInt(NumberToString(n)) == Some(-(LeadingDigit(-n) as int))
  {
    if -ExponentFrom < n < ExponentFrom {
      if n < 0 {
        assert NumberToString(-n) == NatToString(-n);
      }
      assert NumberToString(n) == IntToString(n);
      ParseIntOfIntToString(n);
    } else {
      if n < 0 {
        ParseIntOfNegatedDigit(NumberToString(n));
      } else {
        ParseIntOfOneDigit(NumberToString(n));
      }
    }
  }

  /** A digit followed by a non-digit is read as that digit. */
  lemma ParseIntOfOneDigit(r: string)
    requires |r| > 1 && IsDigit(r[0]) && !IsDigit(r[1])
    ensures ParseInt(r) == Some(DigitValue(r[0]) as int)
  {
    var d, rest := r[..1], r[1..];
    assert r == "" + (d + rest);
    assert DigitPrefix(d + rest) == d;
    assert DecimalValue(d) == DigitValue(r[0]) by {
      assert d[..0] == [];
    }
    ParseIntPrefix(d, rest, false);
  }

  /** A minus sign, a digit and a non-digit are read as the negated digit. */
  lemma ParseIntOfNegatedDigit(r: string)
    requires |r| > 2 && r[0] == '-' && IsDigit(r[1]) && !IsDigit(r[2])
    ensures ParseInt(r) == Some(-(DigitValue(r[1]) as int))
  {
    var d, rest := r[1..2], r[2..];
    assert r == "-" + (d + rest);
    assert DigitPrefix(d + rest) == d;
    assert DecimalValue(d) == DigitValue(r[1]) by {
      assert d[..0] == [];
    }
    ParseIntPrefix(d, rest, true);
  }

  /** `parseInt` reads an optionally negated run of digits followed by a non-digit as the run's value. */
  lemma ParseIntPrefix(d: string, rest: string, negative: bool)
    requires IsDecimal(d) && DigitPrefix(d + rest) == d
    ensures ParseInt((if negative then "-" else "") + (d + rest)) ==
            Some(if negative then -(DecimalValue(d) as int) else DecimalValue(d))
  {
    var s := (if negative then "-" else "") + (d + rest);
    assert s[0] == '-' || IsDigit(s[0]);
    assert LeadingSpaces(s) == 0;
    assert TrimStart(s) == s;
    var u := if s[0] == '-' || s[0] == '+' then s[1..] else s;
    assert u == d + rest;
  }

  /** `parseInt` reads the decimal text of any integer back as that integer. */
  lemma ParseIntOfIntToString(n: int)
    ensures ParseInt(IntToString(n)) == Some(n)
  {
    var m: nat := if n < 0 then -n else n;
    NatToStringRoundTrip(m);
    ParseIntOfDigits(NatToString(m), n < 0);
    assert IntToString(n) == (if n < 0 then "-" else "") + NatToString(m);
  }
}

=== FILE: values.dfy ===
/**
 * Values shared by every handler: optional values, the JSON values that
 * arrive in request bodies and query strings, the HTTP reply shape, and the
 * way the database turns a parameter into an integer key.
 */
module Values {

  datatype Option<T> = None | Some(value: T)

  /** A JSON value as JavaScript sees it after body parsing; `Undefined` is an absent property. */
  datatype JsValue =
    | Undefined
    | Null
    | Bool(b: bool)
    | Num(n: int)
    | Str(s: string)
    | Arr(items: seq<JsValue>)
    | Obj(fields: map<string, JsValue>)

  /** JavaScript truthiness (`!v` is its negation). */
  predicate Truthy(v: JsValue)
  {
    match v
    case Undefined => false
    case Null => false
    case Bool(b) => b
    case Num(n) => n != 0
    case Str(s) => s != ""
    case Arr(_) => true
    case Obj(_) => true
  }

  /** Property access `v.k`: only objects carry named properties. */
  function Prop(v: JsValue, k: string): JsValue
  {
    if v.Obj? && k in v.fields then v.fields[k] else Undefined
  }

  /** The presence test `v === undefined || v === null || v === ''`. */
  predicate Missing(v: JsValue)
  {
    v == Undefined || v == Null || v == Str("")
  }

  /** An HTTP reply: status code, the `error` flag, the `errorString`, and a payload. */
  datatype Reply<T> = Reply(status: int, error: bool, errorString: string, body: Option<T>)

  function Fail<T>(status: int, text: string): Reply<T>
  {
    Reply(status, true, text, None)
  }

  function Success<T>(status: int, body: T): Reply<T>
  {
    Reply(status, false, "", Some(body))
  }

  /** The reply `204 No Content`. */
  function NoContent<T>(): Reply<T>
  {
    Reply(204, false, "", None)
  }

  /** A property of a request body that names a column: left out, explicitly null, or given. */
  datatype Field<T> = Omitted | Nulled | Given(value: T)

  /** The column value a field writes when it is not left out. */
  function FieldValue<T>(f: Field<T>): (r: Option<T>)
    ensures r.Some? <==> f.Given?
  {
    if f.Given? then Some(f.value) else None
  }

  /** Truthiness of a text field: given and not empty. */
  predicate FieldTruthy(f: Field<string>)
  {
    f.Given? && f.value != ""
  }

  // ---------------------------------------------------------------------
  // Decimal text

  predicate IsDigit(c: char) { '0' <= c <= '9' }

  /** A non-empty string of decimal digits (the regular expression `^\d+$`). */
  predicate IsDecimal(s: string)
  {
    |s| > 0 && forall i :: 0 <= i < |s| ==> IsDigit(s[i])
  }

  function DigitValue(c: char): nat
    requires IsDigit(c)
  {
    (c as int) - ('0' as int)
  }

  function DigitChar(d: nat): (c: char)
    requires d < 10
    ensures IsDigit(c) && DigitValue(c) == d
  {
    (('0' as int) + d) as char
  }

  /** The number a string of digits denotes. */
  function DecimalValue(s: string): nat
    requires forall i :: 0 <= i < |s| ==> IsDigit(s[i])
  {
    if s == [] then 0 else DecimalValue(s[..|s| - 1]) * 10 + DigitValue(s[|s| - 1])
  }

  /** The decimal text of a natural number (`String(n)` below 10^21). */
  function NatToString(n: nat): (s: string)
    ensures IsDecimal(s)
  {
    if n < 10 then [DigitChar(n)] else NatToString(n / 10) + [DigitChar(n % 10)]
  }

  /** The decimal text of an integer, led by `-` when it is negative. */
  function IntToString(n: int): string
  {
    if n < 0 then "-" + NatToString(-n) else NatToString(n)
  }

  lemma {:induction false} NatToStringRoundTrip(n: nat)
    ensures DecimalValue(NatToString(n)) == n
  {
    if n >= 10 {
      NatToStringRoundTrip(n / 10);
      var s := NatToString(n);
      assert s[..|s| - 1] == NatToString(n / 10);
    }
  }

  /** The range of the database's 32-bit `INTEGER` columns. */
  predicate IsInt4(n: int)
  {
    -0x8000_0000 <= n <= 0x7fff_ffff
  }

  /**
   * How the database casts a query parameter compared with an INTEGER key:
   * numbers are used as they are (a number out of the column's range matches
   * no row), strings of digits are converted, and any other value, or digits
   * beyond the column's range, makes the query fail (None).
   */
  function Key(v: JsValue): (k: Option<int>)
    ensures v.Num? ==> k == Some(v.n)
    ensures k.Some? ==> v.Num? || (v.Str? && IsDecimal(v.s))
    ensures v.Str? && k.Some? ==> IsInt4(k.value)
    ensures v.Str? && IsDecimal(v.s) && IsInt4(DecimalValue(v.s)) ==> k == Some(DecimalValue(v.s))
  {
    match v
    case Num(n) => Some(n)
    case Str(s) => if IsDecimal(s) && IsInt4(DecimalValue(s)) then Some(DecimalValue(s)) else None
    case _ => None
  }

  lemma KeyOfText(n: nat)
    requires IsInt4(n)
    ensures Key(Str(NatToString(n))) == Some(n)
  {
    NatToStringRoundTrip(n);
  }

  /** Digits beyond the column's range fail the cast. */
  lemma KeyOutOfRange(n: nat)
    requires !IsInt4(n)
    ensures Key(Str(NatToString(n))) == None
  {
    NatToStringRoundTrip(n);
  }

  /**
   * The keys matched by `IN (...)`, the clause the ORM builds for an array
   * compared with an INTEGER key: each item cast as `Key` casts it, `null`
   * matching nothing; None when some item cannot be cast (the query fails).
   */
  function KeysIn(items: seq<JsValue>): (r: Option<set<int>>)
    ensures r.None? <==> exists i :: 0 <= i < |items| && items[i] != Null && Key(items[i]).None?
    ensures r.Some? ==> forall k :: k in r.value <==> exists i :: 0 <= i < |items| && Key(items[i]) == Some(k)
    decreases |items|
  {
    if items == [] then Some({})
    else
      var rest := KeysIn(items[1..]);
      assert forall i :: 1 <= i < |items| ==> items[1..][i - 1] == items[i];
      if items[0] != Null && Key(items[0]).None? then None
      else if rest.None? then None
      else Some((if items[0] == Null then {} else {Key(items[0]).value}) + rest.value)
  }

  /**
   * The texts matched by `IN (...)` for an array compared with a text
   * column: its strings, `null` matching nothing; None when some item is
   * neither (the database refuses to compare a text with it).
   */
  function TextsIn(items: seq<JsValue>): (r: Option<set<string>>)
    ensures r.None? <==> exists i :: 0 <= i < |items| && items[i] != Null && !items[i].Str?
    ensures r.Some? ==> forall t :: t in r.value <==> Str(t) in items
    decreases |items|
  {
    if items == [] then Some({})
    else
      var rest := TextsIn(items[1..]);
      assert forall i :: 1 <= i < |items| ==> items[1..][i - 1] == items[i];
      assert forall v :: v in items <==> v == items[0] || v in items[1..];
      if items[0] != Null && !items[0].Str? then None
      else if rest.None? then None
      else Some((if items[0] == Null then {} else {items[0].s}) + rest.value)
  }

  /** The classes of database failure the handlers tell apart. */
  datatype DbError = ValidationFailure | UniqueViolation | ForeignKeyViolation | OtherDbError

  /**
   * `error instanceof ValidationError`: in the ORM the unique-constraint error
   * is a subclass of the validation error.
   */
  predicate IsValidationError(e: DbError)
  {
    e == ValidationFailure || e == UniqueViolation
  }

  /**
   * The catch block of the admin create and update handlers as written: the
   * validation-error test comes before the unique-constraint test.
   */
  function CatchAsWritten<T>(e: DbError, conflict: string, failure: string): (r: Reply<T>)
    ensures r.error
    ensures r.status == 400 <==> IsValidationError(e)
  {
    if IsValidationError(e) then Fail(400, "Validation failed")
    else if e == UniqueViolation then Fail(409, conflict)
    else Fail(500, failure)
  }

  /** As written, no database error is ever answered with 409: a unique violation is a validation error. */
  lemma ConflictUnreachable<T>(e: DbError, conflict: string, failure: string)
    ensures CatchAsWritten<T>(e, conflict, failure).status != 409
    ensures CatchAsWritten<T>(UniqueViolation, conflict, failure) == Fail(400, "Validation failed")
  {
  }

  /** The catch block with the more specific unique-constraint test first. */
  function CatchFailure<T>(e: DbError, conflict: string, failure: string): (r: Reply<T>)
    ensures r.error
    ensures r.status == 409 <==> e == UniqueViolation
    ensures r.status == 400 <==> e == ValidationFailure
  {
    if e == UniqueViolation then Fail(409, conflict)
    else if IsValidationError(e) then Fail(400, "Validation failed")
    else Fail(500, failure)
  }

  /** The corrected catch block differs from the written one only on unique violations. */
  lemma CatchFailureAgrees<T>(e: DbError, conflict: string, failure: string)
    ensures e != UniqueViolation ==> CatchFailure<T>(e, conflict, failure) == CatchAsWritten<T>(e, conflict, failure)
    ensures CatchFailure<T>(UniqueViolation, conflict, failure) == Fail(409, conflict)
  {
  }
}
